=== FILE: README.md ===
# luxeloom, modelled in Dafny

luxeloom is an inventory and sales manager for a small clothing shop. A Spring Boot back end keeps
categories, products (with stock) and sales, and registers users who log in with JWT access tokens
and rotating refresh tokens. A React front end holds the listing pages, their forms and an HTTP
client that refreshes the access token once for every request that got a 401.

This project models the part of the system that decides things:

- the ledger services (`ProductService`, `CategoryService`, `SaleService`) and the aggregate
  queries of `SaleRepository`;
- the identity services (`UserService`, `RefreshTokenService`, `AuthService`);
- the bean-validation constraints of the request DTOs, and which controller endpoints apply them;
- `GlobalResponseHandler`, which turns each exception into an HTTP status and body;
- on the front end, `authFetch`, the `Pagination` component, and the form logic of
  `SalesPage`, `ProductPage`, `UsersPage` and `CategoriesPage`.

Modelling choices:

- The stores are immutable datatypes: `Ledger.Store` for the shop, `Accounts.Accounts` for identity.
- Every `@Transactional` service method is a function that returns `Result<Commit<T>>`. An error
  carries no store, so a thrown exception rolls the transaction back by construction.
- Stored money is an integer number of cents, as a `BigDecimal` column of scale 2 is. Request prices
  are taken in cents too (see "## Left out").
- Java's `int` is `Common.Int32`. Its wrap-around is written out with `Common.Wrap32` where the
  source computes in `int`.
- Spring Data's derived finders return the set of matching ids. `Ledger.Single` says what an
  `Optional` finder makes of that set.
- Entity column constraints are checked when a row is saved. A violation is an exception that
  no handler catches, so it becomes a 500.
- BCrypt, `UUID.randomUUID()`, the generated secret and `Instant.now()` are parameters. The
  encoder is a pair of functions with a soundness predicate (`Accounts.Sound`).
- On the front end, JavaScript numbers and `parseFloat` stay abstract: the parse result is a
  parameter.

Each operation has a partner: an invariant it keeps (`Valid` of each store), an independent
definition it is proved to agree with (the violation lists against the validity predicates, the
listing against the table), or an inverse (split against join, remove against add).

## Model

| member | source | states |
|---|---|---|
| Common.Wrap32 | backend/src/main/java/com/fms/backend/services/ProductService.java:137 | Java's `int` subtraction: the result is congruent to the exact difference modulo 2^32, and equals it when the difference fits in an `int` |
| Text.JavaLength | backend/src/main/java/com/fms/backend/dto/ProductRequestDTO.java:8-15 | the length `@Size` measures, in UTF-16 code units, lies between the number of characters and twice that |
| Text.Join | backend/src/main/java/com/fms/backend/services/auth/AuthService.java:47-50 | `Collectors.joining` of no parts is the empty string |
| Text.SplitJoin | backend/src/main/java/com/fms/backend/services/auth/AuthService.java:47-50 | splitting the joined scope on the separator gives the role names back, when none of them holds the separator |
| Text.JavaSplitDot | backend/src/main/java/com/fms/backend/services/auth/RefreshTokenService.java:83-86 | no piece of `split("\\.")` holds a dot |
| Text.SplitDotOfComposite | backend/src/main/java/com/fms/backend/services/auth/RefreshTokenService.java:83-89 | `split("\\.")` of `tokenId + "." + secret` gives exactly the two parts, when neither holds a dot and the secret is not empty |
| Text.SplitDotOfEmptySecret | backend/src/main/java/com/fms/backend/services/auth/RefreshTokenService.java:83-86 | with an empty secret the trailing empty piece is dropped, so the composite has one piece and fails the format check |
| Ledger.Single | backend/src/main/java/com/fms/backend/repositories/ProductRepository.java:12 | an `Optional` finder gives empty exactly when nothing matches, the one id when exactly one row matches, and a non-unique-result exception exactly when several rows match |
| Ledger.ProductNamesUnique | backend/src/main/java/com/fms/backend/services/ProductService.java:78-80 | in a valid store at most one product has a given name |
| Ledger.CategoryNamesUnique | backend/src/main/java/com/fms/backend/services/CategoryService.java:62-74 | in a valid store at most one category has a given name |
| Ledger.StockChangePreservesValid | backend/src/main/java/com/fms/backend/services/ProductService.java:132-145 | a store that differs only in stock levels keeps the store invariant |
| Ledger.AddSalePreservesValid | backend/src/main/java/com/fms/backend/services/SaleService.java:80-84 | inserting a sale under the next id, with fitting columns, agreeing amounts and existing products, keeps the store invariant |
| Ledger.Descending | backend/src/main/java/com/fms/backend/services/ProductService.java:41 | `Sort.by("id").descending()` of a set of ids: every id exactly once, strictly decreasing |
| Ledger.DescendingWithNewMax | backend/src/main/java/com/fms/backend/services/ProductService.java:41 | an id above every existing id goes to the front of the order |
| Ledger.ByIdDesc | backend/src/main/java/com/fms/backend/services/ProductService.java:41-42 | the listing holds one row per key of the table, row `i` being the row of the `i`-th key in descending order |
| Ledger.ByIdDescComplete | backend/src/main/java/com/fms/backend/services/ProductService.java:41-42 | every row of the table is listed |
| Ledger.ByIdDescWithNewMax | backend/src/main/java/com/fms/backend/services/ProductService.java:41-42 | a row inserted under a key above every existing key is listed first and the rest keep their order |
| Ledger.RowsDescending | backend/src/main/java/com/fms/backend/services/ProductService.java:41-42 | rows that carry their own key are listed with strictly decreasing ids |
| Ledger.ProductRowsDescending | backend/src/main/java/com/fms/backend/services/ProductService.java:41-42 | in a valid store the product listing has strictly decreasing product ids |
| Ledger.CategoryRowsDescending | backend/src/main/java/com/fms/backend/services/CategoryService.java:33-42 | in a valid store the category listing has strictly decreasing category ids |
| Ledger.PageOf | backend/src/main/java/com/fms/backend/services/ProductService.java:41-45 | `PageRequest.of` accepts exactly a non-negative page and a positive size; the page holds the elements from `page * size` on, at most `size` of them, in order, with the total count and the page count |
| Ledger.PageKeepsOrder | backend/src/main/java/com/fms/backend/services/ProductService.java:41-45 | a page of a strictly descending result is strictly descending |
| Ledger.ElementOnItsPage | backend/src/main/java/com/fms/backend/services/ProductService.java:41-45 | element `i` of the result is on page `i / size`, at position `i % size` |
| Responses.Respond | backend/src/main/java/com/fms/backend/exceptions/handler/GlobalResponseHandler.java:25-95 | each exception class gets its status (401 authentication and refresh, 403, 404, 409, 400 validation and binding, 500 for the rest), and each status comes from exactly those classes; the generic authentication message replaces the exception's own; a binding failure, and only it, gives a field map whose keys are exactly the failing fields |
| Responses.FieldMapKeys | backend/src/main/java/com/fms/backend/exceptions/handler/GlobalResponseHandler.java:87-92 | the map built with `errors.put` has exactly the failing fields as keys |
| Responses.FieldMapLast | backend/src/main/java/com/fms/backend/exceptions/handler/GlobalResponseHandler.java:88-92 | a field with several errors reports the message of the last one |
| Responses.SingleErrorReported | backend/src/main/java/com/fms/backend/exceptions/handler/GlobalResponseHandler.java:88-92 | a field with one error reports that error's message |
| Responses.MessagePassesThrough | backend/src/main/java/com/fms/backend/exceptions/handler/GlobalResponseHandler.java:35-82 | the handled exceptions other than the binding one pass their own message through as the body |
| Requests.ItemViolations | backend/src/main/java/com/fms/backend/dto/SaleItemRequestDTO.java:11-17 | a sale item has no violation exactly when its product id is present and positive and its quantity is present and at least 1; every error names one of the item's two fields |
| Requests.ItemsViolations | backend/src/main/java/com/fms/backend/dto/SaleRequestDTO.java:23-25 | the cascaded item errors are empty exactly when every item is valid |
| Requests.SaleViolations | backend/src/main/java/com/fms/backend/dto/SaleRequestDTO.java:14-25 | a sale request has no violation exactly when the client fits 100 units, the channel and date are present, and the item list is present, non-empty and all valid |
| Requests.ProductViolations | backend/src/main/java/com/fms/backend/dto/ProductRequestDTO.java:8-25 | a product request has no violation exactly when the three strings fit 100, 500 and 50 units, the category id is present and at least 1, and a present price is at least one cent and a present stock is not negative |
| Requests.UserViolations | backend/src/main/java/com/fms/backend/dto/UserRequestDTO.java:15-23 | a user request has no violation exactly when name, email and password are present with something that survives `trim()`, the email passes `@Email` and the password is at least 6 units long |
| Requests.BlankShortPasswordTwoErrors | backend/src/main/java/com/fms/backend/dto/UserRequestDTO.java:22-23 | a password of three spaces breaks both of its constraints, so the field has two distinct errors |
| Requests.CategoryViolations | backend/src/main/java/com/fms/backend/dto/CategoryRequestDTO.java:8-10 | a category request has no violation exactly when the name is present, not blank and at most 50 units; a missing name gives exactly the "required" error |
| Endpoints.PatchProduct | backend/src/main/java/com/fms/backend/controllers/ProductController.java:38-39 | an invalid body is answered 400 with the binding errors; a valid one reaches `patch` |
| Endpoints.PutCategory | backend/src/main/java/com/fms/backend/controllers/CategoryController.java:44-45 | an invalid body is answered 400 with the binding errors; a valid one reaches `update` |
| Endpoints.PostUser | backend/src/main/java/com/fms/backend/controllers/UserController.java:30-31 | an invalid body is answered 400 with the binding errors; a valid one reaches `create` |
| Endpoints.PatchSale | backend/src/main/java/com/fms/backend/controllers/SaleController.java:42-43 | an invalid body is answered 400 with the binding errors; a valid one reaches `patch` |
| Endpoints.SalePatchAlwaysFails | backend/src/main/java/com/fms/backend/controllers/SaleController.java:42-43 | a validated body always has a non-empty item list, so every sale PATCH fails with 400, 404 or 500 |
| Endpoints.ValidSaleHasPositiveQuantities | backend/src/main/java/com/fms/backend/dto/SaleItemRequestDTO.java:15-17 | every item of a validated sale body has a quantity of at least 1 |
| Endpoints.NegativeQuantityRaisesStock | backend/src/main/java/com/fms/backend/controllers/SaleController.java:24-25 | an unvalidated sale line with a negative quantity passes the shortage check, and a registered sale raises that product's stock by the quantity's magnitude, although the body breaks the DTO's constraints |
| Endpoints.NegativeStockProductAccepted | backend/src/main/java/com/fms/backend/controllers/ProductController.java:23-24 | the unvalidated product POST stores a complete product with a negative stock, a body that breaks `@Min(0)` and that the validated PATCH answers with 400 |
| Endpoints.BlankCategoryNameAccepted | backend/src/main/java/com/fms/backend/controllers/CategoryController.java:24-25 | the unvalidated category POST stores a name of spaces, a body that breaks `@NotBlank` and that the validated PUT answers with 400 |
| Endpoints.EmptyPasswordPatchAccepted | backend/src/main/java/com/fms/backend/controllers/UserController.java:41-44 | the unvalidated patch stores an empty password for the account's owner, which `@NotBlank` would have refused |
| ProductService.FindEntityById | backend/src/main/java/com/fms/backend/services/ProductService.java:60-67 | the stored product exactly when the id exists, otherwise not-found naming the id |
| ProductService.SaveProduct | backend/src/main/java/com/fms/backend/models/Product.java:24-40 | a save succeeds exactly when the row fits its columns, and then replaces the row under its id |
| ProductService.Create | backend/src/main/java/com/fms/backend/services/ProductService.java:69-93 | a missing name, price, stock or category id is a validation error; a taken name is a conflict; an unknown category is not-found; a complete request with a free name and a known category succeeds exactly when the new row fits its columns, and is then inserted under the next id with the requested fields, nothing else changing; otherwise the column constraint refuses it |
| ProductService.Merge | backend/src/main/java/com/fms/backend/mappers/ProductMapper.java:22-24 | each non-null field of the request replaces the product's; null fields, the id and the category are kept |
| ProductService.MergeIdempotent | backend/src/main/java/com/fms/backend/services/ProductService.java:110-118 | merging twice is merging once, and a request with only nulls changes nothing |
| ProductService.NameFreeFor | backend/src/main/java/com/fms/backend/services/ProductService.java:102-108 | a name is free for a product exactly when no other product has it; a name held by one other product is a conflict |
| ProductService.Patch | backend/src/main/java/com/fms/backend/services/ProductService.java:95-123 | unknown id is not-found; a name held by another product is refused; otherwise the merged product, with the requested category when it exists, replaces the old one and nothing else changes |
| ProductService.PatchKeepsOwnName | backend/src/main/java/com/fms/backend/services/ProductService.java:102-108 | re-sending a product's own name is not a conflict |
| ProductService.Delete | backend/src/main/java/com/fms/backend/services/ProductService.java:125-130 | a delete succeeds exactly when the product exists and no sale line refers to it, and then removes only that row |
| ProductService.UpdateStock | backend/src/main/java/com/fms/backend/services/ProductService.java:132-145 | the new stock is the old stock minus the quantity in 32-bit arithmetic; a negative result is refused as insufficient, and on success only that product's stock changes |
| ProductService.UpdateStockExact | backend/src/main/java/com/fms/backend/services/ProductService.java:132-145 | without overflow the decrement is accepted exactly when the stock covers it, and leaves the exact difference |
| ProductService.UpdateStockOverflowRefused | backend/src/main/java/com/fms/backend/services/ProductService.java:137-141 | a stock at `Integer.MAX_VALUE` cannot grow: adding one wraps to a negative value and is refused |
| ProductService.MissingProductNotFound | backend/src/main/java/com/fms/backend/services/ProductService.java:60-67 | patch, delete and stock update all report a missing product as not-found |
| ProductService.FindAll | backend/src/main/java/com/fms/backend/services/ProductService.java:36-47 | a page exists exactly for a non-negative page and positive size, counts every product and holds at most `size` of them |
| ProductService.FindAllOrdered | backend/src/main/java/com/fms/backend/services/ProductService.java:41-45 | a page lists products with strictly decreasing ids |
| ProductService.CreatePreservesValid | backend/src/main/java/com/fms/backend/services/ProductService.java:69-93 | `create` keeps the store invariant, unique names included |
| ProductService.PatchPreservesValid | backend/src/main/java/com/fms/backend/services/ProductService.java:95-123 | `patch` keeps the store invariant |
| ProductService.DeletePreservesValid | backend/src/main/java/com/fms/backend/services/ProductService.java:125-130 | `delete` keeps the store invariant |
| ProductService.UpdateStockPreservesValid | backend/src/main/java/com/fms/backend/services/ProductService.java:132-145 | `updateStock` keeps the store invariant |
| CategoryService.FindById | backend/src/main/java/com/fms/backend/services/CategoryService.java:44-52 | the stored category exactly when the id exists, otherwise not-found with the category message |
| CategoryService.FindEntityById | backend/src/main/java/com/fms/backend/services/CategoryService.java:54-60 | the stored category exactly when the id exists, otherwise not-found with the message about a sale |
| CategoryService.LookupsAgree | backend/src/main/java/com/fms/backend/services/CategoryService.java:44-60 | the two lookups find the same rows and differ only in the error message |
| CategoryService.SaveCategory | backend/src/main/java/com/fms/backend/models/Category.java:19-20 | a save succeeds exactly when the name is present and at most 50 long |
| CategoryService.Create | backend/src/main/java/com/fms/backend/services/CategoryService.java:62-74 | a taken name is a conflict; otherwise the category is inserted under the next id when the name fits its column |
| CategoryService.NullNameReachesDatabase | backend/src/main/java/com/fms/backend/services/CategoryService.java:62-74 | a null name passes the duplicate check and fails at the column constraint, a 500 |
| CategoryService.NameFreeFor | backend/src/main/java/com/fms/backend/services/CategoryService.java:82-88 | a name is free for a category exactly when no other category has it |
| CategoryService.Update | backend/src/main/java/com/fms/backend/services/CategoryService.java:76-94 | unknown id is not-found; a name held by another category is a conflict; otherwise the renamed row replaces the old one and nothing else changes |
| CategoryService.UpdateWithOwnName | backend/src/main/java/com/fms/backend/services/CategoryService.java:82-88 | renaming a category to its own name succeeds and changes nothing |
| CategoryService.Delete | backend/src/main/java/com/fms/backend/services/CategoryService.java:96-105 | a delete succeeds exactly when the category exists and no product belongs to it; a category in use is a validation error |
| CategoryService.FindAll | backend/src/main/java/com/fms/backend/services/CategoryService.java:33-42 | a page exists exactly for a non-negative page and positive size, and counts every category |
| CategoryService.FindAllOrdered | backend/src/main/java/com/fms/backend/services/CategoryService.java:33-42 | a page lists categories with strictly decreasing ids |
| CategoryService.CreateThenFind | backend/src/main/java/com/fms/backend/services/CategoryService.java:44-74 | a created category is found under the id it was given |
| CategoryService.CreatePreservesValid | backend/src/main/java/com/fms/backend/services/CategoryService.java:62-74 | `create` keeps the store invariant, unique names included |
| CategoryService.UpdatePreservesValid | backend/src/main/java/com/fms/backend/services/CategoryService.java:76-94 | `update` keeps the store invariant |
| CategoryService.DeletePreservesValid | backend/src/main/java/com/fms/backend/services/CategoryService.java:96-105 | `delete` keeps the store invariant |
| SaleService.ProcessItem | backend/src/main/java/com/fms/backend/services/SaleService.java:52-78 | one pass of the loop: an unknown product is not-found, a quantity above the stock is the shortage error, and otherwise the line is priced at the product's price and the stock drops by the quantity |
| SaleService.ProcessItems | backend/src/main/java/com/fms/backend/services/SaleService.java:52-78 | on success one line per requested item |
| SaleService.ProcessItemsStock | backend/src/main/java/com/fms/backend/services/SaleService.java:52-78 | on success every product's stock drops by exactly the total quantity its lines asked for, and nothing else changes |
| SaleService.ProcessItemsLines | backend/src/main/java/com/fms/backend/services/SaleService.java:64-75 | on success the lines are the requested items in order, each at the price its product had, with subtotal price times quantity |
| SaleService.FirstFailureWins | backend/src/main/java/com/fms/backend/services/SaleService.java:52-78 | once a prefix of the items fails, the sale fails with that same error |
| SaleService.UnknownProductAborts | backend/src/main/java/com/fms/backend/services/SaleService.java:52-55 | an unknown product aborts the sale with its not-found error when the items before it succeed |
| SaleService.AcceptedIffStockCovers | backend/src/main/java/com/fms/backend/services/SaleService.java:56-62 | with known products and positive quantities, the loop succeeds exactly when every product's stock covers the total asked for it |
| SaleService.Register | backend/src/main/java/com/fms/backend/services/SaleService.java:39-88 | a null item list is a null-pointer failure; a failing item fails the sale with its error; otherwise the sale is inserted under the next id with the request's client, date and channel, a total equal to what the items cost at the products' prices, and amounts that agree line by line |
| SaleService.RegisterStock | backend/src/main/java/com/fms/backend/services/SaleService.java:39-88 | after a registered sale each product's stock is its old stock less the quantity sold |
| SaleService.RegisterPreservesValid | backend/src/main/java/com/fms/backend/services/SaleService.java:39-88 | `registerSale` keeps the store invariant |
| SaleService.ChooseFilter | backend/src/main/java/com/fms/backend/services/SaleService.java:100-106 | a category id wins over a client name; a client name is used exactly when there is no category id and the name is present and not blank |
| SaleService.Selected | backend/src/main/java/com/fms/backend/repositories/SaleRepository.java:16-21 | a sale is selected exactly when it matches the filter, once, unchanged |
| SaleService.FindAll | backend/src/main/java/com/fms/backend/services/SaleService.java:90-109 | a page exists exactly for a non-negative page and positive size, and counts the selected sales |
| SaleService.FindAllLists | backend/src/main/java/com/fms/backend/services/SaleService.java:97-106 | the listing holds every selected sale and only those, by strictly decreasing id |
| SaleService.FindById | backend/src/main/java/com/fms/backend/services/SaleService.java:112-119 | the stored sale exactly when the id exists, otherwise not-found naming the id |
| SaleService.Delete | backend/src/main/java/com/fms/backend/services/SaleService.java:141-146 | a delete succeeds exactly when the sale exists and removes only it |
| SaleService.DeleteKeepsStock | backend/src/main/java/com/fms/backend/services/SaleService.java:141-146 | deleting a just-registered sale does not give its stock back |
| SaleService.DeletePreservesValid | backend/src/main/java/com/fms/backend/services/SaleService.java:141-146 | `delete` keeps the store invariant |
| SaleService.MergeSale | backend/src/main/java/com/fms/backend/mappers/SaleMapper.java:23-24 | the null-ignoring update keeps the id and total, takes each non-null client, date and channel from the body, and clears the lines when the body has an item list |
| SaleService.Patch | backend/src/main/java/com/fms/backend/services/SaleService.java:130-139 | an unknown id is not-found; a non-empty item list becomes lines without product or price, which the columns refuse; otherwise the merged sale replaces the stored one and nothing else changes |
| SaleService.PatchPreservesValid | backend/src/main/java/com/fms/backend/services/SaleService.java:130-139 | a patch without items keeps the store invariant and the stock |
| SaleService.EmptyItemsBreakTotal | backend/src/main/java/com/fms/backend/services/SaleService.java:130-139 | an empty item list leaves a sale with no lines but its old non-zero total, so its amounts no longer agree |
| SaleQueries.CountChannel | backend/src/main/java/com/fms/backend/repositories/SaleRepository.java:24-25 | a channel's count is positive exactly when some sale used it |
| SaleQueries.SalesByChannel | backend/src/main/java/com/fms/backend/repositories/SaleRepository.java:24-25 | every entry is a channel with its positive count of sales |
| SaleQueries.ChannelPresent | backend/src/main/java/com/fms/backend/repositories/SaleRepository.java:24-25 | a channel has an entry exactly when some stored sale used it |
| SaleQueries.ChannelCountsSumToSales | backend/src/main/java/com/fms/backend/repositories/SaleRepository.java:24-25 | the channel counts add up to the number of sales |
| SaleQueries.GroupByName | backend/src/main/java/com/fms/backend/repositories/SaleRepository.java:27-28 | one entry per category name some line joins to, with the sum of those lines' quantities |
| SaleQueries.QuantityForConcat | backend/src/main/java/com/fms/backend/repositories/SaleRepository.java:27-28 | the per-name sum is additive over lines |
| SaleQueries.QuantityForSameJoin | backend/src/main/java/com/fms/backend/repositories/SaleRepository.java:27-28 | stock changes do not move any line to another category |
| SaleQueries.SumTotalRevenue | backend/src/main/java/com/fms/backend/repositories/SaleRepository.java:30-31 | the sum is absent exactly when there are no sales, and otherwise sums the totals |
| SaleQueries.TotalsAreLineSums | backend/src/main/java/com/fms/backend/repositories/SaleRepository.java:30-31 | when every sale's amounts agree, the revenue is the sum of every line's subtotal |
| SaleQueries.Ascending | backend/src/main/java/com/fms/backend/repositories/SaleRepository.java:36 | every month exactly once, strictly ascending by year then month |
| SaleQueries.MonthlyRows | backend/src/main/java/com/fms/backend/repositories/SaleRepository.java:33-37 | one row per month with sales, no other, in ascending order, each with that month's revenue |
| SaleQueries.SumOverAllMonths | backend/src/main/java/com/fms/backend/repositories/SaleRepository.java:33-37 | summing the revenue of distinct months that cover every sale gives the total revenue |
| SaleQueries.MonthlyRevenueAddsUp | backend/src/main/java/com/fms/backend/repositories/SaleRepository.java:33-37 | the monthly rows add up to the total revenue |
| SaleQueries.GetDashboardData | backend/src/main/java/com/fms/backend/services/SaleService.java:148-191 | the channel counts, category quantities and monthly revenue are those of the three queries; the count is the number of sales; with no sales every breakdown is empty and the revenue zero; otherwise the revenue is the sum of the totals |
| SaleQueries.RegisterUpdatesDashboard | backend/src/main/java/com/fms/backend/services/SaleService.java:39-88 | a registered sale adds one to the count, its total to the revenue, one to its channel and its lines' quantities to their categories |
| Accounts.SaveToken | backend/src/main/java/com/fms/backend/models/RefreshToken.java:19-30 | a token row is saved exactly when its token id is unused and it fits its columns |
| Accounts.SaveTokenPreservesValid | backend/src/main/java/com/fms/backend/models/RefreshToken.java:19-24 | saving a token row of an existing user keeps the identity store's invariant |
| Accounts.SavedRowIsFound | backend/src/main/java/com/fms/backend/repositories/RefreshTokenRepository.java:12 | the saved row is the only row with its token id |
| Accounts.FindByToken | backend/src/main/java/com/fms/backend/repositories/RefreshTokenRepository.java:12 | the row with that token id when there is exactly one, empty when none, a failure when several |
| Accounts.FindByTokenUnique | backend/src/main/java/com/fms/backend/models/RefreshToken.java:19-20 | in a valid store the token lookup never meets two rows |
| Accounts.FindByEmail | backend/src/main/java/com/fms/backend/services/UserService.java:75 | the user with that email when there is exactly one, empty when none, a failure when several |
| UserService.Create | backend/src/main/java/com/fms/backend/services/UserService.java:70-84 | a taken email is a conflict; success exactly when the email is free and a password is given; the new account gets the next id, the encoded password and the basic role, and no other row changes |
| UserService.CreateIgnoresRequestedRoles | backend/src/main/java/com/fms/backend/services/UserService.java:79-81 | the roles in the request never reach the new account |
| UserService.CreatePreservesValid | backend/src/main/java/com/fms/backend/services/UserService.java:70-84 | `create` keeps the identity store's invariant |
| UserService.Merge | backend/src/main/java/com/fms/backend/mappers/UserMapper.java:21-22 | each non-null field of the request replaces the user's; null fields and the id are kept |
| UserService.MergeEmptyIsIdentity | backend/src/main/java/com/fms/backend/mappers/UserMapper.java:21-22 | a request with only nulls changes nothing |
| UserService.PatchWith | backend/src/main/java/com/fms/backend/services/UserService.java:86-113 | an unknown caller is an authentication failure; an unknown email is not-found; success exactly when the target exists and the caller is an administrator or owns the email (ignoring case); only the target row changes |
| UserService.PatchUser | backend/src/main/java/com/fms/backend/services/UserService.java:86-113 | as written, the merged request, raw password included, is stored on the target |
| UserService.PatchUserFixed | backend/src/main/java/com/fms/backend/services/UserService.java:86-113 | the same patch with a new password encoded before it is stored |
| UserService.FixedPatchDecidesAlike | backend/src/main/java/com/fms/backend/services/UserService.java:86-113 | the fixed patch succeeds and fails exactly as the original, with the same errors |
| UserService.OwnerMayPatch | backend/src/main/java/com/fms/backend/services/UserService.java:94-104 | the account's owner may always patch it |
| UserService.OwnerCanGrantAdmin | backend/src/main/java/com/fms/backend/services/UserService.java:104-107 | an owner who is not an administrator can make themselves one by sending the ADMIN role |
| UserService.PatchPreservesValid | backend/src/main/java/com/fms/backend/services/UserService.java:86-113 | `patchUser` keeps the identity store's invariant |
| UserService.Delete | backend/src/main/java/com/fms/backend/services/UserService.java:115-125 | an unknown email is not-found; success exactly when the user has no refresh-token rows; only that user goes |
| UserService.DeletePreservesValid | backend/src/main/java/com/fms/backend/services/UserService.java:115-125 | `delete` keeps the identity store's invariant |
| RefreshTokens.CompositeSplits | backend/src/main/java/com/fms/backend/services/auth/RefreshTokenService.java:53 | the composite a client receives splits back into its token id and secret |
| RefreshTokens.CreateRefreshToken | backend/src/main/java/com/fms/backend/services/auth/RefreshTokenService.java:46-78 | an unknown user is not-found; otherwise it succeeds exactly when the token id is unused and the row fits its columns (token, hash and User-Agent within 255, address within 50), adding one row holding the token id, the owner, the encoded secret, the expiry, the User-Agent and the address, and returning the composite `id.secret` |
| RefreshTokens.WithoutUser | backend/src/main/java/com/fms/backend/repositories/RefreshTokenRepository.java:14 | exactly the rows of other users remain, unchanged |
| RefreshTokens.Check | backend/src/main/java/com/fms/backend/services/auth/RefreshTokenService.java:83-106 | a composite without exactly two pieces is a format error; the check passes exactly when some row admits the composite: its id is found, it has not expired and the secret matches its hash |
| RefreshTokens.CheckRejections | backend/src/main/java/com/fms/backend/services/auth/RefreshTokenService.java:91-106 | an unknown id, an expired row and a wrong secret each give their own refresh error |
| RefreshTokens.FormatCheckedFirst | backend/src/main/java/com/fms/backend/services/auth/RefreshTokenService.java:83-86 | a malformed composite is refused whatever the store holds |
| RefreshTokens.Rotate | backend/src/main/java/com/fms/backend/services/auth/RefreshTokenService.java:108-117 | succeeds exactly when the new token id is free once the owner's rows are gone and the new row, with the request's User-Agent and address, fits its columns; every row of the owner goes and one new row is saved for them; the users are untouched |
| RefreshTokens.OversizedClientFails | backend/src/main/java/com/fms/backend/services/auth/RefreshTokenService.java:58-76 | a User-Agent over 255 UTF-16 units or an address over 50 makes issuing for an existing user, and rotating after a passed check, fail with the unhandled constraint violation |
| RefreshTokens.RevokeAndReplace | backend/src/main/java/com/fms/backend/services/auth/RefreshTokenService.java:80-120 | success exactly when the check and the rotation succeed; a failing check gives its error; as written, the returned composite pairs the old token id with the new secret |
| RefreshTokens.RevokeAndReplaceFixed | backend/src/main/java/com/fms/backend/services/auth/RefreshTokenService.java:113-119 | the same rotation, returning the new token id with the new secret |
| RefreshTokens.RotatedRowIsFound | backend/src/main/java/com/fms/backend/services/auth/RefreshTokenService.java:108-117 | after a rotation the new token id names exactly the new row |
| RefreshTokens.PresentedIdIsGone | backend/src/main/java/com/fms/backend/services/auth/RefreshTokenService.java:108 | after a rotation the presented token id names no row |
| RefreshTokens.RotatedTokenIsRejected | backend/src/main/java/com/fms/backend/services/auth/RefreshTokenService.java:115 | as written, presenting the token a rotation returned is refused as not found |
| RefreshTokens.FreshRowRotates | backend/src/main/java/com/fms/backend/services/auth/RefreshTokenService.java:80-120 | a row saved from a token id and secret admits their composite until it expires, and the rotation returns its owner |
| RefreshTokens.IssuedTokenRotates | backend/src/main/java/com/fms/backend/services/auth/RefreshTokenService.java:46-120 | a freshly issued token rotates at any time up to its expiry |
| RefreshTokens.RotatedTokenIsAccepted | backend/src/main/java/com/fms/backend/services/auth/RefreshTokenService.java:113-119 | corrected: the token a rotation returns rotates again at any time up to its expiry |
| RefreshTokens.FailedAttemptRevokesNothing | backend/src/main/java/com/fms/backend/services/auth/RefreshTokenService.java:102-106 | as written: after a wrong secret is refused, the genuine token is still admitted, because the revocation is rolled back with the exception |
| RefreshTokens.RevokeAndReplaceCommitting | backend/src/main/java/com/fms/backend/services/auth/RefreshTokenService.java:95-106 | corrected: the deletes before a refusal persist; after a wrong secret no row of the owner remains |
| RefreshTokens.FailedAttemptRevokesAll | backend/src/main/java/com/fms/backend/services/auth/RefreshTokenService.java:102-106 | corrected: after a wrong secret the genuine token for the same id is no longer admitted |
| RefreshTokens.DeleteExpiredTokens | backend/src/main/java/com/fms/backend/services/auth/RefreshTokenService.java:122-130 | exactly the rows expired before now go, the rest are unchanged, and the count is the number removed |
| RefreshTokens.CleanupIdempotent | backend/src/main/java/com/fms/backend/services/auth/RefreshTokenService.java:122-130 | a second clean-up at the same instant deletes nothing |
| RefreshTokens.ExpiredTokenWaitsForCleanup | backend/src/main/java/com/fms/backend/services/auth/RefreshTokenService.java:95-98 | an expired token is refused, and the scheduled clean-up removes its row |
| AuthService.Scope | backend/src/main/java/com/fms/backend/services/auth/AuthService.java:47-50 | no roles give an empty scope and a single role is the scope |
| AuthService.Login | backend/src/main/java/com/fms/backend/services/auth/AuthService.java:35-60 | an unknown email and a wrong password give the same authentication error; success exactly when one user has the email and the password matches, and then the access token names that user and a refresh token is issued |
| AuthService.LoginAddsOneToken | backend/src/main/java/com/fms/backend/services/auth/AuthService.java:52-53 | a login adds one refresh-token row for the user and changes no user |
| AuthService.OversizedClientGets500 | backend/src/main/java/com/fms/backend/services/auth/AuthService.java:36-70 | with a User-Agent over 255 UTF-16 units or an address over 50, a login with the right password and a refresh whose token passes the check are answered 500 |
| AuthService.RespondToRotation | backend/src/main/java/com/fms/backend/services/auth/AuthService.java:67-84 | a failed rotation passes its error on; a rotation without a user is a refresh error; otherwise the response carries the rotated token and a new access token |
| AuthService.UpdateRefreshToken | backend/src/main/java/com/fms/backend/services/auth/AuthService.java:62-85 | succeeds exactly when the rotation does, with the rotation's error otherwise |
| AuthService.UpdateRefreshTokenFixed | backend/src/main/java/com/fms/backend/services/auth/AuthService.java:62-85 | over the corrected rotation, the client receives the new token id with the new secret |
| AuthService.SecondRefreshFails | backend/src/main/java/com/fms/backend/services/auth/AuthService.java:62-85 | as written: after a login, the first refresh succeeds and the second, with the token the first returned, is refused |
| AuthService.RefreshChainsWhenFixed | backend/src/main/java/com/fms/backend/services/auth/AuthService.java:62-85 | corrected: after a login, two refreshes in a row each succeed |
| AuthService.CreatedUserLogsIn | backend/src/main/java/com/fms/backend/services/UserService.java:70-84 | right after registration the user logs in with the password they registered |
| AuthService.MarkedIsSound | backend/src/main/java/com/fms/backend/services/UserService.java:80 | the sample encoder accepts what it encoded, so the soundness assumption can be met |
| AuthService.PatchedPasswordLocksOut | backend/src/main/java/com/fms/backend/services/UserService.java:106-107 | as written: after a password patch, logging in with the new password fails under an encoder that never matches a raw string against itself |
| AuthService.PatchedEmailKept | backend/src/main/java/com/fms/backend/services/UserService.java:100-107 | a patch that keeps the email keeps the lookup by email |
| AuthService.PatchedPasswordLogsIn | backend/src/main/java/com/fms/backend/services/UserService.java:106-107 | corrected: after a password patch that encodes, logging in with the new password succeeds under any sound encoder |
| ApiClient.AuthHeader | frontend/src/api/apiClient.js:30 | a missing or empty token gives an empty header, otherwise a bearer header with the token |
| ApiClient.Handle | frontend/src/api/apiClient.js:20-90 | a 401 during a refresh joins the queue; a 401 with none running starts one; any other response leaves the state alone: a 2xx resolves, anything else is rejected with the HTTP status and text; a network failure rejects its request with the reason; a successful refresh stores the token, ends the refresh and retries the initiator then the queue; a failed one removes the token, goes to the login page and rejects the queue with the refresh error and the initiator with the expired-session message |
| ApiClient.HandleKeepsInv | frontend/src/api/apiClient.js:9-18 | every event keeps the queue empty while no refresh runs |
| ApiClient.RefreshSettlesPending | frontend/src/api/apiClient.js:52-77 | the end of a refresh settles exactly the requests waiting for it, each once, and leaves none waiting |
| ApiClient.RunKeepsInv | frontend/src/api/apiClient.js:36-77 | along any run of events the queue is empty whenever no refresh runs |
| ApiClient.SingleFlight | frontend/src/api/apiClient.js:38-47 | a 401 during a refresh does not start another |
| Pagination.Previous | frontend/src/components/Pagination.jsx:8 | one page back, never below the first |
| Pagination.Next | frontend/src/components/Pagination.jsx:20 | one page forward, never past the last |
| Pagination.ButtonsStayInRange | frontend/src/components/Pagination.jsx:8-21 | inside the range both buttons stay inside it, and a button is disabled exactly when pressing it would not move |
| Pagination.NextFromBeyondGoesBack | frontend/src/components/Pagination.jsx:18-21 | past the last page "Próxima" stays enabled and goes back to the last page |
| Pagination.ShownTotalPages | frontend/src/pages/ProductPage.jsx:67-73 | one page when the response has no content or no count, or a count of 0, otherwise the reported count; never below 1 for a non-negative count |
| Pagination.RequestIndex | frontend/src/pages/ProductPage.jsx:65 | the zero-based index requested is one below the page on screen |
| Pagination.RequestedPageExists | frontend/src/pages/CategoriesPage.jsx:30-34 | a page on screen within the count is requested at an index the back end accepts and below the count |
| Pagination.ShownCurrentPage | frontend/src/pages/SalesPage.jsx:84 | the screen page is the reported zero-based number plus one, or the first page without one |
| Pagination.PageNumberRoundTrip | frontend/src/pages/SalesPage.jsx:80-84 | requesting a page and reading its number back gives the same screen page |
| SalesPage.FindLine | frontend/src/pages/SalesPage.jsx:148-150 | the first cart line for the product, or -1 exactly when none is |
| SalesPage.FindProduct | frontend/src/pages/SalesPage.jsx:142-146 | a listed product with that id, or none exactly when no product has it |
| SalesPage.AddItem | frontend/src/pages/SalesPage.jsx:130-173 | no product chosen or a quantity not above zero is refused; an unknown product is refused; otherwise a new product is appended as a line and a product already in the cart has its quantity increased in place |
| SalesPage.AddItemQuantities | frontend/src/pages/SalesPage.jsx:148-168 | adding grows the chosen product's quantity by exactly the amount added and leaves every other product's alone |
| SalesPage.AddItemKeepsCartWellFormed | frontend/src/pages/SalesPage.jsx:148-168 | adding never creates a second line for a product and keeps every quantity positive |
| SalesPage.RemoveItem | frontend/src/pages/SalesPage.jsx:189-194 | exactly the lines of other products remain |
| SalesPage.QuantityOfRemove | frontend/src/pages/SalesPage.jsx:189-194 | removing a product zeroes its quantity and keeps the others |
| SalesPage.RemoveUndoesAdd | frontend/src/pages/SalesPage.jsx:130-194 | removing a product after adding it gives the cart as if it had been removed before |
| SalesPage.Submit | frontend/src/pages/SalesPage.jsx:196-219 | refused exactly when the client, the channel or the items are missing; otherwise every cart line is sent, in order, with its product id and its quantity as it is, and the chosen channel |
| SalesPage.SubmittedItemsAreValid | frontend/src/pages/SalesPage.jsx:210-219 | a cart of distinct products with positive quantities inside Java's int range is sent as items that bind and pass the back end's item constraints, no two equal |
| SalesPage.BindItems | frontend/src/pages/SalesPage.jsx:210-217 | the lines bind to item requests exactly when every quantity lies in Java's int range, each keeping its product id and quantity; otherwise the body is refused |
| SalesPage.OversizedQuantityDoesNotBind | frontend/src/pages/SalesPage.jsx:130-173 | a cart line whose summed quantity passes Java's int range is still sent, and the body does not bind |
| SalesPage.FindChannel | frontend/src/pages/SalesPage.jsx:181-182 | the label of a channel with that name, or none exactly when no channel has it |
| SalesPage.ChannelDisplay | frontend/src/pages/SalesPage.jsx:181-182 | "N/A" exactly when no channel has that name, otherwise that channel's label |
| SalesPage.EveryChannelLabelled | frontend/src/pages/SalesPage.jsx:8-13 | every channel of the back end has a label |
| ProductPage.PriceFilter | frontend/src/pages/ProductPage.jsx:123 | the typed text keeps exactly its digits, dots and commas, and text of those alone is unchanged |
| ProductPage.PriceFilterIdempotent | frontend/src/pages/ProductPage.jsx:123 | filtering twice is filtering once |
| ProductPage.Strip | frontend/src/pages/ProductPage.jsx:28 | exactly the characters outside `R`, `$`, whitespace and `.` remain |
| ProductPage.ReplaceFirstComma | frontend/src/pages/ProductPage.jsx:28 | only the first comma becomes a dot |
| ProductPage.NormalizeBRL | frontend/src/pages/ProductPage.jsx:28 | the text handed to `parseFloat` has at most one dot, exactly when a comma survived the strip, and only characters the strip kept |
| ProductPage.ParseBRL | frontend/src/pages/ProductPage.jsx:24-29 | a number is returned as it is, an empty value is 0, and text goes to `parseFloat` normalised |
| ProductPage.PriceChange | frontend/src/pages/ProductPage.jsx:120-134 | the field is blank exactly when no price character was typed, and the price is then 0; otherwise the shown and stored price are the parse of the filtered text |
| ProductPage.ParsedTextShape | frontend/src/pages/ProductPage.jsx:123-126 | whatever is typed, `parseFloat` receives digits with at most one dot |
| ProductPage.FormattedPriceNormalises | frontend/src/pages/ProductPage.jsx:20-29 | a price in the pt-BR currency format normalises to its digits with a decimal dot |
| ProductPage.Submit | frontend/src/pages/ProductPage.jsx:136-172 | price, then stock, then category are checked, the first failure giving its message; a form that passes is an update exactly when its id is truthy, and a create otherwise |
| ProductPage.EditForm | frontend/src/pages/ProductPage.jsx:85-99 | the listed product's fields, with a missing description as empty and a missing or empty color as the first color |
| ProductPage.InitialFormNeedsPrice | frontend/src/pages/ProductPage.jsx:31-39 | the blank form is refused for its price |
| ProductPage.EditedProductIsUpdated | frontend/src/pages/ProductPage.jsx:85-172 | editing a listed product with valid fields and submitting updates that product |
| UsersPage.Submit | frontend/src/pages/UsersPage.jsx:63-96 | an update exactly when the id is truthy, with the password left out exactly when it is empty; otherwise an empty password is refused and anything else is a create |
| UsersPage.AfterSubmit | frontend/src/pages/UsersPage.jsx:63-96 | the form resets exactly after a request that was sent and succeeded, and is kept otherwise |
| UsersPage.BlankFormRefused | frontend/src/pages/UsersPage.jsx:4-10 | the blank form is refused for its missing password |
| UsersPage.RoleShown | frontend/src/pages/UsersPage.jsx:139 | the user's role, or "USER" when it is missing or empty |
| UsersPage.EditForm | frontend/src/pages/UsersPage.jsx:38-48 | as written: name, email and role of the listed user, an empty password and no id |
| UsersPage.EditFormFixed | frontend/src/pages/UsersPage.jsx:38-48 | corrected: the same form keeping the listed user's id |
| UsersPage.AsRequest | backend/src/main/java/com/fms/backend/dto/UserRequestDTO.java:15-26 | the body as the back end binds it: `role` is not a field, so no roles arrive |
| UsersPage.EditedUserIsCreated | frontend/src/pages/UsersPage.jsx:38-83 | as written: submitting an edit without a password is refused by the page; with one it is a create sent to the validated POST, answered 400 when the body breaks a constraint and 409 for the duplicate email exactly when it does not |
| UsersPage.EditedUserIsUpdated | frontend/src/pages/UsersPage.jsx:38-77 | corrected: submitting an edit is an update of that user, and an empty password is left out of the body |
| CategoriesPage.Submit | frontend/src/pages/CategoriesPage.jsx:73-91 | refused exactly when JavaScript's `trim()` empties the name; then an update exactly when the id is truthy; the name is sent untrimmed |
| CategoriesPage.AfterSubmit | frontend/src/pages/CategoriesPage.jsx:73-95 | the form resets exactly after a request that was sent and succeeded |
| CategoriesPage.EditForm | frontend/src/pages/CategoriesPage.jsx:47-54 | the category's id and name |
| CategoriesPage.EditedCategoryIsUpdated | frontend/src/pages/CategoriesPage.jsx:47-91 | editing a category and submitting it updates that category with its name |
| CategoriesPage.PageCheckImpliesNotBlank | frontend/src/pages/CategoriesPage.jsx:77-80 | for names without control characters, a name the page accepts passes the back end's `@NotBlank` |
| CategoriesPage.SeparatorPassesPageOnly | frontend/src/pages/CategoriesPage.jsx:73-91 | a name of one information separator passes the page's check but fails `@NotBlank`: as an edit the validated PUT answers 400, as a new category the unvalidated POST stores it |

## Left out

- `UserService.getAuthenticatedUser`, `findAll` and `findByEmail`: they read the security context or return the table as it is, with no decision to model.
- Violation and role order: Hibernate Validator reports violations as a set and `user.getRoles()` is a `Set`, so the source fixes no order for either. `Requests` lists violations in field order, then annotation order, and `AuthService.Scope` joins the roles in list order. When a field has two violations, the source does not fix which message `GlobalResponseHandler` keeps. `Responses.FieldMapLast` states the outcome for whatever order is given.
- UserService.Merge: a requested role stands for its name. In the source, `UserRequestDTO.roles` is a `Set<Role>` of entities, and the stored link follows each Role's id. A Role whose id names another role, or that has no id, is not modelled.
- UserService.OwnerCanGrantAdmin: "sending the ADMIN role" is modelled by name. In the source the owner gets whatever role the sent Role's id names.
- UserService.PatchWith: the case-insensitive comparisons of e-mail and role name fold ASCII letters only. Java's `equalsIgnoreCase` folds every character, so in the source "Äb@x.com" owns "äb@x.com" and "admın" with a dotless ı matches "ADMIN", while the model denies both.
- SalesPage.BindItems: a body that does not bind is answered by Spring's default handling of an unreadable message, which lies outside `GlobalResponseHandler`. The model stops at the refusal.
- SalesPage.AddItem: cart quantities are integers. The number input can yield a fraction, which Jackson truncates when it binds an `Integer`.
- Request prices with more than two decimals: the product request's price is a `BigDecimal` with no scale, and the product page sends the value `parseFloat` returns, so "19,999" arrives as 19.999. `@DecimalMin("0.01")` accepts it, the scale-2 column rounds it when the row is stored, and create and patch answer with the unrounded value. The model's request price is already in whole cents.
- `ProductService.findById` and the `toDTO` mappings: the model returns entities, and `FindEntityById` covers the lookup and its not-found error.
- SaleService.MergeSale: the mapper implementation MapStruct generates is not part of this model. The member assumes that implementation clears the loaded item collection and refills it, and that a mapped line carries only its quantity.
- Files not part of this model: `User`, `Role`, the `SaleChannel` enum, `TokenGeneratorService`, `LoginRequestDTO`, `UserRepository`, `RoleRepository` and the exception classes. The model assumes:
  - `isLoginCorrect` is the encoder's `matches`;
  - refresh-token rows block a user's delete;
  - the `BASIC` role exists;
  - `TokenRefreshException` is unchecked, so it rolls the transaction back;
  - the one-argument `CustomAuthenticationException` constructor is not generic, so the 401 body carries its message.
- `getClientIpAddress` is not part of this model: the address it returns, like the User-Agent header, arrives with each call in `RefreshTokens.Fresh`. Both are stored and checked against their columns, and never read.
- The row order of `countSalesByChannel` and `sumItemsSoldByCategory`, which have no `ORDER BY`: the model states their rows as maps.
- Floating point on the front end: `parseFloat`, `toLocaleString` and `formatBRL` and the cart total. These are JavaScript doubles; the parse result is a parameter, and `formatBRL`'s output is stated only for the shapes `ProductPage.FormattedPriceNormalises` names.
- The sale channel is sent as `parseInt` of the select value, a number, and Jackson's binding of that number to the enum is not modelled.
- The network, the clock, `localStorage` and `window.location`: a response, a refresh outcome and the current time are events or parameters. Only the redirect target of a failed refresh is kept.
- The pages' list fetches, loading flags, `alert`s and modals: they only display what the back end returned.
- `user.js` sends `PUT /api/users/{id}`, but the controller maps `PATCH /api/users/{email}`. `UserResponseDTO` also has no id, so the edit path of `UsersPage` never reaches the back end's patch. The model stops at the request the page builds.
- Overflow of the `Long` identity counters and `Long` quantities: ids are unbounded naturals.
- The `next…Id` counters of products, categories, sales and users advance only on success. The source's `IDENTITY` columns also spend an id on an insert that is rolled back, such as one that breaks a column, so after such a failure the model's next id is lower than the database's.
- BCrypt's salt and hash internals: the encoder is a pair of functions that is only assumed sound.

## Findings

| source | as written | input that shows it | evidently intended | confidence | as-written member | corrected member |
|---|---|---|---|---|---|---|
| backend/src/main/java/com/fms/backend/services/auth/RefreshTokenService.java:113-117 | the new composite token is built from the presented `tokenId`, while the new row is saved under `newTokenId` | log in and receive `t1.s1`, then refresh with it: the reply is `t1.s2` and the row is stored as `t2`; refreshing with `t1.s2` finds no row `t1` and answers 401 | the composite names the new row, `newTokenId + "." + newRawSecret`, so each refresh token can be rotated once | high (not executed) | RefreshTokens.RotatedTokenIsRejected, AuthService.SecondRefreshFails | RefreshTokens.RevokeAndReplaceFixed, RefreshTokens.RotatedTokenIsAccepted, AuthService.RefreshChainsWhenFixed |
| backend/src/main/java/com/fms/backend/services/auth/RefreshTokenService.java:102-106 | a wrong secret deletes all of the user's tokens and then throws `TokenRefreshException` inside the same `@Transactional` method, so the deletion is rolled back; the expired-row delete at line 96 is rolled back the same way | a user with a live token `t1.s1` presents `t1.x` with `x` not matching: afterwards `t1.s1` still refreshes | the revocation on a suspicious attempt persists, so no token of that user refreshes afterwards | medium (not executed; assumes the exception is unchecked) | RefreshTokens.FailedAttemptRevokesNothing | RefreshTokens.RevokeAndReplaceCommitting, RefreshTokens.FailedAttemptRevokesAll |
| backend/src/main/java/com/fms/backend/services/UserService.java:106-107 | `patchUser` copies the request's password onto the user without encoding it | the account's owner patches the password to `secret1`; logging in with `secret1` then fails, because `matches` compares it against the raw string as if it were a hash | the new password is encoded, as `create` does at line 80, so it logs in | high (not executed) | UserService.PatchUser, AuthService.PatchedPasswordLocksOut | UserService.PatchUserFixed, AuthService.PatchedPasswordLogsIn |
| frontend/src/pages/UsersPage.jsx:38-48 | `handleEdit` fills the form without the user's `id`, so `handleFormSubmit` takes the creation branch | edit a listed user and submit: with the password left empty the page stops with its password-required error; with a password it sends a create request for that e-mail to the validated POST, answered 400 when the body breaks a constraint (a password under six characters) and 409 as a duplicate when it does not | the form keeps the user's identity, and submitting an edit updates that user; keeping the id fixes only the page, because the listing's user response carries no id and must carry one too | high (not executed) | UsersPage.EditForm, UsersPage.EditedUserIsCreated | UsersPage.EditFormFixed, UsersPage.EditedUserIsUpdated |

=== FILE: accounts.dfy ===
/** The identity store: users with their roles, and the refresh-token table.
    Passwords and refresh secrets are stored through a password encoder
    (BCrypt in the source), modelled as a pair of functions of which only
    soundness is assumed: `matches(raw, encode(raw))` holds for every raw
    string. */
module Accounts {
  import opened Common
  import opened Text
  import Ledger

  /** A user's UUID. */
  type UserId = int

  /** The user row, with its role names. */
  datatype User = User(
    id: UserId,
    name: Option<string>,
    email: Option<string>,
    password: Option<string>,
    roles: seq<string>)

  /** A `tb_tokens` row: the public token id, its owner, the encoded secret,
      the expiry, and the client's User-Agent header and address (null when
      absent). */
  datatype RefreshToken = RefreshToken(
    token: string,
    userId: UserId,
    tokenHash: string,
    expiryDate: Instant,
    userAgent: Option<string>,
    ip: Option<string>)

  datatype Accounts = Accounts(
    users: map<UserId, User>,
    tokens: map<int, RefreshToken>,
    nextUserId: UserId,
    nextTokenRow: int)

  /** A committed transaction over the identity store. */
  datatype Commit<T> = Commit(store: Accounts, value: T)

  datatype Encoder = Encoder(encode: string -> string, matches: (string, string) -> bool)

  ghost predicate Sound(e: Encoder) {
    forall raw :: e.matches(raw, e.encode(raw))
  }

  const RoleBasic: string := "BASIC"
  const RoleAdmin: string := "ADMIN"

  /** `findByEmail`: the users whose email equals the argument; a null
      argument matches the users without one. */
  function UsersWithEmail(a: Accounts, email: Option<string>): set<UserId> {
    set k | k in a.users && a.users[k].email == email
  }

  /** `findByToken`. */
  function RowsWithToken(a: Accounts, token: string): set<int> {
    set k | k in a.tokens && a.tokens[k].token == token
  }

  function RowsOfUser(a: Accounts, user: UserId): set<int> {
    set k | k in a.tokens && a.tokens[k].userId == user
  }

  /** The identity store's invariant: keys agree with ids and lie below the
      counters, every token's owner exists, and token ids are unique (the
      `unique = true` column). */
  predicate Valid(a: Accounts) {
    && (forall k :: k in a.users ==> a.users[k].id == k && k < a.nextUserId)
    && (forall k :: k in a.tokens ==> k < a.nextTokenRow && a.tokens[k].userId in a.users)
    && (forall j, k :: j in a.tokens && k in a.tokens && j != k ==> a.tokens[j].token != a.tokens[k].token)
  }

  /** The `token` column: `nullable = false, unique = true, length = 255`;
      `tokenHash` and `userAgent` are `length = 255`, `ip` is `length = 50`. */
  predicate TokenFits(t: RefreshToken) {
    && JavaLength(t.token) <= 255 && JavaLength(t.tokenHash) <= 255
    && (t.userAgent.None? || JavaLength(t.userAgent.value) <= 255)
    && (t.ip.None? || JavaLength(t.ip.value) <= 50)
  }

  /** `refreshTokenRepository.save` of a new row. */
  function SaveToken(a: Accounts, t: RefreshToken): (r: Result<Accounts>)
    ensures r.Ok? <==> RowsWithToken(a, t.token) == {} && TokenFits(t)
    ensures r.Ok? ==> r.value == a.(tokens := a.tokens[a.nextTokenRow := t], nextTokenRow := a.nextTokenRow + 1)
    ensures r.Err? ==> r.error == Unhandled(ConstraintViolated)
  {
    if RowsWithToken(a, t.token) == {} && TokenFits(t) then
      Ok(a.(tokens := a.tokens[a.nextTokenRow := t], nextTokenRow := a.nextTokenRow + 1))
    else Err(Unhandled(ConstraintViolated))
  }

  /** Saving a fresh token row for an existing user keeps the invariant. */
  lemma SaveTokenPreservesValid(a: Accounts, t: RefreshToken)
    requires Valid(a) && t.userId in a.users
    ensures SaveToken(a, t).Ok? ==> Valid(SaveToken(a, t).value)
  {
    if SaveToken(a, t).Ok? {
      var b := SaveToken(a, t).value;
      assert a.nextTokenRow !in a.tokens;
      forall j, k | j in b.tokens && k in b.tokens && j != k
        ensures b.tokens[j].token != b.tokens[k].token
      {
        if j == a.nextTokenRow {
          assert k !in RowsWithToken(a, t.token);
        } else if k == a.nextTokenRow {
          assert j !in RowsWithToken(a, t.token);
        }
      }
    }
  }

  /** The saved row is the only one holding its token. */
  lemma SavedRowIsFound(a: Accounts, t: RefreshToken)
    requires Valid(a)
    requires SaveToken(a, t).Ok?
    ensures RowsWithToken(SaveToken(a, t).value, t.token) == {a.nextTokenRow}
  {
    var b := SaveToken(a, t).value;
    assert a.nextTokenRow in RowsWithToken(b, t.token);
    forall k | k in RowsWithToken(b, t.token) ensures k == a.nextTokenRow {
      assert k != a.nextTokenRow ==> k in RowsWithToken(a, t.token);
    }
    assert forall k :: k in RowsWithToken(b, t.token) <==> k in {a.nextTokenRow};
  }

  /** The row id, if any, that `findByToken` finds; several rows would be a
      Spring Data error, which the unique column rules out. */
  function FindByToken(a: Accounts, token: string): (r: Result<Option<int>>)
    ensures r.Ok? && r.value.Some? ==> r.value.value in a.tokens && a.tokens[r.value.value].token == token
    ensures r.Ok? && r.value.Some? ==> RowsWithToken(a, token) == {r.value.value}
    ensures r == Ok(None) <==> RowsWithToken(a, token) == {}
    ensures r.Err? <==> |RowsWithToken(a, token)| > 1
  {
    var found := Ledger.Single(RowsWithToken(a, token));
    if found.Ok? && found.value.Some? then
      assert found.value.value in RowsWithToken(a, token);
      found
    else found
  }

  /** In a valid store `findByToken` never meets two rows. */
  lemma FindByTokenUnique(a: Accounts, token: string)
    requires Valid(a)
    ensures FindByToken(a, token).Ok?
  {
    var ids := RowsWithToken(a, token);
    if ids != {} {
      var k := Pick(ids);
      assert forall j :: j in ids <==> j in {k};
      assert ids == {k};
    }
  }

  /** `findByEmail` on the users. */
  function FindByEmail(a: Accounts, email: Option<string>): (r: Result<Option<UserId>>)
    ensures r.Ok? && r.value.Some? ==> r.value.value in a.users && a.users[r.value.value].email == email
    ensures r.Ok? && r.value.Some? ==> UsersWithEmail(a, email) == {r.value.value}
    ensures r == Ok(None) <==> UsersWithEmail(a, email) == {}
    ensures r.Err? <==> |UsersWithEmail(a, email)| > 1
  {
    var found := Ledger.Single(UsersWithEmail(a, email));
    if found.Ok? && found.value.Some? then
      assert found.value.value in UsersWithEmail(a, email);
      found
    else found
  }
}

=== FILE: api_client.dfy ===
/** `authFetch`: the access-token header and the single-flight refresh.
    The promise interleavings are flattened into a sequence of events, one
    at a time: a response to a request, the end of the refresh call, or a
    request failing at the network. The module-level `isRefreshing` flag
    and `failedQueue` become the `refresh` and `queue` fields. */
module ApiClient {
  import opened Common

  type RequestId = nat

  datatype Refresh = Idle | Running(initiator: RequestId)

  /** The access token in localStorage, the refresh in progress, and the
      requests waiting for it. */
  datatype Client = Client(token: Option<string>, refresh: Refresh, queue: seq<RequestId>, location: string)

  datatype Event =
    | Responded(request: RequestId, status: int, text: string)
    | NetworkFailed(request: RequestId, reason: string)
    | RefreshSucceeded(accessToken: Option<string>)
    | RefreshFailed(reason: string)

  /** What the event settles: the requests resolved, rejected with a
      reason, or sent again with the current token. */
  datatype Effect =
    | Resolved(request: RequestId)
    | Rejected(rejected: seq<(RequestId, string)>)
    | Waiting
    | Retried(requests: seq<RequestId>)

  datatype Step = Step(client: Client, effect: Effect)

  const ExpiredSessionMessage: string := "Sessão expirada. Faça login novamente."
  const LoginPage: string := "/login"

  /** The Authorization header: a non-empty token as a bearer token,
      otherwise the empty string. */
  function AuthHeader(token: Option<string>): (h: string)
    ensures token.None? || token == Some("") ==> h == ""
    ensures token.Some? && token.value != "" ==> h == "Bearer " + token.value && |h| > 7
  {
    if token.None? || token.value == "" then "" else "Bearer " + token.value
  }

  /** The message of an HTTP error other than 401. */
  function HttpError(status: int, text: string): string {
    "Erro HTTP " + Show(status) + ": " + (if text == "" then "Erro desconhecido" else text)
  }

  /** The queue is used only while a refresh runs. */
  predicate Inv(c: Client) {
    c.refresh.Idle? ==> c.queue == []
  }

  /** The requests a refresh will settle: the ones queued and the one that
      started it. */
  function Pending(c: Client): seq<RequestId> {
    if c.refresh.Running? then c.queue + [c.refresh.initiator] else []
  }

  /** One event. A 2xx response resolves its request and any other status
      but 401 rejects it with the HTTP error; a network failure rejects the
      request with its reason. A 401 while a refresh runs joins the queue; a
      401 with none running starts one. When the refresh succeeds the new
      token is stored (`undefined` when the response lacks it), and the
      initiator is sent again at once, the queued requests after it; when
      it fails, the token is removed, every waiting request is rejected and
      the page goes to the login. */
  function Handle(c: Client, e: Event): (r: Step)
    requires e.RefreshSucceeded? || e.RefreshFailed? ==> c.refresh.Running?
    ensures e.Responded? && e.status == 401 && c.refresh.Running? ==>
      r.client == c.(queue := c.queue + [e.request]) && r.effect == Waiting
    ensures e.Responded? && e.status == 401 && c.refresh.Idle? ==>
      r.client == c.(refresh := Running(e.request)) && r.effect == Waiting
    ensures e.Responded? && e.status != 401 ==> r.client == c
    ensures e.Responded? && 200 <= e.status <= 299 ==> r.effect == Resolved(e.request)
    ensures e.Responded? && e.status != 401 && !(200 <= e.status <= 299) ==>
      r.effect == Rejected([(e.request, HttpError(e.status, e.text))])
    ensures e.NetworkFailed? ==> r.client == c && r.effect == Rejected([(e.request, e.reason)])
    ensures e.RefreshSucceeded? ==>
      && r.client.refresh.Idle? && r.client.queue == []
      && r.client.token == Some(if e.accessToken.Some? then e.accessToken.value else "undefined")
      && r.effect == Retried([c.refresh.initiator] + c.queue)
    ensures e.RefreshFailed? ==>
      && r.client == Client(None, Idle, [], LoginPage)
      && r.effect.Rejected? && |r.effect.rejected| == |c.queue| + 1
      && (forall i :: 0 <= i < |c.queue| ==> r.effect.rejected[i] == (c.queue[i], e.reason))
      && r.effect.rejected[|c.queue|] == (c.refresh.initiator, ExpiredSessionMessage)
  {
    match e
    case Responded(request, status, text) =>
      if status == 401 then
        if c.refresh.Running? then Step(c.(queue := c.queue + [request]), Waiting)
        else Step(c.(refresh := Running(request)), Waiting)
      else if 200 <= status <= 299 then Step(c, Resolved(request))
      else Step(c, Rejected([(request, HttpError(status, text))]))
    case NetworkFailed(request, reason) => Step(c, Rejected([(request, reason)]))
    case RefreshSucceeded(token) =>
      var stored := if token.Some? then token.value else "undefined";
      Step(c.(token := Some(stored), refresh := Idle, queue := []), Retried([c.refresh.initiator] + c.queue))
    case RefreshFailed(reason) =>
      var queued := seq(|c.queue|, i requires 0 <= i < |c.queue| => (c.queue[i], reason));
      Step(Client(None, Idle, [], LoginPage), Rejected(queued + [(c.refresh.initiator, ExpiredSessionMessage)]))
  }

  /** Every event keeps the queue empty while no refresh runs. */
  lemma HandleKeepsInv(c: Client, e: Event)
    requires Inv(c)
    requires e.RefreshSucceeded? || e.RefreshFailed? ==> c.refresh.Running?
    ensures Inv(Handle(c, e).client)
  {
  }

  /** A refresh settles exactly the requests that were waiting for it:
      each is retried, or each is rejected, and none is left behind. */
  lemma RefreshSettlesPending(c: Client, e: Event)
    requires c.refresh.Running?
    requires e.RefreshSucceeded? || e.RefreshFailed?
    ensures Pending(Handle(c, e).client) == []
    ensures e.RefreshSucceeded? ==> multiset(Handle(c, e).effect.requests) == multiset(Pending(c))
    ensures e.RefreshFailed? ==>
      multiset(seq(|Handle(c, e).effect.rejected|, i requires 0 <= i < |Handle(c, e).effect.rejected| => Handle(c, e).effect.rejected[i].0))
        == multiset(Pending(c))
  {
    var r := Handle(c, e);
    if e.RefreshSucceeded? {
      assert r.effect.requests == [c.refresh.initiator] + c.queue;
      assert Pending(c) == c.queue + [c.refresh.initiator];
    } else {
      var ids := seq(|r.effect.rejected|, i requires 0 <= i < |r.effect.rejected| => r.effect.rejected[i].0);
      assert ids == c.queue + [c.refresh.initiator];
    }
  }

  /** A run of events from a client; the refresh results arrive only while
      a refresh runs, as they come from the refresh the client started. */
  predicate Feasible(c: Client, events: seq<Event>)
    decreases |events|
  {
    events == [] ||
    ((events[0].RefreshSucceeded? || events[0].RefreshFailed? ==> c.refresh.Running?)
      && Feasible(Handle(c, events[0]).client, events[1..]))
  }

  function Run(c: Client, events: seq<Event>): (r: Client)
    requires Feasible(c, events)
    decreases |events|
  {
    if events == [] then c else Run(Handle(c, events[0]).client, events[1..])
  }

  /** Along any run, at most one refresh is in flight and the queue is
      empty whenever none is. */
  lemma {:induction false} RunKeepsInv(c: Client, events: seq<Event>)
    requires Inv(c) && Feasible(c, events)
    ensures Inv(Run(c, events))
    decreases |events|
  {
    if events != [] {
      HandleKeepsInv(c, events[0]);
      RunKeepsInv(Handle(c, events[0]).client, events[1..]);
    }
  }

  /** A second 401 during a refresh does not start another one. */
  lemma SingleFlight(c: Client, request: RequestId, text: string)
    requires c.refresh.Running?
    ensures Handle(c, Responded(request, 401, text)).client.refresh == c.refresh
  {
  }
}

=== FILE: auth_service.dfy ===
/** AuthService: login and refresh. The access token is represented by the
    claims it is signed over; TokenGeneratorService, which signs it and picks
    its expiry, is not part of this model, so the expiry is a parameter.
    `User.isLoginCorrect` is not part of this model either: it is taken to be
    the encoder's `matches` of the presented password against the stored
    one. */
module AuthService {
  import opened Common
  import opened Text
  import opened Requests
  import opened Accounts
  import opened RefreshTokens
  import UserService
  import Responses

  const BadCredentialsMessage: string := "Email ou senha inválidos."
  const NoUserForTokenMessage: string := "Usuário não encontrado para esse token."

  /** The claims of an access token: subject, email and scope. */
  datatype AccessToken = AccessToken(subject: UserId, email: Option<string>, scope: string)

  /** AuthServiceResponseDTO. */
  datatype AuthResponse = AuthResponse(accessToken: AccessToken, accessExpiry: Instant, refreshToken: string, refreshExpiry: Instant)

  predicate LoginCorrect(u: User, password: string, enc: Encoder) {
    u.password.Some? && enc.matches(password, u.password.value)
  }

  /** The role names joined by single spaces, in the order the user's
      roles list gives; the source iterates a `Set`, whose order is
      unspecified. */
  function Scope(u: User): (r: string)
    ensures u.roles == [] ==> r == ""
    ensures |u.roles| == 1 ==> r == u.roles[0]
  {
    Join(u.roles, ' ')
  }

  function AccessFor(u: User): AccessToken {
    AccessToken(u.id, u.email, Scope(u))
  }

  /** `login`: an unknown email and a wrong password are refused with the
      same exception; otherwise an access token and a refresh token are
      issued for the user found. */
  function Login(a: Accounts, email: Option<string>, password: string, f: Fresh, accessExpiry: Instant, minutes: int, enc: Encoder): (r: Result<Commit<AuthResponse>>)
    ensures UsersWithEmail(a, email) == {} ==> r == Err(Authentication(BadCredentialsMessage, false))
    ensures forall id :: UsersWithEmail(a, email) == {id} && id in a.users && !LoginCorrect(a.users[id], password, enc) ==>
      r == Err(Authentication(BadCredentialsMessage, false))
    ensures r.Ok? <==> exists id :: (UsersWithEmail(a, email) == {id} && id in a.users
      && LoginCorrect(a.users[id], password, enc)
      && CreateRefreshToken(a, a.users[id].id, f, minutes, enc).Ok?)
    ensures r.Ok? ==> exists id :: (UsersWithEmail(a, email) == {id} && id in a.users
      && r.value.store == CreateRefreshToken(a, a.users[id].id, f, minutes, enc).value.store
      && r.value.value.accessToken.subject == a.users[id].id
      && r.value.value.accessToken.scope == Join(a.users[id].roles, ' ')
      && r.value.value.accessExpiry == accessExpiry
      && r.value.value.refreshToken == Composite(f.tokenId, f.secret)
      && r.value.value.refreshExpiry == Expiry(f.now, minutes))
  {
    var found :- FindByEmail(a, email);
    if found.None? then Err(Authentication(BadCredentialsMessage, false))
    else
      var u := a.users[found.value];
      if !LoginCorrect(u, password, enc) then Err(Authentication(BadCredentialsMessage, false))
      else
        var issued :- CreateRefreshToken(a, u.id, f, minutes, enc);
        Ok(Commit(issued.store, AuthResponse(AccessFor(u), accessExpiry, issued.value.refreshToken, issued.value.expirationDate)))
  }

  /** The refresh-token store after a successful login holds one more row,
      for the user who logged in. */
  lemma LoginAddsOneToken(a: Accounts, email: Option<string>, password: string, f: Fresh, accessExpiry: Instant, minutes: int, enc: Encoder)
    requires Valid(a)
    requires Login(a, email, password, f, accessExpiry, minutes, enc).Ok?
    ensures
      var r := Login(a, email, password, f, accessExpiry, minutes, enc).value;
      && r.store.users == a.users
      && a.nextTokenRow in r.store.tokens
      && r.store.tokens[a.nextTokenRow].userId == r.value.accessToken.subject
      && r.store.tokens - {a.nextTokenRow} == a.tokens
  {
    var r := Login(a, email, password, f, accessExpiry, minutes, enc).value;
    assert a.nextTokenRow !in a.tokens;
    assert r.store.tokens - {a.nextTokenRow} == a.tokens;
  }

  /** The answer to a rotation: the rotated token and its expiry, with an
      access token for the user the rotation returned. */
  function RespondToRotation(rotated: Result<Commit<Issued>>, accessExpiry: Instant): (r: Result<Commit<AuthResponse>>)
    ensures rotated.Err? ==> r == Err(rotated.error)
    ensures rotated.Ok? && rotated.value.value.user.None? ==> r == Err(TokenRefresh(NoUserForTokenMessage))
    ensures r.Ok? <==> rotated.Ok? && rotated.value.value.user.Some?
    ensures r.Ok? ==>
      && r.value.store == rotated.value.store
      && r.value.value.refreshToken == rotated.value.value.refreshToken
      && r.value.value.refreshExpiry == rotated.value.value.expirationDate
      && r.value.value.accessToken.subject == rotated.value.value.user.value.id
      && r.value.value.accessToken.scope == Join(rotated.value.value.user.value.roles, ' ')
  {
    var rot :- rotated;
    if rot.value.user.None? then Err(TokenRefresh(NoUserForTokenMessage))
    else
      var u := rot.value.user.value;
      Ok(Commit(rot.store, AuthResponse(AccessFor(u), accessExpiry, rot.value.refreshToken, rot.value.expirationDate)))
  }

  /** `updateRefreshToken` over the rotation as written. The missing-user
      branch is unreachable: a successful rotation always returns its user. */
  function UpdateRefreshToken(a: Accounts, token: string, f: Fresh, accessExpiry: Instant, minutes: int, enc: Encoder): (r: Result<Commit<AuthResponse>>)
    ensures r.Ok? <==> RevokeAndReplace(a, token, f, minutes, enc).Ok?
    ensures r.Err? ==> r == Err(RevokeAndReplace(a, token, f, minutes, enc).error)
  {
    RespondToRotation(RevokeAndReplace(a, token, f, minutes, enc), accessExpiry)
  }

  /** `updateRefreshToken` over the corrected rotation. */
  function UpdateRefreshTokenFixed(a: Accounts, token: string, f: Fresh, accessExpiry: Instant, minutes: int, enc: Encoder): (r: Result<Commit<AuthResponse>>)
    ensures r.Ok? <==> RevokeAndReplaceFixed(a, token, f, minutes, enc).Ok?
    ensures r.Ok? ==> r.value.value.refreshToken == Composite(f.tokenId, f.secret)
  {
    RespondToRotation(RevokeAndReplaceFixed(a, token, f, minutes, enc), accessExpiry)
  }

  /** The whole session as written: a login, one refresh that succeeds, and
      a second refresh with the token the first returned, refused as
      unknown (status 401). */
  lemma SecondRefreshFails(a: Accounts, email: Option<string>, password: string, f: Fresh, g: Fresh, h: Fresh,
                           accessExpiry: Instant, minutes: int, enc: Encoder)
    requires Valid(a) && Sound(enc)
    requires Login(a, email, password, f, accessExpiry, minutes, enc).Ok?
    requires '.' !in f.tokenId && '.' !in f.secret && f.secret != ""
    requires '.' !in g.secret && g.secret != ""
    requires g.now <= Expiry(f.now, minutes)
    requires g.tokenId != f.tokenId && RowsWithToken(a, g.tokenId) == {}
    requires TokenFits(NewRow(Login(a, email, password, f, accessExpiry, minutes, enc).value.value.accessToken.subject, g, minutes, enc))
    ensures
      var first := Login(a, email, password, f, accessExpiry, minutes, enc).value;
      var second := UpdateRefreshToken(first.store, first.value.refreshToken, g, accessExpiry, minutes, enc);
      && second.Ok?
      && UpdateRefreshToken(second.value.store, second.value.value.refreshToken, h, accessExpiry, minutes, enc)
           == Err(TokenRefresh(UnknownTokenMessage))
  {
    var id :| UsersWithEmail(a, email) == {id} && id in a.users
      && LoginCorrect(a.users[id], password, enc)
      && CreateRefreshToken(a, a.users[id].id, f, minutes, enc).Ok?;
    var user := a.users[id].id;
    var first := Login(a, email, password, f, accessExpiry, minutes, enc).value;
    IssuedTokenRotates(a, user, f, g, minutes, enc);
    var b := first.store;
    assert Valid(b) by {
      SaveTokenPreservesValid(a, NewRow(user, f, minutes, enc));
    }
    SavedRowIsFound(a, NewRow(user, f, minutes, enc));
    CompositeSplits(f.tokenId, f.secret);
    RotatedTokenIsRejected(b, first.value.refreshToken, g, h, minutes, enc);
  }

  /** The same session over the corrected rotation: the token each refresh
      returns serves the next one, for the same user. */
  lemma RefreshChainsWhenFixed(a: Accounts, email: Option<string>, password: string, f: Fresh, g: Fresh, h: Fresh,
                               accessExpiry: Instant, minutes: int, enc: Encoder)
    requires Valid(a) && Sound(enc)
    requires Login(a, email, password, f, accessExpiry, minutes, enc).Ok?
    requires '.' !in f.tokenId && '.' !in f.secret && f.secret != ""
    requires '.' !in g.tokenId && '.' !in g.secret && g.secret != ""
    requires g.now <= Expiry(f.now, minutes) && h.now <= Expiry(g.now, minutes)
    requires g.tokenId != f.tokenId && RowsWithToken(a, g.tokenId) == {}
    requires h.tokenId != g.tokenId && h.tokenId != f.tokenId && RowsWithToken(a, h.tokenId) == {}
    requires
      var subject := Login(a, email, password, f, accessExpiry, minutes, enc).value.value.accessToken.subject;
      TokenFits(NewRow(subject, g, minutes, enc)) && TokenFits(NewRow(subject, h, minutes, enc))
    ensures
      var first := Login(a, email, password, f, accessExpiry, minutes, enc).value;
      var second := UpdateRefreshTokenFixed(first.store, first.value.refreshToken, g, accessExpiry, minutes, enc);
      && second.Ok?
      && second.value.value.accessToken.subject == first.value.accessToken.subject
      && UpdateRefreshTokenFixed(second.value.store, second.value.value.refreshToken, h, accessExpiry, minutes, enc).Ok?
  {
    var id :| UsersWithEmail(a, email) == {id} && id in a.users
      && LoginCorrect(a.users[id], password, enc)
      && CreateRefreshToken(a, a.users[id].id, f, minutes, enc).Ok?;
    var user := a.users[id].id;
    var first := Login(a, email, password, f, accessExpiry, minutes, enc).value;
    var b := first.store;
    SaveTokenPreservesValid(a, NewRow(user, f, minutes, enc));
    SavedRowIsFound(a, NewRow(user, f, minutes, enc));
    assert RowsWithToken(b, g.tokenId) == {} && RowsWithToken(b, h.tokenId) == {};
    FreshRowRotates(b, a.nextTokenRow, user, f, g, minutes, enc);
    assert first.value.refreshToken == Composite(f.tokenId, f.secret);
    RotatedTokenIsAccepted(b, first.value.refreshToken, g, h, minutes, enc);
  }

  /** Registration and login fit together: right after `create`, the
      registered email and password log in, under any sound encoder. */
  lemma CreatedUserLogsIn(a: Accounts, d: UserRequest, f: Fresh, accessExpiry: Instant, minutes: int, enc: Encoder)
    requires Valid(a) && Sound(enc)
    requires UserService.Create(a, d, enc).Ok?
    requires RowsWithToken(a, f.tokenId) == {} && TokenFits(NewRow(a.nextUserId, f, minutes, enc))
    ensures Login(UserService.Create(a, d, enc).value.store, d.email, d.password.value, f, accessExpiry, minutes, enc).Ok?
  {
    var b := UserService.Create(a, d, enc).value.store;
    var n := a.nextUserId;
    assert n !in a.users;
    forall k | k in UsersWithEmail(b, d.email) ensures k == n {
      assert k != n ==> k in UsersWithEmail(a, d.email);
    }
    assert n in UsersWithEmail(b, d.email);
    assert forall k :: k in UsersWithEmail(b, d.email) <==> k in {n};
    assert enc.matches(d.password.value, enc.encode(d.password.value));
    assert LoginCorrect(b.users[n], d.password.value, enc);
  }

  /** A client whose User-Agent header or address is too long for its
      column cannot log in or refresh: with the right password, and with a
      token that passes the check, the answer is a 500. */
  lemma OversizedClientGets500(a: Accounts, email: Option<string>, password: string, token: string, f: Fresh, accessExpiry: Instant, minutes: int, enc: Encoder)
    requires Valid(a) && ClientTooLong(f)
    ensures (exists id :: UsersWithEmail(a, email) == {id} && LoginCorrect(a.users[id], password, enc)) ==>
      && Login(a, email, password, f, accessExpiry, minutes, enc) == Err(Unhandled(ConstraintViolated))
      && Responses.Respond(Login(a, email, password, f, accessExpiry, minutes, enc).error).status == 500
    ensures RefreshTokens.Check(a, token, f.now, enc).Ok? ==>
      && UpdateRefreshToken(a, token, f, accessExpiry, minutes, enc) == Err(Unhandled(ConstraintViolated))
      && Responses.Respond(UpdateRefreshToken(a, token, f, accessExpiry, minutes, enc).error).status == 500
  {
    if exists id :: UsersWithEmail(a, email) == {id} && LoginCorrect(a.users[id], password, enc) {
      var id :| UsersWithEmail(a, email) == {id} && LoginCorrect(a.users[id], password, enc);
      assert id in UsersWithEmail(a, email);
      OversizedClientFails(a, a.users[id].id, token, f, minutes, enc);
    }
    OversizedClientFails(a, 0, token, f, minutes, enc);
  }

  /** An encoder that prefixes a marker and checks for it: sound, and it
      never matches a stored string against itself. */
  const Marked: Encoder := Encoder(p => "{h}" + p, (raw, stored) => stored == "{h}" + raw)

  lemma MarkedIsSound()
    ensures Sound(Marked)
  {
  }

  /** Finding, as written: after a user changes their password through
      `patchUser`, logging in with the new password fails, since the raw
      string was stored where an encoding is expected. */
  lemma PatchedPasswordLocksOut(a: Accounts, caller: UserId, email: string, target: UserId, pw: string,
                                f: Fresh, accessExpiry: Instant, minutes: int)
    requires UsersWithEmail(a, Some(email)) == {target}
    requires
      var d := UserRequest(None, None, Some(pw), None);
      UserService.PatchUser(a, caller, email, d).Ok?
    ensures
      var d := UserRequest(None, None, Some(pw), None);
      var b := UserService.PatchUser(a, caller, email, d).value.store;
      Login(b, Some(email), pw, f, accessExpiry, minutes, Marked) == Err(Authentication(BadCredentialsMessage, false))
  {
    var d := UserRequest(None, None, Some(pw), None);
    var b := UserService.PatchUser(a, caller, email, d).value.store;
    assert b.users == a.users[target := UserService.Merge(a.users[target], d)];
    PatchedEmailKept(a, b, email, target);
    assert b.users[target].password == Some(pw);
    assert |"{h}" + pw| != |pw|;
  }

  /** A patch that leaves the email alone leaves the lookup by email alone. */
  lemma PatchedEmailKept(a: Accounts, b: Accounts, email: string, target: UserId)
    requires UsersWithEmail(a, Some(email)) == {target}
    requires target in a.users && target in b.users && b.users.Keys == a.users.Keys
    requires b.users[target].email == a.users[target].email
    requires forall k :: k in a.users && k != target ==> b.users[k] == a.users[k]
    ensures UsersWithEmail(b, Some(email)) == {target}
  {
    assert target in UsersWithEmail(a, Some(email));
    forall k | k in UsersWithEmail(b, Some(email)) ensures k == target {
      assert k != target ==> k in UsersWithEmail(a, Some(email));
    }
    assert forall k :: k in UsersWithEmail(b, Some(email)) <==> k in {target};
  }

  /** Corrected: with the password encoded on patch, the new password logs
      in under any sound encoder. */
  lemma PatchedPasswordLogsIn(a: Accounts, caller: UserId, email: string, target: UserId, pw: string,
                              f: Fresh, accessExpiry: Instant, minutes: int, enc: Encoder)
    requires Valid(a) && Sound(enc)
    requires UsersWithEmail(a, Some(email)) == {target}
    requires
      var d := UserRequest(None, None, Some(pw), None);
      UserService.PatchUserFixed(a, caller, email, d, enc).Ok?
    requires RowsWithToken(a, f.tokenId) == {} && TokenFits(NewRow(target, f, minutes, enc))
    ensures
      var d := UserRequest(None, None, Some(pw), None);
      var b := UserService.PatchUserFixed(a, caller, email, d, enc).value.store;
      Login(b, Some(email), pw, f, accessExpiry, minutes, enc).Ok?
  {
    var d := UserRequest(None, None, Some(pw), None);
    var b := UserService.PatchUserFixed(a, caller, email, d, enc).value.store;
    assert b.users == a.users[target := UserService.MergeEncoded(a.users[target], d, enc)];
    PatchedEmailKept(a, b, email, target);
    assert enc.matches(pw, enc.encode(pw));
    assert LoginCorrect(b.users[target], pw, enc);
    assert b.users[target].id == target;
  }
}

=== FILE: categories_page.dfy ===
/** The category form of CategoriesPage: the blank-name check, update or
    create, and the reset after success. */
module CategoriesPage {
  import opened Common
  import opened Text
  import Requests
  import Ledger
  import Responses
  import Endpoints

  datatype Form = Form(id: Option<int>, name: string)

  datatype Action = FormError(message: string) | UpdateCategory(id: int, name: string) | CreateCategory(name: string)

  const BlankNameMessage: string := "O nome da categoria não pode ser vazio."

  const InitialForm: Form := Form(None, "")

  predicate Truthy(id: Option<int>) {
    id.Some? && id.value != 0
  }

  /** `handleFormSubmit`: a name that JavaScript's `trim()` empties is
      refused with no request; otherwise the name is sent as typed,
      untrimmed, as an update when the form has an id and a create when it
      has none. */
  function Submit(f: Form): (r: Action)
    ensures r.FormError? <==> JsTrimIsEmpty(f.name)
    ensures r.FormError? ==> r.message == BlankNameMessage
    ensures r.UpdateCategory? <==> !JsTrimIsEmpty(f.name) && Truthy(f.id)
    ensures r.UpdateCategory? ==> r.id == f.id.value && r.name == f.name
    ensures r.CreateCategory? ==> r.name == f.name
  {
    if JsTrimIsEmpty(f.name) then FormError(BlankNameMessage)
    else if Truthy(f.id) then UpdateCategory(f.id.value, f.name)
    else CreateCategory(f.name)
  }

  /** Back to `{ id: null, name: "" }` after a request that succeeded. */
  function AfterSubmit(f: Form, requestSucceeded: bool): (g: Form)
    ensures g == InitialForm <==> (!JsTrimIsEmpty(f.name) && requestSucceeded) || f == InitialForm
    ensures g != InitialForm ==> g == f
  {
    if Submit(f).FormError? || !requestSucceeded then f else InitialForm
  }

  /** `handleEdit`: the category's id and name. */
  function EditForm(id: int, name: string): (f: Form)
    ensures f.id == Some(id) && f.name == name
  {
    Form(Some(id), name)
  }

  /** Editing a category with a positive id and a non-blank name, and
      submitting it unchanged, updates it under the same name. */
  lemma EditedCategoryIsUpdated(id: int, name: string)
    requires id > 0 && !JsTrimIsEmpty(name)
    ensures Submit(EditForm(id, name)) == UpdateCategory(id, name)
  {
  }

  /** The page's check and the back end's `@NotBlank` agree on names free
      of the control characters below U+0020: what the page sends is not
      blank for Java either. */
  lemma PageCheckImpliesNotBlank(f: Form)
    requires !Submit(f).FormError?
    requires forall i :: 0 <= i < |f.name| ==> f.name[i] >= ' '
    ensures Requests.NotBlank(Some(f.name))
  {
    var i :| 0 <= i < |f.name| && !IsJsWhitespace(f.name[i]);
    assert !IsTrimmed(f.name[i]);
  }

  const Separator: string := "\U{001C}"

  /** They disagree on the rest: a name made of one information separator
      (U+001C) passes the page, which does not count it as whitespace, but
      Java's `trim()` removes it. Sent as an edit it reaches the validated
      PUT and is refused with 400; sent as a new category it reaches the
      unvalidated POST and is stored. */
  lemma SeparatorPassesPageOnly(s: Ledger.Store, k: int)
    requires k > 0
    requires Ledger.CategoryIdsNamed(s, Some(Separator)) == {}
    ensures Submit(Form(Some(k), Separator)) == UpdateCategory(k, Separator)
    ensures Submit(Form(None, Separator)) == CreateCategory(Separator)
    ensures !Requests.NotBlank(Some(Separator))
    ensures var r := Endpoints.PutCategory(s, k, Requests.CategoryRequest(Some(Separator)));
      r.Err? && Responses.Respond(r.error).status == 400
    ensures var r := Endpoints.PostCategory(s, Requests.CategoryRequest(Some(Separator)));
      r.Ok? && r.value.value.name == Separator
  {
    assert !IsJsWhitespace(Separator[0]);
    assert JavaLength(Separator) <= 50;
  }
}

=== FILE: category_service.dfy ===
/** CategoryService: lookup, create, null-ignoring rename, delete refused
    while products belong to the category, and the id-descending listing. */
module CategoryService {
  import opened Common
  import opened Ledger
  import opened Requests

  function DuplicateNameMessage(name: string): string {
    "Já existe uma categoria com esse nome: " + name
  }

  /** `update` reuses the product service's wording. */
  function RenameConflictMessage(name: string): string {
    "Já existe um produto com esse nome: " + name
  }

  const InUseMessage: string := "Não é possível eliminar a categoria que está vinculada a aglum produto."

  /** `findById`, the public lookup. */
  function FindById(s: Store, id: Id): (r: Result<Category>)
    ensures r.Ok? <==> id in s.categories
    ensures r.Ok? ==> r.value == s.categories[id]
    ensures r.Err? ==> r.error == ResourceNotFound("Categoria não encontrada com ID: " + Show(id))
  {
    if id in s.categories then Ok(s.categories[id])
    else Err(ResourceNotFound("Categoria não encontrada com ID: " + Show(id)))
  }

  /** `findEntityById`, the lookup `update` and `delete` use; its message
      speaks of a sale. */
  function FindEntityById(s: Store, id: Id): (r: Result<Category>)
    ensures r.Ok? <==> id in s.categories
    ensures r.Ok? ==> r.value == s.categories[id]
    ensures r.Err? ==> r.error == ResourceNotFound("Venda não encontrada para esse id: " + Show(id))
  {
    if id in s.categories then Ok(s.categories[id])
    else Err(ResourceNotFound("Venda não encontrada para esse id: " + Show(id)))
  }

  /** The two lookups find the same rows and differ only in the message. */
  lemma LookupsAgree(s: Store, id: Id)
    ensures FindById(s, id).Ok? <==> FindEntityById(s, id).Ok?
    ensures FindById(s, id).Ok? ==> FindById(s, id) == FindEntityById(s, id)
    ensures FindById(s, id).Err? ==> FindById(s, id).error != FindEntityById(s, id).error
  {
    if id !in s.categories {
      var a := "Categoria não encontrada com ID: " + Show(id);
      var b := "Venda não encontrada para esse id: " + Show(id);
      assert a[0] != b[0];
    }
  }

  /** `save` of a category keyed by its id: a null name breaks
      `nullable = false`, a long one breaks `length = 50`. */
  function SaveCategory(s: Store, id: Id, name: Option<string>): (r: Result<Store>)
    ensures r.Ok? <==> name.Some? && CategoryFits(Category(id, name.value))
    ensures r.Ok? ==> r.value == s.(categories := s.categories[id := Category(id, name.value)])
    ensures r.Err? ==> r.error == Unhandled(ConstraintViolated)
  {
    if name.Some? && CategoryFits(Category(id, name.value)) then
      Ok(s.(categories := s.categories[id := Category(id, name.value)]))
    else Err(Unhandled(ConstraintViolated))
  }

  /** `create`: refused when a category already has the name; otherwise the
      row is inserted under the next identity value. */
  function Create(s: Store, d: CategoryRequest): (r: Result<Commit<Category>>)
    ensures |CategoryIdsNamed(s, d.name)| == 1 ==>
              r == Err(DuplicateResource(DuplicateNameMessage(if d.name.Some? then d.name.value else "null")))
    ensures r.Ok? <==> CategoryIdsNamed(s, d.name) == {} && d.name.Some? && CategoryFits(Category(s.nextCategoryId, d.name.value))
    ensures r.Ok? ==>
              && r.value.value == Category(s.nextCategoryId, d.name.value)
              && r.value.store == s.(categories := s.categories[s.nextCategoryId := r.value.value],
                                     nextCategoryId := s.nextCategoryId + 1)
  {
    var existing :- Single(CategoryIdsNamed(s, d.name));
    if existing.Some? then
      Err(DuplicateResource(DuplicateNameMessage(if d.name.Some? then d.name.value else "null")))
    else
      var id := s.nextCategoryId;
      var saved :- SaveCategory(s, id, d.name);
      Ok(Commit(saved.(nextCategoryId := id + 1), Category(id, d.name.value)))
  }

  /** A null name matches no row, so `create` reaches the insert and the
      database refuses it. */
  lemma NullNameReachesDatabase(s: Store)
    ensures Create(s, CategoryRequest(None)) == Err(Unhandled(ConstraintViolated))
  {
    assert CategoryIdsNamed(s, None) == {};
  }

  /** The name check of `update`: fine when no category or this very
      category holds the name. */
  function NameFreeFor(s: Store, id: Id, name: string): (r: Result<()>)
    ensures r.Ok? <==> CategoryIdsNamed(s, Some(name)) <= {id}
    ensures r.Err? && |CategoryIdsNamed(s, Some(name))| == 1 ==> r.error == DuplicateResource(RenameConflictMessage(name))
  {
    SubsetOfSingleton(CategoryIdsNamed(s, Some(name)), id);
    var existing :- Single(CategoryIdsNamed(s, Some(name)));
    if existing.Some? && existing.value != id then Err(DuplicateResource(RenameConflictMessage(name)))
    else Ok(())
  }

  /** `update`: the category must exist, a new name must not belong to
      another category; a null name leaves the row as it is. */
  function Update(s: Store, id: Id, d: CategoryRequest): (r: Result<Commit<Category>>)
    ensures id !in s.categories ==> r == Err(ResourceNotFound("Venda não encontrada para esse id: " + Show(id)))
    ensures id in s.categories && (exists k :: k != id && CategoryIdsNamed(s, d.name) == {k}) ==>
              r == Err(DuplicateResource(RenameConflictMessage(d.name.value)))
    ensures r.Ok? <==>
              && id in s.categories
              && (d.name.None? || CategoryIdsNamed(s, d.name) <= {id})
              && CategoryFits(s.categories[id].(name := d.name.GetOr(s.categories[id].name)))
    ensures r.Ok? ==>
              && r.value.value == Category(id, d.name.GetOr(s.categories[id].name))
              && r.value.store == s.(categories := s.categories[id := r.value.value])
  {
    var c :- FindEntityById(s, id);
    var _ :- if d.name.Some? then NameFreeFor(s, id, d.name.value) else Ok(());
    var name := d.name.GetOr(c.name);
    var saved :- SaveCategory(s, id, Some(name));
    Ok(Commit(saved, Category(id, name)))
  }

  /** Re-saving a category under its own name succeeds and changes nothing. */
  lemma UpdateWithOwnName(s: Store, id: Id)
    requires Valid(s) && id in s.categories
    ensures var r := Update(s, id, CategoryRequest(Some(s.categories[id].name)));
            r.Ok? && r.value.store == s && r.value.value == s.categories[id]
  {
    var ids := CategoryIdsNamed(s, Some(s.categories[id].name));
    assert forall k :: k in ids ==> k == id;
    assert s.categories[id := s.categories[id]] == s.categories;
  }

  /** `delete`: refused with a validation error while any product belongs to
      the category. */
  function Delete(s: Store, id: Id): (r: Result<Commit<()>>)
    ensures id !in s.categories ==> r == Err(ResourceNotFound("Venda não encontrada para esse id: " + Show(id)))
    ensures r.Ok? <==> id in s.categories && ProductsInCategory(s, id) == {}
    ensures id in s.categories && ProductsInCategory(s, id) != {} ==> r == Err(Validation(InUseMessage))
    ensures r.Ok? ==> r.value.store == s.(categories := s.categories - {id})
  {
    var _ :- FindEntityById(s, id);
    if ProductsInCategory(s, id) != {} then Err(Validation(InUseMessage))
    else Ok(Commit(s.(categories := s.categories - {id}), ()))
  }

  /** `findAll(page, size)`: one page of the categories in descending id order. */
  function FindAll(s: Store, page: int, size: int): (r: Result<Page<Category>>)
    ensures r.Ok? <==> page >= 0 && size >= 1
    ensures r.Ok? ==> r.value.totalElements == |s.categories| && |r.value.content| <= size
  {
    PageOf(ByIdDesc(s.categories), page, size)
  }

  lemma FindAllOrdered(s: Store, page: int, size: int)
    requires Valid(s) && FindAll(s, page, size).Ok?
    ensures var c := FindAll(s, page, size).value.content;
            forall i, j :: 0 <= i < j < |c| ==> c[i].id > c[j].id
  {
    CategoryRowsDescending(s);
    PageKeepsOrder(ByIdDesc(s.categories), page, size, (c: Category) => c.id);
  }

  /** A created category is found under the id it was given. */
  lemma CreateThenFind(s: Store, d: CategoryRequest)
    requires Create(s, d).Ok?
    ensures FindById(Create(s, d).value.store, Create(s, d).value.value.id) == Ok(Create(s, d).value.value)
  {
  }

  // ---- the store invariant ----

  lemma CreatePreservesValid(s: Store, d: CategoryRequest)
    requires Valid(s)
    ensures Create(s, d).Ok? ==> Valid(Create(s, d).value.store)
  {
    var r := Create(s, d);
    if r.Ok? {
      var c := r.value.value;
      var t := r.value.store;
      var n := s.nextCategoryId;
      assert n !in s.categories;
      forall k | k in t.products ensures t.products[k].categoryId in t.categories {
      }
      forall a, b | a in t.categories && b in t.categories && a != b
        ensures t.categories[a].name != t.categories[b].name
      {
        if a == n {
          assert b !in CategoryIdsNamed(s, d.name);
        } else if b == n {
          assert a !in CategoryIdsNamed(s, d.name);
        }
      }
    }
  }

  lemma UpdatePreservesValid(s: Store, id: Id, d: CategoryRequest)
    requires Valid(s)
    ensures Update(s, id, d).Ok? ==> Valid(Update(s, id, d).value.store)
  {
    var r := Update(s, id, d);
    if r.Ok? {
      var t := r.value.store;
      assert t.categories.Keys == s.categories.Keys;
      forall k | k in t.products ensures t.products[k].categoryId in t.categories {
      }
      forall a, b | a in t.categories && b in t.categories && a != b
        ensures t.categories[a].name != t.categories[b].name
      {
        if a == id && d.name.Some? {
          assert b !in CategoryIdsNamed(s, d.name);
        } else if b == id && d.name.Some? {
          assert a !in CategoryIdsNamed(s, d.name);
        }
      }
    }
  }

  lemma DeletePreservesValid(s: Store, id: Id)
    requires Valid(s)
    ensures Delete(s, id).Ok? ==> Valid(Delete(s, id).value.store)
  {
    var r := Delete(s, id);
    if r.Ok? {
      var t := r.value.store;
      forall k | k in t.products ensures t.products[k].categoryId in t.categories {
        assert k !in ProductsInCategory(s, id);
      }
    }
  }
}

=== FILE: common.dfy ===
/** Values shared by the back-end model: optional values, the exceptions the
    services throw, the Result every transactional operation returns, Java's
    32-bit Integer, and Java's decimal rendering of a Long. */
module Common {

  /** A Java reference that may be null. */
  datatype Option<+T> = None | Some(value: T) {
    function GetOr(default: T): T {
      if Some? then value else default
    }
  }

  /** One bean-validation failure: the field path and the constraint's message. */
  datatype FieldError = FieldError(field: string, message: string)

  /** The exceptions thrown by the back end, one constructor per class.
      `Unhandled` stands for every exception no handler of
      GlobalResponseHandler catches (null dereference, Spring Data argument
      checks, database constraint violations). */
  datatype Exception =
    | Validation(message: string)
    | DuplicateResource(message: string)
    | ResourceNotFound(message: string)
    | Authentication(message: string, generic: bool)
    | AccessDenied(message: string)
    | TokenRefresh(message: string)
    | ArgumentNotValid(errors: seq<FieldError>)
    | Unhandled(cause: string)

  /** The outcome of a service call: a value, or the exception it threw. */
  datatype Result<+T> = Ok(value: T) | Err(error: Exception) {
    predicate IsFailure() {
      Err?
    }

    function PropagateFailure<U>(): Result<U>
      requires Err?
    {
      Err(error)
    }

    function Extract(): T
      requires Ok?
    {
      value
    }
  }

  /** Some element of a non-empty set. */
  lemma Pick<T>(s: set<T>) returns (x: T)
    requires s != {}
    ensures x in s
  {
    if forall y :: y !in s {
      assert false;
    }
    x :| x in s;
  }

  /** `java.time.Instant`, in nanoseconds since the epoch. */
  type Instant = int

  const NanosPerMinute: int := 60 * 1_000_000_000

  /** What Spring Data throws when an Optional-returning finder matches more
      than one row. */
  const NonUniqueResult: string := "IncorrectResultSizeDataAccessException"

  /** What the database reports when a row breaks a column constraint. */
  const ConstraintViolated: string := "DataIntegrityViolationException"

  const IntMin: int := -0x8000_0000
  const IntMax: int := 0x7fff_ffff

  /** Java's `int` / `Integer`. */
  type Int32 = x: int | IntMin <= x <= IntMax

  /** Two's-complement truncation of a mathematical integer to 32 bits, as
      Java's `int` arithmetic performs it. */
  function Wrap32(x: int): (r: Int32)
    ensures (x - r) % 0x1_0000_0000 == 0
    ensures IntMin <= x <= IntMax ==> r == x
  {
    (x - IntMin) % 0x1_0000_0000 + IntMin
  }

  /** A non-negative difference of two ints stays non-negative after
      truncation exactly when it fits in an int. */
  lemma WrapOfNonNegative(x: int)
    requires 0 <= x < 0x1_0000_0000
    ensures Wrap32(x) >= 0 <==> x <= IntMax
    ensures x > IntMax ==> Wrap32(x) == x - 0x1_0000_0000
  {
  }

  function DigitChar(d: int): char
    requires 0 <= d < 10
  {
    "0123456789"[d]
  }

  /** Decimal digits of a natural number, most significant first. */
  function ShowNat(n: nat): (s: string)
    ensures |s| >= 1
    ensures forall i :: 0 <= i < |s| ==> '0' <= s[i] <= '9'
  {
    if n < 10 then [DigitChar(n)] else ShowNat(n / 10) + [DigitChar(n % 10)]
  }

  /** Java's `Long.toString`, used where a message concatenates a number. */
  function Show(n: int): string {
    if n < 0 then "-" + ShowNat(-n) else ShowNat(n)
  }
}

=== FILE: endpoints.dfy ===
/** The controllers: which request bodies are bean-validated before the
    service runs. A validated body with violations never reaches the service
    and becomes MethodArgumentNotValidException, status 400. The POST
    endpoints of sales, products and categories and the user PATCH bind
    their bodies without validation. */
module Endpoints {
  import opened Common
  import opened Ledger
  import opened Requests
  import opened Responses
  import opened Text
  import SaleService
  import ProductService
  import CategoryService
  import Accounts
  import UserService

  /** `@Valid` / `@Validated` in front of a service call. */
  function Validated<T>(violations: seq<FieldError>, call: Result<T>): (r: Result<T>)
    ensures violations != [] ==> r == Err(ArgumentNotValid(violations))
    ensures violations == [] ==> r == call
  {
    if violations != [] then Err(ArgumentNotValid(violations)) else call
  }

  /** POST /api/sale: no validation. */
  function PostSale(s: Store, d: SaleRequest): (r: Result<Commit<Sale>>)
    ensures r == SaleService.Register(s, d)
    ensures r.Err? ==> !r.error.ArgumentNotValid?
  {
    SaleService.Register(s, d)
  }

  /** PATCH /api/sale/{id}: validated. */
  function PatchSale(s: Store, id: Id, d: SaleRequest): (r: Result<Commit<Sale>>)
    ensures !SaleValid(d) ==> r.Err? && r.error.ArgumentNotValid? && Respond(r.error).status == 400
    ensures SaleValid(d) ==> r == SaleService.Patch(s, id, d)
  {
    Validated(SaleViolations(d), SaleService.Patch(s, id, d))
  }

  /** A body that passes validation has a non-empty item list, which the
      service cannot store: every call of the sale PATCH endpoint fails, with
      400, 404 or 500. */
  lemma SalePatchAlwaysFails(s: Store, id: Id, d: SaleRequest)
    ensures PatchSale(s, id, d).Err?
    ensures Respond(PatchSale(s, id, d).error).status in {400, 404, 500}
  {
  }

  /** POST /api/product: no validation. */
  function PostProduct(s: Store, d: ProductRequest): (r: Result<Commit<Product>>)
    ensures r == ProductService.Create(s, d)
    ensures r.Err? ==> !r.error.ArgumentNotValid?
  {
    ProductService.Create(s, d)
  }

  /** PATCH /api/product/{id}: validated. */
  function PatchProduct(s: Store, id: Id, d: ProductRequest): (r: Result<Commit<Product>>)
    ensures !ProductValid(d) ==> r.Err? && r.error.ArgumentNotValid? && Respond(r.error).status == 400
    ensures ProductValid(d) ==> r == ProductService.Patch(s, id, d)
  {
    Validated(ProductViolations(d), ProductService.Patch(s, id, d))
  }

  /** POST /api/category: no validation. */
  function PostCategory(s: Store, d: CategoryRequest): (r: Result<Commit<Category>>)
    ensures r == CategoryService.Create(s, d)
    ensures r.Err? ==> !r.error.ArgumentNotValid?
  {
    CategoryService.Create(s, d)
  }

  /** PUT /api/category/{id}: validated. */
  function PutCategory(s: Store, id: Id, d: CategoryRequest): (r: Result<Commit<Category>>)
    ensures !CategoryValid(d) ==> r.Err? && r.error.ArgumentNotValid? && Respond(r.error).status == 400
    ensures CategoryValid(d) ==> r == CategoryService.Update(s, id, d)
  {
    Validated(CategoryViolations(d), CategoryService.Update(s, id, d))
  }

  /** POST /api/user: validated. */
  function PostUser(a: Accounts.Accounts, d: UserRequest, isEmail: string -> bool, enc: Accounts.Encoder): (r: Result<Accounts.Commit<UserService.UserResponse>>)
    ensures !UserValid(d, isEmail) ==> r.Err? && r.error.ArgumentNotValid? && Respond(r.error).status == 400
    ensures UserValid(d, isEmail) ==> r == UserService.Create(a, d, enc)
  {
    Validated(UserViolations(d, isEmail), UserService.Create(a, d, enc))
  }

  /** PATCH /api/user/{email}: no validation. */
  function PatchUser(a: Accounts.Accounts, caller: Accounts.UserId, email: string, d: UserRequest): (r: Result<Accounts.Commit<UserService.UserResponse>>)
    ensures r == UserService.PatchUser(a, caller, email, d)
    ensures r.Err? ==> !r.error.ArgumentNotValid?
  {
    UserService.PatchUser(a, caller, email, d)
  }

  /** A validated sale body never carries a non-positive quantity. */
  lemma ValidSaleHasPositiveQuantities(d: SaleRequest)
    requires SaleValid(d)
    ensures forall i :: 0 <= i < |d.items.value| ==> d.items.value[i].quantity.Some? && d.items.value[i].quantity.value >= 1
  {
  }

  /** The unvalidated POST takes a negative quantity: the shortage check
      `quantity > stock` cannot fail, and the stock goes UP by the quantity's
      magnitude. The same body sent to a validated endpoint is refused. */
  lemma NegativeQuantityRaisesStock(s: Store, d: SaleRequest, k: Id, q: Int32)
    requires d.items == Some([SaleItemRequest(Some(k), Some(q))])
    requires q < 0 && k in s.products && s.products[k].quantityStock >= 0
    requires s.products[k].quantityStock - q <= IntMax
    ensures SaleService.ProcessItems(s, d.items.value).Ok?
    ensures PostSale(s, d).Ok? ==> PostSale(s, d).value.store.products[k].quantityStock == s.products[k].quantityStock - q
    ensures PostSale(s, d).Ok? ==> PostSale(s, d).value.store.products[k].quantityStock > s.products[k].quantityStock
    ensures !SaleValid(d) && SaleViolations(d) != []
  {
    var items := d.items.value;
    assert items[..0] == [];
    assert SaleService.ProcessItems(s, items[..0]).Ok?;
    assert SaleService.ProcessItem(s, items[0]).Ok?;
    if PostSale(s, d).Ok? {
      SaleService.RegisterStock(s, d);
      assert SaleService.Demand(items, k) == q by {
        assert SaleService.Demand(items[..0], k) == 0;
      }
    }
  }

  /** The unvalidated user PATCH stores an empty password, which the
      create endpoint's validation would refuse. */
  lemma EmptyPasswordPatchAccepted(a: Accounts.Accounts, caller: Accounts.UserId, email: string, isEmail: string -> bool)
    requires caller in a.users && a.users[caller].email == Some(email)
    requires Accounts.UsersWithEmail(a, Some(email)) == {caller}
    ensures
      var d := UserRequest(None, None, Some(""), None);
      && PatchUser(a, caller, email, d).Ok?
      && PatchUser(a, caller, email, d).value.store.users[caller].password == Some("")
      && !UserValid(d, isEmail)
  {
    var d := UserRequest(None, None, Some(""), None);
    UserService.OwnerMayPatch(a, caller, email, d);
  }

  /** The unvalidated product POST stores a negative stock, which
      `@Min(0)` on the PATCH of the same body refuses with 400. */
  lemma NegativeStockProductAccepted(s: Store, d: ProductRequest, id: Id)
    requires d.name.Some? && d.price.Some? && d.quantityStock.Some? && d.categoryId.Some?
    requires d.quantityStock.value < 0
    requires ProductIdsNamed(s, d.name.value) == {} && d.categoryId.value in s.categories
    requires ProductFits(ProductService.NewProduct(s, d))
    ensures PostProduct(s, d).Ok?
    ensures PostProduct(s, d).value.store.products[s.nextProductId].quantityStock == d.quantityStock.value
    ensures !ProductValid(d)
    ensures PatchProduct(s, id, d).Err? && Respond(PatchProduct(s, id, d).error).status == 400
  {
  }

  const Blank: string := "   "

  /** The unvalidated category POST stores a name of spaces, which
      `@NotBlank` on the PUT of the same body refuses with 400. */
  lemma BlankCategoryNameAccepted(s: Store, id: Id)
    requires CategoryIdsNamed(s, Some(Blank)) == {}
    ensures PostCategory(s, CategoryRequest(Some(Blank))).Ok?
    ensures PostCategory(s, CategoryRequest(Some(Blank))).value.value.name == Blank
    ensures !CategoryValid(CategoryRequest(Some(Blank)))
    ensures PutCategory(s, id, CategoryRequest(Some(Blank))).Err?
    ensures Respond(PutCategory(s, id, CategoryRequest(Some(Blank))).error).status == 400
  {
    assert JavaLength(Blank) <= 50;
    assert !NotBlankJava(Blank);
  }
}

=== FILE: ledger.dfy ===
/** The inventory and sales store: categories, products and sales keyed by
    their database ids, the column constraints their entities declare, the
    store invariant every service operation keeps, and the id-descending
    paging all list queries use. */
module Ledger {
  import opened Common
  import opened Text

  type Id = int

  /** A BigDecimal amount with scale 2, counted in hundredths. */
  type Cents = int

  /** The sale channels, by the enum names the front end maps. */
  datatype SaleChannel = Shopee | Local | Instagram | Whatsapp

  function ChannelName(c: SaleChannel): string {
    match c
    case Shopee => "SHOPEE"
    case Local => "LOCAL"
    case Instagram => "INSTAGRAM"
    case Whatsapp => "WHATSAPP"
  }

  datatype Category = Category(id: Id, name: string)

  datatype Product = Product(
    id: Id,
    name: string,
    description: Option<string>,
    color: Option<string>,
    price: Cents,
    quantityStock: Int32,
    categoryId: Id)

  datatype SaleItem = SaleItem(productId: Id, quantity: Int32, unitAtPrice: Cents, subTotal: Cents)

  datatype Sale = Sale(
    id: Id,
    client: Option<string>,
    saleDate: Instant,
    channel: SaleChannel,
    totalValue: Cents,
    items: seq<SaleItem>)

  /** The three tables, with the next value of each identity column. */
  datatype Store = Store(
    categories: map<Id, Category>,
    products: map<Id, Product>,
    sales: map<Id, Sale>,
    nextCategoryId: Id,
    nextProductId: Id,
    nextSaleId: Id)

  /** A committed transaction: the store after it and the value it returned. */
  datatype Commit<T> = Commit(store: Store, value: T)

  predicate FitsLength(s: Option<string>, max: nat) {
    s.None? || JavaLength(s.value) <= max
  }

  /** `name` is `nullable = false, length = 50`. */
  predicate CategoryFits(c: Category) {
    JavaLength(c.name) <= 50
  }

  /** A `precision = 10, scale = 2` column: at most eight digits before the
      point, so fewer than 10^10 hundredths either way. */
  predicate AmountFits(c: Cents) {
    -10_000_000_000 < c < 10_000_000_000
  }

  /** `name` length 100, `description` 500, `color` 50, `price` numeric(10,2). */
  predicate ProductFits(p: Product) {
    JavaLength(p.name) <= 100 && FitsLength(p.description, 500) && FitsLength(p.color, 50) && AmountFits(p.price)
  }

  /** `client` length 150; the total and every line's price and subtotal are
      numeric(10,2). */
  predicate SaleFits(s: Sale) {
    && FitsLength(s.client, 150)
    && AmountFits(s.totalValue)
    && forall i :: 0 <= i < |s.items| ==> AmountFits(s.items[i].unitAtPrice) && AmountFits(s.items[i].subTotal)
  }

  function SumSubTotals(items: seq<SaleItem>): Cents {
    if items == [] then 0 else SumSubTotals(items[..|items| - 1]) + items[|items| - 1].subTotal
  }

  lemma {:induction false} SumSubTotalsConcat(a: seq<SaleItem>, b: seq<SaleItem>)
    ensures SumSubTotals(a + b) == SumSubTotals(a) + SumSubTotals(b)
  {
    if b != [] {
      var n := |b| - 1;
      assert (a + b)[..|a + b| - 1] == a + b[..n];
      SumSubTotalsConcat(a, b[..n]);
    } else {
      assert a + b == a;
    }
  }

  /** A sale's amounts agree: each line is price times quantity and the total
      is the sum of the lines. */
  predicate AmountsAgree(s: Sale) {
    && (forall i :: 0 <= i < |s.items| ==> s.items[i].subTotal == s.items[i].unitAtPrice * s.items[i].quantity)
    && s.totalValue == SumSubTotals(s.items)
  }

  function ProductIdsNamed(s: Store, name: string): set<Id> {
    set k | k in s.products && s.products[k].name == name
  }

  function CategoryIdsNamed(s: Store, name: Option<string>): set<Id> {
    set k | k in s.categories && Some(s.categories[k].name) == name
  }

  /** The lazily loaded `Category.products` list, as a set of ids. */
  function ProductsInCategory(s: Store, categoryId: Id): set<Id> {
    set k | k in s.products && s.products[k].categoryId == categoryId
  }

  /** Every sale item's product row exists: the `product_id` foreign key. */
  predicate ItemsReferToProducts(items: seq<SaleItem>, products: map<Id, Product>) {
    forall i :: 0 <= i < |items| ==> items[i].productId in products
  }

  /** Some sale has an item for the product: the rows that block its delete. */
  predicate ProductReferenced(s: Store, id: Id) {
    exists k, i :: k in s.sales && 0 <= i < |s.sales[k].items| && s.sales[k].items[i].productId == id
  }

  /** The store invariant: keys agree with ids and lie below the identity
      counters, rows fit their columns, every product's category and every
      sale item's product exists, product and category names are unique, and
      sale amounts agree. */
  predicate Valid(s: Store) {
    && (forall k :: k in s.categories ==>
          s.categories[k].id == k && k < s.nextCategoryId && CategoryFits(s.categories[k]))
    && (forall k :: k in s.products ==>
          && s.products[k].id == k && k < s.nextProductId && ProductFits(s.products[k])
          && s.products[k].categoryId in s.categories)
    && (forall k :: k in s.sales ==>
          s.sales[k].id == k && k < s.nextSaleId && SaleFits(s.sales[k]) && AmountsAgree(s.sales[k]))
    && (forall k :: k in s.sales ==> ItemsReferToProducts(s.sales[k].items, s.products))
    && (forall a, b :: a in s.products && b in s.products && a != b ==>
          s.products[a].name != s.products[b].name)
    && (forall a, b :: a in s.categories && b in s.categories && a != b ==>
          s.categories[a].name != s.categories[b].name)
  }

  /** Changing nothing but stock levels keeps the invariant. */
  lemma StockChangePreservesValid(s: Store, t: Store)
    requires Valid(s)
    requires t == s.(products := t.products) && t.products.Keys == s.products.Keys
    requires forall k :: k in s.products ==> t.products[k] == s.products[k].(quantityStock := t.products[k].quantityStock)
    ensures Valid(t)
  {
    forall k | k in t.products
      ensures t.products[k].id == k && ProductFits(t.products[k]) && t.products[k].categoryId in t.categories
    {
      assert ProductFits(s.products[k]);
    }
    forall k | k in t.sales ensures ItemsReferToProducts(t.sales[k].items, t.products) {
      assert ItemsReferToProducts(s.sales[k].items, s.products);
    }
    forall a, b | a in t.products && b in t.products && a != b
      ensures t.products[a].name != t.products[b].name
    {
      assert t.products[a].name == s.products[a].name;
      assert t.products[b].name == s.products[b].name;
    }
  }

  /** Inserting a well-formed sale under the next sale id keeps the
      invariant. */
  lemma AddSalePreservesValid(s: Store, sale: Sale)
    requires Valid(s)
    requires sale.id == s.nextSaleId && SaleFits(sale) && AmountsAgree(sale)
    requires ItemsReferToProducts(sale.items, s.products)
    ensures Valid(s.(sales := s.sales[sale.id := sale], nextSaleId := s.nextSaleId + 1))
  {
  }

  lemma ProductNamesUnique(s: Store, name: string)
    requires Valid(s)
    ensures |ProductIdsNamed(s, name)| <= 1
  {
    var ids := ProductIdsNamed(s, name);
    if ids != {} {
      var k := Pick(ids);
      assert forall j :: j in ids <==> j in {k};
      assert ids == {k};
    }
  }

  lemma CategoryNamesUnique(s: Store, name: Option<string>)
    requires Valid(s)
    ensures |CategoryIdsNamed(s, name)| <= 1
  {
    var ids := CategoryIdsNamed(s, name);
    if ids != {} {
      var k := Pick(ids);
      assert forall j :: j in ids <==> j in {k};
      assert ids == {k};
    }
  }

  lemma {:induction false} MaxExists(ids: set<Id>)
    requires ids != {}
    ensures exists m :: m in ids && forall k :: k in ids ==> k <= m
    decreases |ids|
  {
    var x := Pick(ids);
    var rest := ids - {x};
    assert forall k :: k in ids ==> k == x || k in rest;
    if rest == {} {
      assert x in ids && forall k :: k in ids ==> k <= x;
    } else {
      MaxExists(rest);
      var m :| m in rest && forall k :: k in rest ==> k <= m;
      var top := if x > m then x else m;
      assert top in ids && forall k :: k in ids ==> k <= top;
    }
  }

  function MaxOf(ids: set<Id>): (m: Id)
    requires ids != {}
    ensures m in ids && forall k :: k in ids ==> k <= m
  {
    MaxExists(ids);
    var m :| m in ids && forall k :: k in ids ==> k <= m;
    m
  }

  /** What an Optional-returning Spring Data finder makes of the ids of the
      rows that match: nothing, the one row, or an error for several. */
  function Single(ids: set<Id>): (r: Result<Option<Id>>)
    ensures ids == {} <==> r == Ok(None)
    ensures r.Ok? && r.value.Some? ==> ids == {r.value.value}
    ensures r.Err? <==> |ids| > 1
    ensures r.Err? ==> r.error == Unhandled(NonUniqueResult)
  {
    if ids == {} then Ok(None)
    else if |ids| == 1 then
      var x := MaxOf(ids);
      SingletonIs(ids, x);
      Ok(Some(x))
    else Err(Unhandled(NonUniqueResult))
  }

  /** A set inside `{x}` is empty or `{x}` itself. */
  lemma SubsetOfSingleton(ids: set<Id>, x: Id)
    ensures ids <= {x} <==> ids == {} || ids == {x}
    ensures ids <= {x} ==> |ids| <= 1
  {
    if ids <= {x} && ids != {} {
      var y := Pick(ids);
      assert y == x;
      assert forall z :: z in ids <==> z in {x};
    }
  }

  lemma SingletonIs(ids: set<Id>, x: Id)
    requires |ids| == 1 && x in ids
    ensures ids == {x}
  {
    var rest := ids - {x};
    assert |rest| == 0;
    assert forall y :: y in ids <==> y in {x} by {
      forall y | y in ids ensures y == x {
        assert y !in rest;
      }
    }
  }

  /** The ids in descending order: `Sort.by("id").descending()`. */
  function Descending(ids: set<Id>): (r: seq<Id>)
    ensures |r| == |ids|
    ensures forall i :: 0 <= i < |r| ==> r[i] in ids
    ensures forall k :: k in ids ==> k in r
    ensures forall i, j :: 0 <= i < j < |r| ==> r[i] > r[j]
    decreases |ids|
  {
    if ids == {} then []
    else
      var m := MaxOf(ids);
      var rest := Descending(ids - {m});
      PrependMax(ids, m, rest);
      [m] + rest
  }

  /** Putting the largest id in front of the others in descending order
      lists them all in descending order. */
  lemma PrependMax(ids: set<Id>, m: Id, rest: seq<Id>)
    requires m in ids && forall k :: k in ids ==> k <= m
    requires |rest| == |ids - {m}|
    requires forall i :: 0 <= i < |rest| ==> rest[i] in ids - {m}
    requires forall k :: k in ids - {m} ==> k in rest
    requires forall i, j :: 0 <= i < j < |rest| ==> rest[i] > rest[j]
    ensures var r := [m] + rest;
      && |r| == |ids|
      && (forall i :: 0 <= i < |r| ==> r[i] in ids)
      && (forall k :: k in ids ==> k in r)
      && (forall i, j :: 0 <= i < j < |r| ==> r[i] > r[j])
  {
    var r := [m] + rest;
    assert forall i :: 0 < i < |r| ==> r[i] == rest[i - 1];
    forall k | k in ids ensures k in r {
      if k != m {
        assert k in ids - {m};
      }
    }
  }

  /** A new id above every existing one goes to the front. */
  lemma DescendingWithNewMax(ids: set<Id>, m: Id)
    requires forall k :: k in ids ==> k < m
    ensures Descending(ids + {m}) == [m] + Descending(ids)
  {
    assert MaxOf(ids + {m}) == m;
    assert (ids + {m}) - {m} == ids;
  }

  /** Where an element sits in a sequence that holds it. */
  function IndexOf<T(==)>(xs: seq<T>, x: T): (i: nat)
    requires x in xs
    ensures i < |xs| && xs[i] == x
  {
    if xs[0] == x then 0 else 1 + IndexOf(xs[1..], x)
  }

  /** The rows stored under `ids`, in that order. */
  function RowsAt<V>(m: map<Id, V>, ids: seq<Id>): (r: seq<V>)
    requires forall i :: 0 <= i < |ids| ==> ids[i] in m
    ensures |r| == |ids|
    ensures forall i :: 0 <= i < |r| ==> r[i] == m[ids[i]]
  {
    if ids == [] then [] else [m[ids[0]]] + RowsAt(m, ids[1..])
  }

  /** The rows of a table ordered by descending id, as `Sort.by("id").descending()` lists them. */
  function ByIdDesc<V>(m: map<Id, V>): (r: seq<V>)
    ensures |r| == |Descending(m.Keys)|
    ensures |r| == |m|
    ensures forall i :: 0 <= i < |r| ==> r[i] == m[Descending(m.Keys)[i]]
  {
    RowsAt(m, Descending(m.Keys))
  }

  /** The row at a position of the listing, and the key it is stored under. */
  lemma ListedRow<V>(m: map<Id, V>, i: int) returns (k: Id)
    requires 0 <= i < |ByIdDesc(m)|
    ensures k in m && ByIdDesc(m)[i] == m[k]
  {
    k := Descending(m.Keys)[i];
  }

  /** Every row of the table is listed. */
  lemma ByIdDescComplete<V>(m: map<Id, V>)
    ensures forall k :: k in m ==> m[k] in ByIdDesc(m)
  {
    var ids := Descending(m.Keys);
    var r := ByIdDesc(m);
    forall k | k in m ensures m[k] in r {
      var i := IndexOf(ids, k);
      assert r[i] == m[k];
    }
  }

  lemma KeysWithNewMax<V>(m: map<Id, V>, k: Id, v: V)
    requires forall j :: j in m ==> j < k
    ensures Descending(m[k := v].Keys) == [k] + Descending(m.Keys)
  {
    assert forall j :: j in m[k := v].Keys <==> j in m.Keys + {k};
    assert m[k := v].Keys == m.Keys + {k};
    DescendingWithNewMax(m.Keys, k);
  }

  /** Rows under keys other than `k` are read alike before and after `k`
      is written. */
  lemma {:induction false} RowsAtElsewhere<V>(m: map<Id, V>, k: Id, v: V, ids: seq<Id>)
    requires forall i :: 0 <= i < |ids| ==> ids[i] in m && ids[i] != k
    ensures RowsAt(m[k := v], ids) == RowsAt(m, ids)
  {
    if ids != [] {
      RowsAtElsewhere(m, k, v, ids[1..]);
    }
  }

  /** A row inserted under a key above every existing key is listed first. */
  lemma ByIdDescWithNewMax<V>(m: map<Id, V>, k: Id, v: V)
    requires forall j :: j in m ==> j < k
    ensures ByIdDesc(m[k := v]) == [v] + ByIdDesc(m)
  {
    KeysWithNewMax(m, k, v);
    var ids := Descending(m.Keys);
    assert ([k] + ids)[1..] == ids;
    RowsAtElsewhere(m, k, v, ids);
  }

  /** Rows that carry their own key as id are listed by strictly
      descending id. */
  lemma RowsDescending<V>(m: map<Id, V>, key: V -> Id)
    requires forall k :: k in m ==> key(m[k]) == k
    ensures var rows := ByIdDesc(m);
            forall i, j :: 0 <= i < j < |rows| ==> key(rows[i]) > key(rows[j])
  {
    var ids := Descending(m.Keys);
    var rows := ByIdDesc(m);
    forall i, j | 0 <= i < j < |rows| ensures key(rows[i]) > key(rows[j]) {
      assert ids[i] in m && rows[i] == m[ids[i]];
      assert ids[j] in m && rows[j] == m[ids[j]];
    }
  }

  lemma ProductRowsDescending(s: Store)
    requires Valid(s)
    ensures forall i, j :: 0 <= i < j < |ByIdDesc(s.products)| ==>
              ByIdDesc(s.products)[i].id > ByIdDesc(s.products)[j].id
  {
    RowsDescending(s.products, (p: Product) => p.id);
  }

  lemma CategoryRowsDescending(s: Store)
    requires Valid(s)
    ensures forall i, j :: 0 <= i < j < |ByIdDesc(s.categories)| ==>
              ByIdDesc(s.categories)[i].id > ByIdDesc(s.categories)[j].id
  {
    RowsDescending(s.categories, (c: Category) => c.id);
  }

  /** Spring Data's `Page`: one slice of the ordered result and its metadata. */
  datatype Page<T> = Page(content: seq<T>, number: nat, size: nat, totalElements: nat, totalPages: nat)

  function CeilDiv(n: nat, d: nat): nat
    requires d > 0
  {
    (n + d - 1) / d
  }

  /** `PageRequest.of(page, size)` applied to an ordered result. A negative
      page index or a size below one is rejected by Spring. */
  function PageOf<T>(all: seq<T>, page: int, size: int): (r: Result<Page<T>>)
    ensures r.Ok? <==> page >= 0 && size >= 1
    ensures r.Ok? ==>
      && r.value.number == page && r.value.size == size
      && r.value.totalElements == |all|
      && |r.value.content| <= size
      && (forall i :: 0 <= i < |r.value.content| ==> page * size + i < |all| && r.value.content[i] == all[page * size + i])
      && (page * size + size <= |all| ==> |r.value.content| == size)
  {
    if page < 0 then Err(Unhandled("Page index must not be less than zero"))
    else if size < 1 then Err(Unhandled("Page size must not be less than one"))
    else
      var from := if page * size < |all| then page * size else |all|;
      var to := if page * size + size < |all| then page * size + size else |all|;
      Ok(Page(all[from..to], page, size, |all|, CeilDiv(|all|, size)))
  }

  /** A page of a result strictly descending in `key` is itself strictly
      descending in `key`. */
  lemma PageKeepsOrder<T>(all: seq<T>, page: int, size: int, key: T -> int)
    requires PageOf(all, page, size).Ok?
    requires forall i, j :: 0 <= i < j < |all| ==> key(all[i]) > key(all[j])
    ensures var c := PageOf(all, page, size).value.content;
            forall i, j :: 0 <= i < j < |c| ==> key(c[i]) > key(c[j])
  {
    var c := PageOf(all, page, size).value.content;
    var base := page * size;
    forall i, j | 0 <= i < j < |c| ensures key(c[i]) > key(c[j]) {
      assert c[i] == all[base + i] && c[j] == all[base + j];
    }
  }

  /** Every element of the ordered result is on exactly one page: element
      `i` is entry `i % size` of page `i / size`, which is below the page
      count. */
  lemma ElementOnItsPage<T>(all: seq<T>, size: int, i: int)
    requires size >= 1 && 0 <= i < |all|
    ensures PageOf(all, i / size, size).Ok?
    ensures var p := PageOf(all, i / size, size).value;
            && i % size < |p.content| && p.content[i % size] == all[i]
            && i / size < p.totalPages
  {
    var q := i / size;
    assert q * size + i % size == i;
    assert (q + 1) * size <= |all| + size - 1;
    DivLowerBound(|all| + size - 1, size, q + 1);
  }

  lemma MulCancel(x: int, y: int, d: int)
    requires d > 0 && x * d < y * d
    ensures x < y
  {
    assert (y - x) * d == y * d - x * d;
  }

  /** A multiple of `d` that fits in `n` bounds the quotient `n / d`. */
  lemma DivLowerBound(n: nat, d: nat, q: nat)
    requires d > 0 && q * d <= n
    ensures q <= n / d
  {
    assert n / d * d + n % d == n;
    assert n < (n / d + 1) * d;
    MulCancel(q, n / d + 1, d);
  }
}

=== FILE: pagination.dfy ===
/** The Pagination component and the page bookkeeping of the listing pages.
    Pages are numbered from 1 on screen and from 0 in the request. */
module Pagination {
  import opened Common

  /** The target of "Anterior": one back, never below the first page. */
  function Previous(current: int): (r: int)
    ensures r >= 1
    ensures current > 1 ==> r == current - 1
    ensures current <= 1 ==> r == 1
  {
    if current - 1 > 1 then current - 1 else 1
  }

  /** The target of "Próxima": one forward, never past the last page. */
  function Next(current: int, total: int): (r: int)
    ensures r <= total
    ensures current < total ==> r == current + 1
    ensures current >= total ==> r == total
  {
    if current + 1 < total then current + 1 else total
  }

  predicate PreviousDisabled(current: int) {
    current == 1
  }

  predicate NextDisabled(current: int, total: int) {
    current == total
  }

  /** Inside the page range both buttons keep the page inside it, and a
      button is disabled exactly when clicking it would not move. */
  lemma ButtonsStayInRange(current: int, total: int)
    requires 1 <= current <= total
    ensures 1 <= Previous(current) <= total && 1 <= Next(current, total) <= total
    ensures PreviousDisabled(current) <==> Previous(current) == current
    ensures NextDisabled(current, total) <==> Next(current, total) == current
  {
  }

  /** Past the last page (after the list shrank), "Próxima" stays enabled
      and moves BACK to the last page. */
  lemma NextFromBeyondGoesBack(current: int, total: int)
    requires current > total
    ensures !NextDisabled(current, total)
    ensures Next(current, total) == total < current
  {
  }

  /** The page count after a fetch: `data.page?.totalPages || 1` when the
      response has content, 1 when it has none. A missing or zero count
      shows as one page. */
  function ShownTotalPages(hasContent: bool, reported: Option<int>): (r: int)
    ensures !hasContent || reported.None? || reported == Some(0) ==> r == 1
    ensures hasContent && reported.Some? && reported.value != 0 ==> r == reported.value
    ensures (reported.None? || reported.value >= 0) ==> r >= 1
  {
    if !hasContent || reported.None? || reported.value == 0 then 1 else reported.value
  }

  /** Every listing page asks for ten rows. */
  const PageSize: int := 10

  /** The zero-based index the listing requests for the page on screen. */
  function RequestIndex(current: int): (r: int)
    ensures r + 1 == current
  {
    current - 1
  }

  /** A page in range is requested at an index the back end accepts and
      that names one of its pages. */
  lemma RequestedPageExists(current: int, hasContent: bool, reported: Option<int>)
    requires reported.None? || reported.value >= 0
    requires 1 <= current <= ShownTotalPages(hasContent, reported)
    ensures 0 <= RequestIndex(current) < ShownTotalPages(hasContent, reported)
  {
  }

  /** `(data.page?.number || 0) + 1`: the screen page the sales listing
      takes from the response. */
  function ShownCurrentPage(reported: Option<int>): (r: int)
    ensures reported.None? ==> r == 1
    ensures reported.Some? ==> r == reported.value + 1
  {
    (if reported.None? then 0 else reported.value) + 1
  }

  /** Requesting a page and reading its number back gives the page on
      screen again. */
  lemma PageNumberRoundTrip(current: int)
    ensures ShownCurrentPage(Some(RequestIndex(current))) == current
  {
  }
}

=== FILE: product_page.dfy ===
/** The product form of ProductPage: the price field's character filter,
    `parseBRL`'s text normalisation, the submit checks and the edit form.
    JavaScript's numeric parsing (`parseFloat`, `parseInt`) is a parameter
    or an input here; what is modelled is the text handed to it and the
    decisions taken on its result. */
module ProductPage {
  import opened Common
  import opened Text

  /** A JavaScript number as the form sees it: NaN or a finite value. */
  datatype JsNum = NaN | Num(x: real)

  /** The value `parseBRL` is given. */
  datatype JsValue = Number(n: JsNum) | Text(s: string) | Absent

  predicate IsDigit(c: char) {
    '0' <= c <= '9'
  }

  /** The characters `[^\d.,]` does not match. */
  predicate PriceChar(c: char) {
    IsDigit(c) || c == '.' || c == ','
  }

  /** The characters `[R$\s.]` matches. */
  predicate Stripped(c: char) {
    c == 'R' || c == '$' || c == '.' || IsJsWhitespace(c)
  }

  /** Occurrences of `c` in `s`. */
  function Count(s: string, c: char): nat {
    if s == [] then 0 else (if s[0] == c then 1 else 0) + Count(s[1..], c)
  }

  /** `replace(/[^\d.,]/g, "")`: the typed text with everything but digits,
      '.' and ',' deleted, in order. */
  function PriceFilter(raw: string): (r: string)
    ensures forall i :: 0 <= i < |r| ==> PriceChar(r[i])
    ensures forall c :: c in r <==> c in raw && PriceChar(c)
    ensures |r| <= |raw|
    ensures (forall i :: 0 <= i < |raw| ==> PriceChar(raw[i])) ==> r == raw
  {
    if raw == [] then []
    else if PriceChar(raw[0]) then [raw[0]] + PriceFilter(raw[1..])
    else PriceFilter(raw[1..])
  }

  /** `replace(/[R$\s.]/g, "")`. */
  function Strip(s: string): (r: string)
    ensures forall i :: 0 <= i < |r| ==> !Stripped(r[i])
    ensures forall c :: c in r <==> c in s && !Stripped(c)
  {
    if s == [] then []
    else if Stripped(s[0]) then Strip(s[1..])
    else [s[0]] + Strip(s[1..])
  }

  /** `replace(",", ".")` with a string pattern: only the first ',' becomes
      a '.'. */
  function ReplaceFirstComma(s: string): (r: string)
    ensures |r| == |s|
    ensures ',' !in s ==> r == s
    ensures ',' in s ==> Count(r, ',') == Count(s, ',') - 1 && Count(r, '.') == Count(s, '.') + 1
    ensures forall c :: c != ',' && c != '.' ==> Count(r, c) == Count(s, c)
    ensures forall c :: c in r && c != '.' ==> c in s
  {
    if s == [] then []
    else if s[0] == ',' then
      assert (['.'] + s[1..])[1..] == s[1..];
      ['.'] + s[1..]
    else
      assert ([s[0]] + ReplaceFirstComma(s[1..]))[1..] == ReplaceFirstComma(s[1..]);
      [s[0]] + ReplaceFirstComma(s[1..])
  }

  /** The text `parseBRL` hands to `parseFloat`. */
  function NormalizeBRL(s: string): (r: string)
    ensures Count(r, '.') <= 1
    ensures forall c :: c in r && c != '.' ==> c in s && !Stripped(c)
    ensures Count(r, '.') == 1 <==> ',' in Strip(s)
  {
    CountZeroNotIn(Strip(s), '.');
    CountZeroNotIn(Strip(s), ',');
    ReplaceFirstComma(Strip(s))
  }

  lemma CountZeroNotIn(s: string, c: char)
    ensures Count(s, c) == 0 <==> c !in s
  {
    if s != [] {
      CountZeroNotIn(s[1..], c);
      assert s == [s[0]] + s[1..];
    }
  }

  /** `parseBRL`: a number is returned as it is, an absent value or the
      empty string is 0, anything else is the normalised text's
      `parseFloat`. */
  function ParseBRL(v: JsValue, parseFloat: string -> JsNum): (r: JsNum)
    ensures v.Number? ==> r == v.n
    ensures v.Absent? || v == Text("") ==> r == Num(0.0)
    ensures v.Text? && v.s != "" ==> r == parseFloat(NormalizeBRL(v.s))
  {
    match v
    case Number(n) => n
    case Absent => Num(0.0)
    case Text(s) => if s == "" then Num(0.0) else parseFloat(NormalizeBRL(s))
  }

  /** `handlePriceChange`: the stored price, and the number the field
      shows formatted (none when nothing usable was typed, leaving the
      field empty). */
  datatype PriceEdit = PriceEdit(shown: Option<JsNum>, price: JsNum)

  function PriceChange(raw: string, parseFloat: string -> JsNum): (r: PriceEdit)
    ensures r.shown.None? <==> forall i :: 0 <= i < |raw| ==> !PriceChar(raw[i])
    ensures r.shown.None? ==> r.price == Num(0.0)
    ensures r.shown.Some? ==> r.shown.value == r.price == parseFloat(NormalizeBRL(PriceFilter(raw)))
  {
    var clean := PriceFilter(raw);
    var parsed := ParseBRL(Text(clean), parseFloat);
    if clean == "" then PriceEdit(None, parsed)
    else
      assert clean[0] in raw;
      PriceEdit(Some(parsed), parsed)
  }

  /** Filtering twice is filtering once. */
  lemma PriceFilterIdempotent(raw: string)
    ensures PriceFilter(PriceFilter(raw)) == PriceFilter(raw)
  {
  }

  /** Whatever is typed, `parseFloat` receives digits and commas with at
      most one '.' among them. */
  lemma ParsedTextShape(raw: string)
    ensures var t := NormalizeBRL(PriceFilter(raw));
      (forall c :: c in t ==> IsDigit(c) || c == ',' || c == '.') && Count(t, '.') <= 1
  {
  }

  /** `DropDots`: the digits of a grouped integer part. */
  function DropDots(s: string): (r: string)
    ensures forall c :: c in r <==> c in s && c != '.'
  {
    if s == [] then [] else (if s[0] == '.' then [] else [s[0]]) + DropDots(s[1..])
  }

  lemma {:induction false} StripAppend(a: string, b: string)
    ensures Strip(a + b) == Strip(a) + Strip(b)
    decreases |a|
  {
    if a == [] {
      assert a + b == b;
    } else {
      assert (a + b)[0] == a[0];
      assert (a + b)[1..] == a[1..] + b;
      StripAppend(a[1..], b);
    }
  }

  lemma {:induction false} StripGrouped(x: string)
    requires forall i :: 0 <= i < |x| ==> IsDigit(x[i]) || x[i] == '.'
    ensures Strip(x) == DropDots(x)
    decreases |x|
  {
    if x != [] {
      StripGrouped(x[1..]);
    }
  }

  lemma {:induction false} StripDigits(y: string)
    requires forall i :: 0 <= i < |y| ==> IsDigit(y[i])
    ensures Strip(y) == y
    decreases |y|
  {
    if y != [] {
      StripDigits(y[1..]);
      assert y == [y[0]] + y[1..];
    }
  }

  lemma {:induction false} ReplaceFirstCommaAfter(d: string, y: string)
    requires ',' !in d
    ensures ReplaceFirstComma(d + ("," + y)) == d + ("." + y)
    decreases |d|
  {
    if d == [] {
      assert d + ("," + y) == [','] + y;
    } else {
      assert (d + ("," + y))[0] == d[0];
      assert (d + ("," + y))[1..] == d[1..] + ("," + y);
      ReplaceFirstCommaAfter(d[1..], y);
      assert d + ("." + y) == [d[0]] + (d[1..] + ("." + y));
    }
  }

  /** What `toLocaleString("pt-BR", {style: "currency", currency: "BRL"})`
      puts before the amount: "R$" and a no-break space. */
  const Currency: string := "R$\U{00A0}"

  lemma CurrencyPrefixStripped()
    ensures Strip(Currency) == ""
  {
    assert IsJsWhitespace('\U{00A0}');
    assert Currency[1..] == "$\U{00A0}";
    assert "$\U{00A0}"[1..] == "\U{00A0}";
    assert "\U{00A0}"[1..] == "";
  }

  lemma StripCommaDigits(y: string)
    requires forall i :: 0 <= i < |y| ==> IsDigit(y[i])
    ensures Strip("," + y) == "," + y
  {
    assert ("," + y)[0] == ',';
    assert ("," + y)[1..] == y;
    StripDigits(y);
  }

  lemma StripPrefixed(x: string)
    requires forall i :: 0 <= i < |x| ==> IsDigit(x[i]) || x[i] == '.'
    ensures Strip(Currency + x) == DropDots(x)
  {
    StripAppend(Currency, x);
    CurrencyPrefixStripped();
    StripGrouped(x);
  }

  lemma StripFormatted(x: string, y: string)
    requires forall i :: 0 <= i < |x| ==> IsDigit(x[i]) || x[i] == '.'
    requires forall i :: 0 <= i < |y| ==> IsDigit(y[i])
    ensures Strip((Currency + x) + ("," + y)) == DropDots(x) + ("," + y)
  {
    StripAppend(Currency + x, "," + y);
    StripPrefixed(x);
    StripCommaDigits(y);
  }

  /** The pt-BR currency text of a price, "R$", a no-break space, the
      integer part grouped by '.', a ',' and the cents, normalises to the
      plain decimal text: "R$\u00a01.234,50" becomes "1234.50". */
  lemma FormattedPriceNormalises(x: string, y: string)
    requires forall i :: 0 <= i < |x| ==> IsDigit(x[i]) || x[i] == '.'
    requires forall i :: 0 <= i < |y| ==> IsDigit(y[i])
    ensures NormalizeBRL((Currency + x) + ("," + y)) == DropDots(x) + ("." + y)
  {
    StripFormatted(x, y);
    assert ',' !in DropDots(x);
    ReplaceFirstCommaAfter(DropDots(x), y);
  }

  const PriceMessage: string := "O preço deve ser um valor monetário válido."
  const StockMessage: string := "A quantidade em estoque deve ser um número inteiro não negativo."
  const CategoryMessage: string := "A categoria deve ser selecionada."

  /** The form state. `price` is what `parseFloat` makes of the stored
      price, `stock` and `categoryId` what `parseInt` makes of theirs. */
  datatype Form = Form(
    id: Option<int>,
    name: string,
    description: string,
    color: string,
    categoryId: JsNum,
    price: JsNum,
    stock: JsNum)

  datatype Action = FormError(message: string) | UpdateProduct(id: int, form: Form) | CreateProduct(form: Form)

  /** A JavaScript value's truthiness for ids: null, undefined and 0 are
      falsy. */
  predicate Truthy(id: Option<int>) {
    id.Some? && id.value != 0
  }

  predicate PriceOk(p: JsNum) { p.Num? && p.x > 0.0 }
  predicate StockOk(s: JsNum) { s.Num? && s.x >= 0.0 }
  predicate CategoryChosen(c: JsNum) { c.Num? && c.x != 0.0 }

  /** `handleFormSubmit`: price, then stock, then category, stopping at the
      first failure; a form that passes is an update when it has an id and
      a create otherwise. */
  function Submit(f: Form): (r: Action)
    ensures !r.FormError? <==> PriceOk(f.price) && StockOk(f.stock) && CategoryChosen(f.categoryId)
    ensures !PriceOk(f.price) ==> r == FormError(PriceMessage)
    ensures PriceOk(f.price) && !StockOk(f.stock) ==> r == FormError(StockMessage)
    ensures PriceOk(f.price) && StockOk(f.stock) && !CategoryChosen(f.categoryId) ==> r == FormError(CategoryMessage)
    ensures r.UpdateProduct? <==> !r.FormError? && Truthy(f.id)
    ensures r.UpdateProduct? ==> r.id == f.id.value && r.form == f
    ensures r.CreateProduct? ==> r.form == f
  {
    if f.price == NaN || f.price.x <= 0.0 then FormError(PriceMessage)
    else if f.stock == NaN || f.stock.x < 0.0 then FormError(StockMessage)
    else if f.categoryId == NaN || f.categoryId.x == 0.0 then FormError(CategoryMessage)
    else if f.id.Some? && f.id.value != 0 then UpdateProduct(f.id.value, f)
    else CreateProduct(f)
  }

  const DefaultColor: string := "PRETO"

  /** The blank form: no id, price 0, stock 0, no category. */
  const InitialForm: Form := Form(None, "", "", DefaultColor, NaN, Num(0.0), Num(0.0))

  /** A product as the listing returns it. */
  datatype Listed = Listed(
    id: int,
    name: string,
    description: Option<string>,
    color: Option<string>,
    categoryId: int,
    price: real,
    quantityStock: int)

  /** `handleEdit`: the product's fields, with a missing or empty
      description shown as "" and a missing or empty color as "PRETO". */
  function EditForm(p: Listed): (f: Form)
    ensures f.id == Some(p.id) && f.name == p.name
    ensures f.description == (if p.description.Some? then p.description.value else "")
    ensures f.color == (if p.color.Some? && p.color.value != "" then p.color.value else DefaultColor)
    ensures f.price == Num(p.price) && f.stock == Num(p.quantityStock as real) && f.categoryId == Num(p.categoryId as real)
  {
    Form(Some(p.id),
      p.name,
      p.description.GetOr(""),
      if p.color.None? || p.color.value == "" then DefaultColor else p.color.value,
      Num(p.categoryId as real),
      Num(p.price),
      Num(p.quantityStock as real))
  }

  /** The blank form cannot be submitted until a price is typed. */
  lemma InitialFormNeedsPrice()
    ensures Submit(InitialForm) == FormError(PriceMessage)
  {
  }

  /** Editing a listed product with a positive id, price and category and a
      non-negative stock, and submitting unchanged, updates that product. */
  lemma EditedProductIsUpdated(p: Listed)
    requires p.id > 0 && p.price > 0.0 && p.quantityStock >= 0 && p.categoryId > 0
    ensures Submit(EditForm(p)) == UpdateProduct(p.id, EditForm(p))
  {
  }
}

=== FILE: product_service.dfy ===
/** ProductService: lookup by id, create, null-ignoring patch, delete, the
    stock decrement sales use, and the id-descending listing. */
module ProductService {
  import opened Common
  import opened Ledger
  import opened Requests

  const RequiredFieldsMessage: string :=
    "Campos obrigatórios (nome, preço, estoque, ID da categoria) devem ser preenchidos na criação."

  function NotFoundMessage(id: Id): string {
    "Produto não encontrado para esse id: " + Show(id)
  }

  function DuplicateNameMessage(name: string): string {
    "Já existe um produto com esse nome: " + name
  }

  function InsufficientStockMessage(name: string): string {
    "Quantidade insuficiente de produto: " + name
  }

  /** `findEntityById`: the row, or ResourceNotFound naming the id. */
  function FindEntityById(s: Store, id: Id): (r: Result<Product>)
    ensures r.Ok? <==> id in s.products
    ensures r.Ok? ==> r.value == s.products[id]
    ensures r.Err? ==> r.error == ResourceNotFound(NotFoundMessage(id))
  {
    if id in s.products then Ok(s.products[id]) else Err(ResourceNotFound(NotFoundMessage(id)))
  }

  /** `productRepository.save` of a product already keyed by its id: the
      column lengths are checked by the database. */
  function SaveProduct(s: Store, p: Product): (r: Result<Store>)
    ensures r.Ok? <==> ProductFits(p)
    ensures r.Ok? ==> r.value == s.(products := s.products[p.id := p])
    ensures r.Err? ==> r.error == Unhandled(ConstraintViolated)
  {
    if ProductFits(p) then Ok(s.(products := s.products[p.id := p])) else Err(Unhandled(ConstraintViolated))
  }

  /** The row `create` builds from a complete request, under the next id. */
  function NewProduct(s: Store, d: ProductRequest): Product
    requires d.name.Some? && d.price.Some? && d.quantityStock.Some? && d.categoryId.Some?
  {
    Product(s.nextProductId, d.name.value, d.description, d.color, d.price.value,
            d.quantityStock.value, d.categoryId.value)
  }

  /** `create`: the four required fields first, then the name, then the
      category. */
  function Create(s: Store, d: ProductRequest): (r: Result<Commit<Product>>)
    ensures d.name.None? || d.price.None? || d.quantityStock.None? || d.categoryId.None? ==>
              r == Err(Validation(RequiredFieldsMessage))
    ensures d.name.Some? && d.price.Some? && d.quantityStock.Some? && d.categoryId.Some?
            && |ProductIdsNamed(s, d.name.value)| == 1 ==>
              r == Err(DuplicateResource(DuplicateNameMessage(d.name.value)))
    ensures d.name.Some? && d.price.Some? && d.quantityStock.Some? && d.categoryId.Some?
            && ProductIdsNamed(s, d.name.value) == {} && d.categoryId.value !in s.categories ==>
              r == Err(ResourceNotFound("Categoria não encontrada com ID: " + Show(d.categoryId.value)))
    ensures d.name.Some? && d.price.Some? && d.quantityStock.Some? && d.categoryId.Some?
            && |ProductIdsNamed(s, d.name.value)| > 1 ==>
              r == Err(Unhandled(NonUniqueResult))
    ensures d.name.Some? && d.price.Some? && d.quantityStock.Some? && d.categoryId.Some?
            && ProductIdsNamed(s, d.name.value) == {} && d.categoryId.value in s.categories ==>
              (r.Ok? <==> ProductFits(NewProduct(s, d)))
    ensures d.name.Some? && d.price.Some? && d.quantityStock.Some? && d.categoryId.Some?
            && ProductIdsNamed(s, d.name.value) == {} && d.categoryId.value in s.categories
            && !ProductFits(NewProduct(s, d)) ==>
              r == Err(Unhandled(ConstraintViolated))
    ensures r.Ok? ==>
              && ProductIdsNamed(s, d.name.value) == {}
              && var p := r.value.value;
              && p == Product(s.nextProductId, d.name.value, d.description, d.color, d.price.value,
                              d.quantityStock.value, d.categoryId.value)
              && p.categoryId in s.categories
              && ProductFits(p)
              && r.value.store == s.(products := s.products[p.id := p], nextProductId := s.nextProductId + 1)
  {
    if d.name.None? || d.price.None? || d.quantityStock.None? || d.categoryId.None? then
      Err(Validation(RequiredFieldsMessage))
    else
      var existing :- Single(ProductIdsNamed(s, d.name.value));
      if existing.Some? then Err(DuplicateResource(DuplicateNameMessage(d.name.value)))
      else if d.categoryId.value !in s.categories then
        Err(ResourceNotFound("Categoria não encontrada com ID: " + Show(d.categoryId.value)))
      else
        var p := Product(s.nextProductId, d.name.value, d.description, d.color, d.price.value,
                         d.quantityStock.value, d.categoryId.value);
        var saved :- SaveProduct(s, p);
        Ok(Commit(saved.(nextProductId := s.nextProductId + 1), p))
  }

  /** MapStruct's `updateEntityFromDto` with null values ignored: every
      non-null DTO field overwrites the entity's, the category is left alone. */
  function Merge(p: Product, d: ProductRequest): (q: Product)
    ensures q.id == p.id && q.categoryId == p.categoryId
    ensures d.name.Some? ==> q.name == d.name.value
    ensures d.name.None? ==> q.name == p.name
    ensures d.description.Some? ==> q.description == d.description
    ensures d.description.None? ==> q.description == p.description
    ensures d.color.Some? ==> q.color == d.color
    ensures d.color.None? ==> q.color == p.color
    ensures d.price.Some? ==> q.price == d.price.value
    ensures d.price.None? ==> q.price == p.price
    ensures d.quantityStock.Some? ==> q.quantityStock == d.quantityStock.value
    ensures d.quantityStock.None? ==> q.quantityStock == p.quantityStock
  {
    p.(name := d.name.GetOr(p.name),
       description := if d.description.Some? then d.description else p.description,
       color := if d.color.Some? then d.color else p.color,
       price := d.price.GetOr(p.price),
       quantityStock := d.quantityStock.GetOr(p.quantityStock))
  }

  /** The merge runs twice in `patch`; the second pass changes nothing. */
  lemma MergeIdempotent(p: Product, d: ProductRequest)
    ensures Merge(Merge(p, d), d) == Merge(p, d)
    ensures Merge(p, ProductRequest(None, None, None, d.categoryId, None, None)) == p
  {
  }

  /** The name check of `patch`: fine when no product or this very product
      holds the name. */
  function NameFreeFor(s: Store, id: Id, name: string): (r: Result<()>)
    ensures r.Ok? <==> ProductIdsNamed(s, name) <= {id}
    ensures r.Err? && |ProductIdsNamed(s, name)| == 1 ==> r.error == DuplicateResource(DuplicateNameMessage(name))
  {
    SubsetOfSingleton(ProductIdsNamed(s, name), id);
    var existing :- Single(ProductIdsNamed(s, name));
    if existing.Some? && existing.value != id then Err(DuplicateResource(DuplicateNameMessage(name)))
    else Ok(())
  }

  /** `patch`: the product must exist, a new name must not belong to another
      product, a given category must exist; then the merged row is saved. */
  function Patch(s: Store, id: Id, d: ProductRequest): (r: Result<Commit<Product>>)
    ensures id !in s.products ==> r == Err(ResourceNotFound(NotFoundMessage(id)))
    ensures id in s.products && d.name.Some? && |ProductIdsNamed(s, d.name.value) - {id}| > 0 ==> r.Err?
    ensures id in s.products && d.name.Some? && (exists k :: k != id && ProductIdsNamed(s, d.name.value) == {k}) ==>
              r == Err(DuplicateResource(DuplicateNameMessage(d.name.value)))
    ensures id in s.products && (d.name.None? || ProductIdsNamed(s, d.name.value) <= {id})
            && d.categoryId.Some? && d.categoryId.value !in s.categories ==>
              r == Err(ResourceNotFound("Categoria não encontrada com id: " + Show(d.categoryId.value)))
    ensures r.Ok? <==>
              && id in s.products
              && (d.name.None? || ProductIdsNamed(s, d.name.value) <= {id})
              && (d.categoryId.None? || d.categoryId.value in s.categories)
              && ProductFits(Merge(s.products[id], d))
    ensures r.Ok? ==>
              && var q := r.value.value;
              && q == Merge(s.products[id], d).(categoryId := d.categoryId.GetOr(s.products[id].categoryId))
              && r.value.store == s.(products := s.products[q.id := q])
              && q.id == s.products[id].id
  {
    var p :- FindEntityById(s, id);
    var _ :- if d.name.Some? then NameFreeFor(s, id, d.name.value) else Ok(());
    var merged := Merge(p, d);
    var placed :-
      if d.categoryId.None? then Ok(merged)
      else if d.categoryId.value in s.categories then Ok(merged.(categoryId := d.categoryId.value))
      else Err(ResourceNotFound("Categoria não encontrada com id: " + Show(d.categoryId.value)));
    var q := Merge(placed, d);
    assert q == placed;
    var saved :- SaveProduct(s, q);
    Ok(Commit(saved, q))
  }

  /** Re-saving a product under its own name is not a conflict. */
  lemma PatchKeepsOwnName(s: Store, id: Id, d: ProductRequest)
    requires Valid(s) && id in s.products
    requires d.name == Some(s.products[id].name)
    requires d.categoryId.None? || d.categoryId.value in s.categories
    requires ProductFits(Merge(s.products[id], d))
    ensures Patch(s, id, d).Ok?
  {
    var ids := ProductIdsNamed(s, d.name.value);
    assert forall k :: k in ids ==> k == id;
  }

  /** `delete`: the row goes, unless a sale item still references it, which
      the foreign key refuses. */
  function Delete(s: Store, id: Id): (r: Result<Commit<()>>)
    ensures id !in s.products ==> r == Err(ResourceNotFound(NotFoundMessage(id)))
    ensures r.Ok? <==> id in s.products && !ProductReferenced(s, id)
    ensures r.Ok? ==> r.value.store == s.(products := s.products - {id})
    ensures r.Err? && id in s.products ==> r.error == Unhandled(ConstraintViolated)
  {
    var _ :- FindEntityById(s, id);
    if ProductReferenced(s, id) then Err(Unhandled(ConstraintViolated))
    else Ok(Commit(s.(products := s.products - {id}), ()))
  }

  /** `updateStock`: `int newStock = stock - quantity` with Java's 32-bit
      wrap-around; a negative result is refused. A null quantity fails to
      unbox. */
  function UpdateStock(s: Store, id: Id, quantity: Option<Int32>): (r: Result<Commit<()>>)
    ensures id !in s.products ==> r == Err(ResourceNotFound(NotFoundMessage(id)))
    ensures r.Ok? <==> id in s.products && quantity.Some?
                       && Wrap32(s.products[id].quantityStock - quantity.value) >= 0
    ensures r.Ok? ==>
              r.value.store == s.(products := s.products[id := s.products[id].(
                quantityStock := Wrap32(s.products[id].quantityStock - quantity.value))])
    ensures id in s.products && quantity.Some? && r.Err? ==>
              r.error == Validation(InsufficientStockMessage(s.products[id].name))
  {
    var p :- FindEntityById(s, id);
    if quantity.None? then Err(Unhandled("NullPointerException"))
    else
      var newStock := Wrap32(p.quantityStock - quantity.value);
      if newStock < 0 then Err(Validation(InsufficientStockMessage(p.name)))
      else Ok(Commit(s.(products := s.products[id := p.(quantityStock := newStock)]), ()))
  }

  /** Without overflow the decrement is exact: accepted exactly when the
      stock covers the quantity, and then the stock drops by it. */
  lemma UpdateStockExact(s: Store, id: Id, q: Int32)
    requires id in s.products
    requires s.products[id].quantityStock - q <= IntMax
    requires s.products[id].quantityStock - q >= IntMin
    ensures UpdateStock(s, id, Some(q)).Ok? <==> s.products[id].quantityStock - q >= 0
    ensures UpdateStock(s, id, Some(q)).Ok? ==>
              UpdateStock(s, id, Some(q)).value.store.products[id].quantityStock == s.products[id].quantityStock - q
  {
  }

  /** Overflow case: a stock at the top of the range cannot grow by a
      negative quantity; the wrapped value is negative and is refused. */
  lemma UpdateStockOverflowRefused(s: Store, id: Id)
    requires id in s.products && s.products[id].quantityStock == IntMax
    ensures UpdateStock(s, id, Some(-1)) == Err(Validation(InsufficientStockMessage(s.products[id].name)))
  {
    assert Wrap32(IntMax + 1) == IntMin;
  }

  /** Every operation that starts with `findEntityById` reports a missing
      id the same way. */
  lemma MissingProductNotFound(s: Store, id: Id, d: ProductRequest, q: Option<Int32>)
    requires id !in s.products
    ensures Patch(s, id, d).Err? && Patch(s, id, d).error == ResourceNotFound(NotFoundMessage(id))
    ensures Delete(s, id).Err? && Delete(s, id).error == ResourceNotFound(NotFoundMessage(id))
    ensures UpdateStock(s, id, q).Err? && UpdateStock(s, id, q).error == ResourceNotFound(NotFoundMessage(id))
    ensures FindEntityById(s, id).Err?
  {
  }

  /** `findAll(page, size)`: one page of the products in descending id order. */
  function FindAll(s: Store, page: int, size: int): (r: Result<Page<Product>>)
    ensures r.Ok? <==> page >= 0 && size >= 1
    ensures r.Ok? ==> r.value.totalElements == |s.products| && |r.value.content| <= size
  {
    PageOf(ByIdDesc(s.products), page, size)
  }

  /** Under the invariant a page lists its products by descending id. */
  lemma FindAllOrdered(s: Store, page: int, size: int)
    requires Valid(s) && FindAll(s, page, size).Ok?
    ensures var c := FindAll(s, page, size).value.content;
            forall i, j :: 0 <= i < j < |c| ==> c[i].id > c[j].id
  {
    ProductRowsDescending(s);
    PageKeepsOrder(ByIdDesc(s.products), page, size, (p: Product) => p.id);
  }

  // ---- the store invariant ----

  lemma CreatePreservesValid(s: Store, d: ProductRequest)
    requires Valid(s)
    ensures Create(s, d).Ok? ==> Valid(Create(s, d).value.store)
  {
    var r := Create(s, d);
    if r.Ok? {
      var p := r.value.value;
      var t := r.value.store;
      var n := s.nextProductId;
      assert n !in s.products;
      forall k | k in t.products
        ensures t.products[k].id == k && k < t.nextProductId && ProductFits(t.products[k])
        ensures t.products[k].categoryId in t.categories
      {
      }
      forall k | k in t.sales ensures ItemsReferToProducts(t.sales[k].items, t.products) {
        assert ItemsReferToProducts(s.sales[k].items, s.products);
      }
      forall a, b | a in t.products && b in t.products && a != b
        ensures t.products[a].name != t.products[b].name
      {
        if a == n {
          assert b !in ProductIdsNamed(s, p.name);
        } else if b == n {
          assert a !in ProductIdsNamed(s, p.name);
        }
      }
    }
  }

  lemma PatchPreservesValid(s: Store, id: Id, d: ProductRequest)
    requires Valid(s)
    ensures Patch(s, id, d).Ok? ==> Valid(Patch(s, id, d).value.store)
  {
    var r := Patch(s, id, d);
    if r.Ok? {
      var q := r.value.value;
      var t := r.value.store;
      assert q.id == id;
      assert t.products.Keys == s.products.Keys;
      forall k | k in t.products
        ensures t.products[k].id == k && k < t.nextProductId && ProductFits(t.products[k])
        ensures t.products[k].categoryId in t.categories
      {
      }
      forall k | k in t.sales ensures ItemsReferToProducts(t.sales[k].items, t.products) {
        assert ItemsReferToProducts(s.sales[k].items, s.products);
      }
      forall a, b | a in t.products && b in t.products && a != b
        ensures t.products[a].name != t.products[b].name
      {
        if a == id && d.name.Some? {
          assert b !in ProductIdsNamed(s, q.name);
        } else if b == id && d.name.Some? {
          assert a !in ProductIdsNamed(s, q.name);
        }
      }
    }
  }

  lemma DeletePreservesValid(s: Store, id: Id)
    requires Valid(s)
    ensures Delete(s, id).Ok? ==> Valid(Delete(s, id).value.store)
  {
    var r := Delete(s, id);
    if r.Ok? {
      var t := r.value.store;
      forall k | k in t.sales ensures ItemsReferToProducts(t.sales[k].items, t.products) {
        assert ItemsReferToProducts(s.sales[k].items, s.products);
        forall i | 0 <= i < |t.sales[k].items| ensures t.sales[k].items[i].productId in t.products {
          assert t.sales[k].items[i].productId != id;
        }
      }
    }
  }

  lemma UpdateStockPreservesValid(s: Store, id: Id, q: Option<Int32>)
    requires Valid(s)
    ensures UpdateStock(s, id, q).Ok? ==> Valid(UpdateStock(s, id, q).value.store)
  {
    var r := UpdateStock(s, id, q);
    if r.Ok? {
      var t := r.value.store;
      assert t.products.Keys == s.products.Keys;
      StockChangePreservesValid(s, t);
    }
  }
}

=== FILE: refresh_tokens.dfy ===
/** RefreshTokenService: issuing, rotating and purging refresh tokens. The
    client holds `tokenId.secret`; the table keeps the token id, the owner,
    the encoded secret and the expiry. The fresh UUID, the generated secret
    and the clock reading of each call arrive together as a `Fresh` value,
    with the request's User-Agent header and client address.
    The service is `jakarta.transaction.Transactional`, so a thrown
    TokenRefreshException rolls back every delete issued before it: an Err
    carries no store. */
module RefreshTokens {
  import opened Common
  import opened Text
  import opened Accounts

  /** TokenRefreshRequestDTO. */
  datatype Issued = Issued(refreshToken: string, expirationDate: Instant, user: Option<User>)

  /** `UUID.randomUUID()`, `generateRefreshToken()`, `Instant.now()`,
      `request.getHeader("User-Agent")` and `getClientIpAddress(request)`. */
  datatype Fresh = Fresh(tokenId: string, secret: string, now: Instant, userAgent: Option<string>, ip: Option<string>)

  const UserMissingMessage: string := "Usuário não encontrado."
  const BadFormatMessage: string := "Formato de refresh token inválido."
  const UnknownTokenMessage: string := "Refresh token não encontrado ou inválido."
  const ExpiredMessage: string := "Refresh token expirado."
  const BadSecretMessage: string := "Refresh token inválido."

  /** A token id and a secret, as the client receives them. */
  function Composite(tokenId: string, secret: string): string {
    tokenId + "." + secret
  }

  /** A composite splits back into its parts when neither holds a dot and
      the secret is non-empty. */
  lemma CompositeSplits(tokenId: string, secret: string)
    requires '.' !in tokenId && '.' !in secret && secret != ""
    ensures JavaSplitDot(Composite(tokenId, secret)) == [tokenId, secret]
  {
    SplitDotOfComposite(tokenId, secret);
  }

  /** `now.plus(minutes, ChronoUnit.MINUTES)`. */
  function Expiry(now: Instant, minutes: int): Instant {
    now + minutes * NanosPerMinute
  }

  /** The row `saveRefreshToken` builds. */
  function NewRow(user: UserId, f: Fresh, minutes: int, enc: Encoder): RefreshToken {
    RefreshToken(f.tokenId, user, enc.encode(f.secret), Expiry(f.now, minutes), f.userAgent, f.ip)
  }

  /** `createRefreshToken`: the composite is returned, and the token id, the
      encoded secret and the client's header and address are stored. */
  function CreateRefreshToken(a: Accounts, user: UserId, f: Fresh, minutes: int, enc: Encoder): (r: Result<Commit<Issued>>)
    ensures user !in a.users ==> r == Err(ResourceNotFound(UserMissingMessage))
    ensures r.Ok? <==> user in a.users && RowsWithToken(a, f.tokenId) == {} && TokenFits(NewRow(user, f, minutes, enc))
    ensures r.Ok? ==> r.value.value == Issued(Composite(f.tokenId, f.secret), Expiry(f.now, minutes), None)
    ensures r.Ok? ==> r.value.store.users == a.users
    ensures r.Ok? ==> r.value.store.tokens == a.tokens[a.nextTokenRow := RefreshToken(f.tokenId, user, enc.encode(f.secret), Expiry(f.now, minutes), f.userAgent, f.ip)]
  {
    if user !in a.users then Err(ResourceNotFound(UserMissingMessage))
    else
      var b :- SaveToken(a, NewRow(user, f, minutes, enc));
      Ok(Commit(b, Issued(Composite(f.tokenId, f.secret), Expiry(f.now, minutes), None)))
  }

  /** A User-Agent header longer than its 255-unit column, or a client
      address longer than its 50-unit column. */
  predicate ClientTooLong(f: Fresh) {
    || (f.userAgent.Some? && JavaLength(f.userAgent.value) > 255)
    || (f.ip.Some? && JavaLength(f.ip.value) > 50)
  }

  /** Storing an oversized header or address breaks its column: issuing for
      an existing user, and rotating after a passed check, fail with the
      unhandled constraint violation whatever the rest of the store holds. */
  lemma OversizedClientFails(a: Accounts, user: UserId, composite: string, f: Fresh, minutes: int, enc: Encoder)
    requires ClientTooLong(f)
    ensures user in a.users ==> CreateRefreshToken(a, user, f, minutes, enc) == Err(Unhandled(ConstraintViolated))
    ensures Check(a, composite, f.now, enc).Ok? ==>
      RevokeAndReplace(a, composite, f, minutes, enc) == Err(Unhandled(ConstraintViolated))
  {
  }

  /** The table without any row of `user`: `deleteAllByUserId`. */
  function WithoutUser(tokens: map<int, RefreshToken>, user: UserId): (m: map<int, RefreshToken>)
    ensures forall k :: k in m <==> k in tokens && tokens[k].userId != user
    ensures forall k :: k in m ==> m[k] == tokens[k]
  {
    map k | k in tokens && tokens[k].userId != user :: tokens[k]
  }

  /** The checks `revokeAndReplace` makes before it writes all pass, with
      `row` the row the presented token id names. */
  predicate Admits(a: Accounts, composite: string, now: Instant, enc: Encoder, row: int) {
    var parts := JavaSplitDot(composite);
    && |parts| == 2
    && RowsWithToken(a, parts[0]) == {row}
    && row in a.tokens
    && now <= a.tokens[row].expiryDate
    && a.tokens[row].userId in a.users
    && enc.matches(parts[1], a.tokens[row].tokenHash)
  }

  /** What `revokeAndReplace` checks before it writes, in source order: the
      format, the token id, the expiry, the owner and the secret. The
      outcome is the row found, or the exception. */
  function Check(a: Accounts, composite: string, now: Instant, enc: Encoder): (r: Result<int>)
    ensures |JavaSplitDot(composite)| != 2 ==> r == Err(TokenRefresh(BadFormatMessage))
    ensures r.Ok? ==> Admits(a, composite, now, enc, r.value)
    ensures r.Ok? ==> exists row :: Admits(a, composite, now, enc, row)
    ensures (exists row :: Admits(a, composite, now, enc, row)) ==> r.Ok?
  {
    var parts := JavaSplitDot(composite);
    if |parts| != 2 then Err(TokenRefresh(BadFormatMessage))
    else
      var row :- FindByToken(a, parts[0]);
      if row.None? then Err(TokenRefresh(UnknownTokenMessage))
      else
        var t := a.tokens[row.value];
        if t.expiryDate < now then Err(TokenRefresh(ExpiredMessage))
        else if t.userId !in a.users then Err(Unhandled("EntityNotFoundException"))
        else if !enc.matches(parts[1], t.tokenHash) then Err(TokenRefresh(BadSecretMessage))
        else
          assert Admits(a, composite, now, enc, row.value);
          Ok(row.value)
  }

  /** The rejections, each stated on its own. */
  lemma CheckRejections(a: Accounts, composite: string, now: Instant, enc: Encoder)
    requires Valid(a)
    ensures |JavaSplitDot(composite)| == 2 && RowsWithToken(a, JavaSplitDot(composite)[0]) == {} ==>
      Check(a, composite, now, enc) == Err(TokenRefresh(UnknownTokenMessage))
    ensures forall k :: |JavaSplitDot(composite)| == 2 && RowsWithToken(a, JavaSplitDot(composite)[0]) == {k} ==>
      && (a.tokens[k].expiryDate < now ==> Check(a, composite, now, enc) == Err(TokenRefresh(ExpiredMessage)))
      && (now <= a.tokens[k].expiryDate && !enc.matches(JavaSplitDot(composite)[1], a.tokens[k].tokenHash) ==>
            Check(a, composite, now, enc) == Err(TokenRefresh(BadSecretMessage)))
  {
    var parts := JavaSplitDot(composite);
    if |parts| == 2 {
      FindByTokenUnique(a, parts[0]);
      forall k | RowsWithToken(a, parts[0]) == {k}
        ensures k in a.tokens && FindByToken(a, parts[0]) == Ok(Some(k))
      {
        assert k in RowsWithToken(a, parts[0]);
      }
    }
  }

  /** The format is checked before the store is read. */
  lemma FormatCheckedFirst(a: Accounts, b: Accounts, composite: string, now: Instant, enc: Encoder)
    requires |JavaSplitDot(composite)| != 2
    ensures Check(a, composite, now, enc) == Check(b, composite, now, enc)
  {
  }

  /** Rotation after a successful check: every row of the owner goes, one
      new row is saved, and the owner comes back with the new token. */
  function Rotate(a: Accounts, row: int, f: Fresh, minutes: int, enc: Encoder): (r: Result<Accounts>)
    requires row in a.tokens
    ensures r.Ok? <==>
      RowsWithToken(a.(tokens := WithoutUser(a.tokens, a.tokens[row].userId)), f.tokenId) == {}
      && TokenFits(NewRow(a.tokens[row].userId, f, minutes, enc))
    ensures r.Ok? ==> r.value.users == a.users
    ensures r.Ok? ==>
      r.value.tokens == WithoutUser(a.tokens, a.tokens[row].userId)[a.nextTokenRow := NewRow(a.tokens[row].userId, f, minutes, enc)]
  {
    var user := a.tokens[row].userId;
    SaveToken(a.(tokens := WithoutUser(a.tokens, user)), NewRow(user, f, minutes, enc))
  }

  /** `revokeAndReplace` as written: the composite handed back pairs the
      PRESENTED token id with the new secret. */
  function RevokeAndReplace(a: Accounts, composite: string, f: Fresh, minutes: int, enc: Encoder): (r: Result<Commit<Issued>>)
    ensures r.Ok? <==> Check(a, composite, f.now, enc).Ok? && Rotate(a, Check(a, composite, f.now, enc).value, f, minutes, enc).Ok?
    ensures r.Err? && Check(a, composite, f.now, enc).Err? ==> r.error == Check(a, composite, f.now, enc).error
    ensures r.Ok? ==>
      var owner := a.tokens[Check(a, composite, f.now, enc).value].userId;
      && owner in a.users
      && r.value.store == Rotate(a, Check(a, composite, f.now, enc).value, f, minutes, enc).value
      && r.value.value == Issued(Composite(JavaSplitDot(composite)[0], f.secret), Expiry(f.now, minutes), Some(a.users[owner]))
  {
    var row :- Check(a, composite, f.now, enc);
    var user := a.tokens[row].userId;
    var b :- Rotate(a, row, f, minutes, enc);
    Ok(Commit(b, Issued(Composite(JavaSplitDot(composite)[0], f.secret), Expiry(f.now, minutes), Some(a.users[user]))))
  }

  /** `revokeAndReplace` with the composite built from the new token id. */
  function RevokeAndReplaceFixed(a: Accounts, composite: string, f: Fresh, minutes: int, enc: Encoder): (r: Result<Commit<Issued>>)
    ensures r.Ok? <==> RevokeAndReplace(a, composite, f, minutes, enc).Ok?
    ensures r.Ok? ==>
      && r.value.store == RevokeAndReplace(a, composite, f, minutes, enc).value.store
      && r.value.value == RevokeAndReplace(a, composite, f, minutes, enc).value.value.(refreshToken := Composite(f.tokenId, f.secret))
    ensures r.Err? ==> r == RevokeAndReplace(a, composite, f, minutes, enc)
  {
    var row :- Check(a, composite, f.now, enc);
    var user := a.tokens[row].userId;
    var b :- Rotate(a, row, f, minutes, enc);
    Ok(Commit(b, Issued(Composite(f.tokenId, f.secret), Expiry(f.now, minutes), Some(a.users[user]))))
  }

  /** After a rotation the new token is the only row named by its id. */
  lemma RotatedRowIsFound(a: Accounts, row: int, f: Fresh, minutes: int, enc: Encoder)
    requires row in a.tokens && Valid(a)
    requires Rotate(a, row, f, minutes, enc).Ok?
    ensures RowsWithToken(Rotate(a, row, f, minutes, enc).value, f.tokenId) == {a.nextTokenRow}
  {
    var b := Rotate(a, row, f, minutes, enc).value;
    var c := a.(tokens := WithoutUser(a.tokens, a.tokens[row].userId));
    assert RowsWithToken(c, f.tokenId) == {};
    assert a.nextTokenRow in RowsWithToken(b, f.tokenId);
    forall k | k in RowsWithToken(b, f.tokenId) ensures k == a.nextTokenRow {
      assert k != a.nextTokenRow ==> k in RowsWithToken(c, f.tokenId);
    }
    assert forall k :: k in RowsWithToken(b, f.tokenId) <==> k in {a.nextTokenRow};
  }

  /** The presented token's own row belongs to its owner, so rotation removes
      it and no row is left under the presented id. */
  lemma PresentedIdIsGone(a: Accounts, row: int, f: Fresh, minutes: int, enc: Encoder, presented: string)
    requires row in a.tokens && Valid(a)
    requires RowsWithToken(a, presented) == {row}
    requires Rotate(a, row, f, minutes, enc).Ok?
    requires f.tokenId != presented
    ensures RowsWithToken(Rotate(a, row, f, minutes, enc).value, presented) == {}
  {
    var b := Rotate(a, row, f, minutes, enc).value;
    var owner := a.tokens[row].userId;
    forall k | k in b.tokens ensures b.tokens[k].token != presented {
      if k != a.nextTokenRow {
        assert k in a.tokens && a.tokens[k].userId != owner;
        assert a.tokens[k].token == presented ==> k in RowsWithToken(a, presented);
      }
    }
    assert forall k :: k !in RowsWithToken(b, presented);
  }

  /** Finding, as written: the token handed back by a rotation names the
      row that rotation deleted, so presenting it is always refused as
      unknown. */
  lemma RotatedTokenIsRejected(a: Accounts, composite: string, f: Fresh, g: Fresh, minutes: int, enc: Encoder)
    requires Valid(a)
    requires RevokeAndReplace(a, composite, f, minutes, enc).Ok?
    requires '.' !in f.secret && f.secret != ""
    requires f.tokenId != JavaSplitDot(composite)[0]
    ensures
      var next := RevokeAndReplace(a, composite, f, minutes, enc).value;
      RevokeAndReplace(next.store, next.value.refreshToken, g, minutes, enc) == Err(TokenRefresh(UnknownTokenMessage))
  {
    var row := Check(a, composite, f.now, enc).value;
    var presented := JavaSplitDot(composite)[0];
    var next := RevokeAndReplace(a, composite, f, minutes, enc).value;
    PresentedIdIsGone(a, row, f, minutes, enc, presented);
    CompositeSplits(presented, f.secret);
    assert JavaSplitDot(next.value.refreshToken) == [presented, f.secret];
  }

  /** A row saved for `owner` from `f` is accepted by the checks when its
      composite is presented before expiry, and rotation goes through when
      the next token id is unused. */
  lemma FreshRowRotates(b: Accounts, n: int, owner: UserId, f: Fresh, g: Fresh, minutes: int, enc: Encoder)
    requires Sound(enc)
    requires n in b.tokens && b.tokens[n] == NewRow(owner, f, minutes, enc) && owner in b.users
    requires RowsWithToken(b, f.tokenId) == {n}
    requires '.' !in f.tokenId && '.' !in f.secret && f.secret != ""
    requires g.now <= Expiry(f.now, minutes)
    requires RowsWithToken(b, g.tokenId) == {} && TokenFits(NewRow(owner, g, minutes, enc))
    ensures Check(b, Composite(f.tokenId, f.secret), g.now, enc) == Ok(n)
    ensures RevokeAndReplaceFixed(b, Composite(f.tokenId, f.secret), g, minutes, enc).Ok?
    ensures RevokeAndReplaceFixed(b, Composite(f.tokenId, f.secret), g, minutes, enc).value.value.user == Some(b.users[owner])
  {
    CompositeSplits(f.tokenId, f.secret);
    assert enc.matches(f.secret, enc.encode(f.secret));
    assert Check(b, Composite(f.tokenId, f.secret), g.now, enc) == Ok(n);
    var c := b.(tokens := WithoutUser(b.tokens, owner));
    forall k | k in c.tokens ensures c.tokens[k].token != g.tokenId {
      assert k !in RowsWithToken(b, g.tokenId);
    }
    assert RowsWithToken(c, g.tokenId) == {};
  }

  /** A freshly issued refresh token rotates at any time up to its expiry:
      `createRefreshToken` and `revokeAndReplace` fit together. */
  lemma IssuedTokenRotates(a: Accounts, user: UserId, f: Fresh, g: Fresh, minutes: int, enc: Encoder)
    requires Valid(a) && Sound(enc)
    requires CreateRefreshToken(a, user, f, minutes, enc).Ok?
    requires '.' !in f.tokenId && '.' !in f.secret && f.secret != ""
    requires g.now <= Expiry(f.now, minutes)
    requires g.tokenId != f.tokenId && RowsWithToken(a, g.tokenId) == {} && TokenFits(NewRow(user, g, minutes, enc))
    ensures
      var issued := CreateRefreshToken(a, user, f, minutes, enc).value;
      && RevokeAndReplace(issued.store, issued.value.refreshToken, g, minutes, enc).Ok?
      && RevokeAndReplace(issued.store, issued.value.refreshToken, g, minutes, enc).value.value.user == Some(a.users[user])
  {
    var b := CreateRefreshToken(a, user, f, minutes, enc).value.store;
    SavedRowIsFound(a, NewRow(user, f, minutes, enc));
    assert RowsWithToken(b, g.tokenId) == {};
    FreshRowRotates(b, a.nextTokenRow, user, f, g, minutes, enc);
  }

  /** Corrected: the token a rotation hands back rotates again at any time
      up to its expiry. */
  lemma RotatedTokenIsAccepted(a: Accounts, composite: string, f: Fresh, g: Fresh, minutes: int, enc: Encoder)
    requires Valid(a) && Sound(enc)
    requires RevokeAndReplaceFixed(a, composite, f, minutes, enc).Ok?
    requires '.' !in f.tokenId && '.' !in f.secret && f.secret != ""
    requires g.now <= Expiry(f.now, minutes)
    requires g.tokenId != f.tokenId && RowsWithToken(a, g.tokenId) == {}
    requires TokenFits(NewRow(a.tokens[Check(a, composite, f.now, enc).value].userId, g, minutes, enc))
    ensures
      var next := RevokeAndReplaceFixed(a, composite, f, minutes, enc).value;
      && RevokeAndReplaceFixed(next.store, next.value.refreshToken, g, minutes, enc).Ok?
      && RevokeAndReplaceFixed(next.store, next.value.refreshToken, g, minutes, enc).value.value.user == next.value.user
  {
    var row := Check(a, composite, f.now, enc).value;
    var owner := a.tokens[row].userId;
    var b := RevokeAndReplaceFixed(a, composite, f, minutes, enc).value.store;
    RotatedRowIsFound(a, row, f, minutes, enc);
    assert RowsWithToken(b, g.tokenId) == {};
    FreshRowRotates(b, a.nextTokenRow, owner, f, g, minutes, enc);
  }

  /** Finding, as written: the revocation on a wrong secret is rolled back
      with the exception, so after the refused attempt the genuine token
      still passes every check. */
  lemma FailedAttemptRevokesNothing(a: Accounts, bad: string, good: string, row: int, f: Fresh, minutes: int, enc: Encoder)
    requires Admits(a, good, f.now, enc, row)
    requires |JavaSplitDot(bad)| == 2 && JavaSplitDot(bad)[0] == JavaSplitDot(good)[0]
    requires !enc.matches(JavaSplitDot(bad)[1], a.tokens[row].tokenHash)
    ensures RevokeAndReplace(a, bad, f, minutes, enc) == Err(TokenRefresh(BadSecretMessage))
    ensures Check(a, good, f.now, enc) == Ok(row)
  {
  }

  /** The outcome of a call whose writes persist even when it throws. */
  datatype Outcome = Outcome(store: Accounts, result: Result<Issued>)

  /** `revokeAndReplace` with its deletes committed before it throws (the
      delete of an expired row, and the revocation of all the owner's rows
      when the secret does not match), and with the composite built from
      the new token id. */
  function RevokeAndReplaceCommitting(a: Accounts, composite: string, f: Fresh, minutes: int, enc: Encoder): (r: Outcome)
    ensures r.result.Ok? <==> RevokeAndReplaceFixed(a, composite, f, minutes, enc).Ok?
    ensures r.result.Ok? ==>
      r.store == RevokeAndReplaceFixed(a, composite, f, minutes, enc).value.store
      && r.result.value == RevokeAndReplaceFixed(a, composite, f, minutes, enc).value.value
    ensures r.result.Err? ==> r.result.error == RevokeAndReplaceFixed(a, composite, f, minutes, enc).error
    ensures r.result == Err(TokenRefresh(BadSecretMessage)) ==>
      |JavaSplitDot(composite)| == 2 && exists row :: (RowsWithToken(a, JavaSplitDot(composite)[0]) == {row}
        && row in a.tokens && r.store == a.(tokens := WithoutUser(a.tokens, a.tokens[row].userId)))
  {
    var parts := JavaSplitDot(composite);
    if |parts| != 2 then Outcome(a, Err(TokenRefresh(BadFormatMessage)))
    else match FindByToken(a, parts[0])
      case Err(e) => Outcome(a, Err(e))
      case Ok(None) => Outcome(a, Err(TokenRefresh(UnknownTokenMessage)))
      case Ok(Some(row)) =>
        var t := a.tokens[row];
        if t.expiryDate < f.now then Outcome(a.(tokens := a.tokens - {row}), Err(TokenRefresh(ExpiredMessage)))
        else if t.userId !in a.users then Outcome(a, Err(Unhandled("EntityNotFoundException")))
        else if !enc.matches(parts[1], t.tokenHash) then
          Outcome(a.(tokens := WithoutUser(a.tokens, t.userId)), Err(TokenRefresh(BadSecretMessage)))
        else match Rotate(a, row, f, minutes, enc)
          case Err(e) => Outcome(a, Err(e))
          case Ok(b) => Outcome(b, Ok(Issued(Composite(f.tokenId, f.secret), Expiry(f.now, minutes), Some(a.users[t.userId]))))
  }

  /** Corrected: once a wrong secret is presented, the owner has no refresh
      token left and the genuine token is refused. */
  lemma FailedAttemptRevokesAll(a: Accounts, bad: string, good: string, f: Fresh, g: Fresh, minutes: int, enc: Encoder)
    requires Valid(a)
    requires RevokeAndReplaceCommitting(a, bad, f, minutes, enc).result == Err(TokenRefresh(BadSecretMessage))
    requires |JavaSplitDot(good)| == 2 && JavaSplitDot(good)[0] == JavaSplitDot(bad)[0]
    ensures
      var after := RevokeAndReplaceCommitting(a, bad, f, minutes, enc).store;
      && RevokeAndReplaceCommitting(after, good, g, minutes, enc).result == Err(TokenRefresh(UnknownTokenMessage))
      && forall row :: RowsWithToken(a, JavaSplitDot(bad)[0]) == {row} ==> RowsOfUser(after, a.tokens[row].userId) == {}
  {
    var after := RevokeAndReplaceCommitting(a, bad, f, minutes, enc).store;
    var row :| RowsWithToken(a, JavaSplitDot(bad)[0]) == {row} && row in a.tokens
      && after == a.(tokens := WithoutUser(a.tokens, a.tokens[row].userId));
    var id := JavaSplitDot(bad)[0];
    forall k | k in after.tokens ensures after.tokens[k].token != id {
      assert a.tokens[k].token == id ==> k in RowsWithToken(a, id);
    }
    assert RowsWithToken(after, id) == {};
    forall r | RowsWithToken(a, id) == {r} ensures RowsOfUser(after, a.tokens[r].userId) == {} {
      assert r == row;
    }
  }

  /** `deleteExpiredTokens`: `deleteByExpiryDateBefore(now)` and its count. */
  function DeleteExpiredTokens(a: Accounts, now: Instant): (r: Commit<nat>)
    ensures forall k :: k in r.store.tokens <==> k in a.tokens && now <= a.tokens[k].expiryDate
    ensures forall k :: k in r.store.tokens ==> r.store.tokens[k] == a.tokens[k]
    ensures r.store.users == a.users && r.store.nextTokenRow == a.nextTokenRow
    ensures r.value == |ExpiredRows(a, now)|
    ensures r.value + |r.store.tokens| == |a.tokens|
  {
    var kept := map k | k in a.tokens && now <= a.tokens[k].expiryDate :: a.tokens[k];
    assert kept.Keys == a.tokens.Keys - ExpiredRows(a, now);
    Commit(a.(tokens := kept), |ExpiredRows(a, now)|)
  }

  function ExpiredRows(a: Accounts, now: Instant): set<int> {
    set k | k in a.tokens && a.tokens[k].expiryDate < now
  }

  /** A second clean-up at the same instant deletes nothing. */
  lemma CleanupIdempotent(a: Accounts, now: Instant)
    ensures
      var once := DeleteExpiredTokens(a, now).store;
      DeleteExpiredTokens(once, now) == Commit(once, 0)
  {
    var once := DeleteExpiredTokens(a, now).store;
    assert ExpiredRows(once, now) == {};
    assert once.(tokens := once.tokens) == once;
  }

  /** A token refused as expired stays in the table (its delete is rolled
      back) until the clean-up runs at or after that instant. */
  lemma ExpiredTokenWaitsForCleanup(a: Accounts, composite: string, f: Fresh, minutes: int, enc: Encoder, row: int, later: Instant)
    requires Valid(a)
    requires |JavaSplitDot(composite)| == 2 && RowsWithToken(a, JavaSplitDot(composite)[0]) == {row}
    requires a.tokens[row].expiryDate < f.now <= later
    ensures RevokeAndReplace(a, composite, f, minutes, enc) == Err(TokenRefresh(ExpiredMessage))
    ensures row !in DeleteExpiredTokens(a, later).store.tokens
  {
    CheckRejections(a, composite, f.now, enc);
  }
}

=== FILE: requests.dfy ===
/** The request bodies the controllers bind, and the bean-validation
    constraints declared on them. Each DTO has a list of violations and an
    independent validity predicate read off the annotations; the two agree.
    Hibernate Validator reports violations as a set, in no fixed order; the
    lists here fix one order, field declaration order and, within a field,
    annotation order. */
module Requests {
  import opened Common
  import opened Text
  import opened Ledger

  datatype SaleItemRequest = SaleItemRequest(productId: Option<int>, quantity: Option<Int32>)

  datatype SaleRequest = SaleRequest(
    client: Option<string>,
    saleChannel: Option<SaleChannel>,
    saleDate: Option<Instant>,
    items: Option<seq<SaleItemRequest>>)

  datatype ProductRequest = ProductRequest(
    name: Option<string>,
    description: Option<string>,
    color: Option<string>,
    categoryId: Option<int>,
    price: Option<Cents>,
    quantityStock: Option<Int32>)

  /** `roles` is a `Set<Role>` of entities in the source, linked to the user
      by each Role's id; here each role stands for its name, and the list
      fixes one order for a set that has none. */
  datatype UserRequest = UserRequest(
    name: Option<string>,
    email: Option<string>,
    password: Option<string>,
    roles: Option<seq<string>>)

  datatype CategoryRequest = CategoryRequest(name: Option<string>)

  /** One constraint: no error when it holds, one error when it fails. */
  function Check(holds: bool, field: string, message: string): (r: seq<FieldError>)
    ensures holds <==> r == []
    ensures !holds ==> r == [FieldError(field, message)]
  {
    if holds then [] else [FieldError(field, message)]
  }

  /** `@Size(max = n)`: null is valid. */
  predicate SizeAtMost(s: Option<string>, n: nat) {
    s.None? || JavaLength(s.value) <= n
  }

  /** `@NotBlank`: present, and something survives `trim()`. */
  predicate NotBlank(s: Option<string>) {
    s.Some? && NotBlankJava(s.value)
  }

  // ---- SaleItemRequestDTO ----

  function ItemViolations(path: string, d: SaleItemRequest): (r: seq<FieldError>)
    ensures r == [] <==> ItemValid(d)
    ensures forall e :: e in r ==> e.field in {path + "productId", path + "quantity"}
  {
    Check(d.productId.Some?, path + "productId", "O ID do produto é obrigatório.")
    + Check(d.productId.None? || d.productId.value > 0, path + "productId", "O ID do produto deve ser um valor positivo.")
    + Check(d.quantity.Some?, path + "quantity", "A quantidade é obrigatória.")
    + Check(d.quantity.None? || d.quantity.value >= 1, path + "quantity", "A quantidade mínima de venda é 1.")
  }

  predicate ItemValid(d: SaleItemRequest) {
    && d.productId.Some? && d.productId.value > 0
    && d.quantity.Some? && d.quantity.value >= 1
  }

  /** `equals` compares `productId` only. */
  predicate ItemEquals(a: SaleItemRequest, b: SaleItemRequest) {
    a.productId == b.productId
  }

  // ---- SaleRequestDTO ----

  /** The errors of the nested items, with paths `items[i].field`. */
  function ItemsViolations(items: seq<SaleItemRequest>): (r: seq<FieldError>)
    ensures r == [] <==> forall i :: 0 <= i < |items| ==> ItemValid(items[i])
  {
    if items == [] then []
    else
      var n := |items| - 1;
      var front := ItemsViolations(items[..n]);
      var last := ItemViolations("items[" + Show(n) + "].", items[n]);
      AllValidSnoc(items);
      assert front + last == [] <==> front == [] && last == [];
      front + last
  }

  lemma AllValidSnoc(items: seq<SaleItemRequest>)
    requires items != []
    ensures var n := |items| - 1;
      (forall i :: 0 <= i < |items| ==> ItemValid(items[i]))
      <==> (forall i :: 0 <= i < n ==> ItemValid(items[..n][i])) && ItemValid(items[n])
  {
    var n := |items| - 1;
    assert forall i :: 0 <= i < n ==> items[..n][i] == items[i];
  }

  function SaleViolations(d: SaleRequest): (r: seq<FieldError>)
    ensures r == [] <==> SaleValid(d)
  {
    Check(SizeAtMost(d.client, 100), "client", "O nome do cliente deve ter no máximo 100 caracteres.")
    + Check(d.saleChannel.Some?, "saleChannel", "O canal de venda é obrigatório.")
    + Check(d.saleDate.Some?, "saleDate", "A data de venda é obrigatória.")
    + Check(d.items.Some? && |d.items.value| > 0, "items", "A venda deve conter pelo menos um item.")
    + (if d.items.Some? then ItemsViolations(d.items.value) else [])
  }

  predicate SaleValid(d: SaleRequest) {
    && (d.client.None? || JavaLength(d.client.value) <= 100)
    && d.saleChannel.Some?
    && d.saleDate.Some?
    && d.items.Some? && |d.items.value| > 0
    && forall i :: 0 <= i < |d.items.value| ==> ItemValid(d.items.value[i])
  }

  // ---- ProductRequestDTO ----

  function ProductViolations(d: ProductRequest): (r: seq<FieldError>)
    ensures r == [] <==> ProductValid(d)
  {
    Check(SizeAtMost(d.name, 100), "name", "O nome não pode exceder 100 caracteres.")
    + Check(SizeAtMost(d.description, 500), "description", "A descrição não pode exceder 500 caracteres.")
    + Check(SizeAtMost(d.color, 50), "color", "A cor deve ter no máximo 50 caracteres.")
    + Check(d.categoryId.Some?, "categoryId", "O ID da categoria é obrigatório.")
    + Check(d.categoryId.None? || d.categoryId.value >= 1, "categoryId", "ID de categoria inválido.")
    + Check(d.price.None? || d.price.value >= 1, "price", "O preço deve ser maior que zero.")
    + Check(d.quantityStock.None? || d.quantityStock.value >= 0, "quantityStock", "A quantidade em estoque não pode ser negativa.")
  }

  /** Price is in hundredths, so `@DecimalMin("0.01")` is at least one. */
  predicate ProductValid(d: ProductRequest) {
    && (d.name.None? || JavaLength(d.name.value) <= 100)
    && (d.description.None? || JavaLength(d.description.value) <= 500)
    && (d.color.None? || JavaLength(d.color.value) <= 50)
    && d.categoryId.Some? && d.categoryId.value >= 1
    && (d.price.None? || d.price.value >= 1)
    && (d.quantityStock.None? || d.quantityStock.value >= 0)
  }

  // ---- UserRequestDTO ----

  /** `isEmail` is Hibernate's `@Email` check on a non-null string; null
      passes `@Email`. */
  function UserViolations(d: UserRequest, isEmail: string -> bool): (r: seq<FieldError>)
    ensures r == [] <==> UserValid(d, isEmail)
  {
    Check(NotBlank(d.name), "name", "O nome é obrigatório.")
    + Check(NotBlank(d.email), "email", "O e-mail é obrigatório.")
    + Check(d.email.None? || isEmail(d.email.value), "email", "O e-mail deve ser válido.")
    + Check(NotBlank(d.password), "password", "A senha é obrigatória.")
    + Check(d.password.None? || JavaLength(d.password.value) >= 6, "password", "A senha deve ter pelo menos 6 caracteres.")
  }

  predicate UserValid(d: UserRequest, isEmail: string -> bool) {
    && d.name.Some? && (exists i :: 0 <= i < |d.name.value| && !IsTrimmed(d.name.value[i]))
    && d.email.Some? && (exists i :: 0 <= i < |d.email.value| && !IsTrimmed(d.email.value[i])) && isEmail(d.email.value)
    && d.password.Some? && (exists i :: 0 <= i < |d.password.value| && !IsTrimmed(d.password.value[i]))
    && JavaLength(d.password.value) >= 6
  }

  /** A password of spaces fails both of its constraints, so the field has
      two errors. */
  lemma BlankShortPasswordTwoErrors(d: UserRequest, isEmail: string -> bool)
    requires d.password == Some("   ")
    ensures |set e | e in UserViolations(d, isEmail) && e.field == "password"| == 2
  {
    var errs := UserViolations(d, isEmail);
    var a := FieldError("password", "A senha é obrigatória.");
    var b := FieldError("password", "A senha deve ter pelo menos 6 caracteres.");
    assert !NotBlankJava("   ");
    assert JavaLength("   ") == 3;
    assert a in errs && b in errs;
    var pw := set e | e in errs && e.field == "password";
    assert forall e :: e in pw <==> e in {a, b};
    assert pw == {a, b};
  }

  // ---- CategoryRequestDTO ----

  function CategoryViolations(d: CategoryRequest): (r: seq<FieldError>)
    ensures r == [] <==> CategoryValid(d)
    ensures d.name.None? ==> r == [FieldError("name", "O nome da categoria é obrigatório.")]
  {
    Check(NotBlank(d.name), "name", "O nome da categoria é obrigatório.")
    + Check(SizeAtMost(d.name, 50), "name", "O nome deve ter no máximo 50 caracteres.")
  }

  predicate CategoryValid(d: CategoryRequest) {
    d.name.Some? && NotBlankJava(d.name.value) && JavaLength(d.name.value) <= 50
  }
}

=== FILE: responses.dfy ===
/** GlobalResponseHandler: the HTTP status and body each exception becomes.
    Exceptions no handler names fall through to Spring Boot's default error
    response, status 500. */
module Responses {
  import opened Common

  datatype Body =
    | Message(text: string)
    | FieldMessages(fields: map<string, string>)

  datatype Response = Response(status: int, body: Body)

  const GenericAuthMessage: string := "Unauthorized access."

  /** The field-to-message map built by `errors.put(field, message)` over the
      binding errors in order. */
  function FieldMap(errors: seq<FieldError>): map<string, string> {
    if errors == [] then map[]
    else
      var n := |errors| - 1;
      FieldMap(errors[..n])[errors[n].field := errors[n].message]
  }

  /** No later error names the same field as error `i`. */
  predicate LastOnField(errors: seq<FieldError>, i: int)
    requires 0 <= i < |errors|
  {
    forall j :: i < j < |errors| ==> errors[j].field != errors[i].field
  }

  /** Every field with an error is a key, and every key is such a field. */
  lemma {:induction false} FieldMapKeys(errors: seq<FieldError>)
    ensures forall i :: 0 <= i < |errors| ==> errors[i].field in FieldMap(errors)
    ensures forall f :: f in FieldMap(errors) ==> exists i :: 0 <= i < |errors| && errors[i].field == f
  {
    if errors != [] {
      var n := |errors| - 1;
      var front := errors[..n];
      FieldMapKeys(front);
      assert forall i :: 0 <= i < n ==> front[i] == errors[i];
    }
  }

  /** A field's value is the message of the LAST error on that field. */
  lemma {:induction false} FieldMapLast(errors: seq<FieldError>, i: int)
    requires 0 <= i < |errors| && LastOnField(errors, i)
    ensures errors[i].field in FieldMap(errors) && FieldMap(errors)[errors[i].field] == errors[i].message
  {
    var n := |errors| - 1;
    if i < n {
      var front := errors[..n];
      assert errors[n].field != errors[i].field;
      assert front[i] == errors[i];
      assert LastOnField(front, i) by {
        forall j | i < j < n ensures front[j].field != front[i].field {
          assert front[j] == errors[j];
        }
      }
      FieldMapLast(front, i);
    }
  }

  /** A field with a single error reports that error's message. */
  lemma SingleErrorReported(errors: seq<FieldError>, i: int)
    requires 0 <= i < |errors|
    requires forall j :: 0 <= j < |errors| && j != i ==> errors[j].field != errors[i].field
    ensures errors[i].field in FieldMap(errors) && FieldMap(errors)[errors[i].field] == errors[i].message
  {
    FieldMapLast(errors, i);
  }

  /** The handler's mapping, one branch per `@ExceptionHandler`. */
  function Respond(e: Exception): (r: Response)
    ensures e.Authentication? || e.TokenRefresh? <==> r.status == 401
    ensures e.AccessDenied? <==> r.status == 403
    ensures e.ResourceNotFound? <==> r.status == 404
    ensures e.DuplicateResource? <==> r.status == 409
    ensures e.Validation? || e.ArgumentNotValid? <==> r.status == 400
    ensures e.Unhandled? <==> r.status == 500
    ensures e.Authentication? ==> r.body == Message(if e.generic then GenericAuthMessage else e.message)
    ensures e.ArgumentNotValid? <==> r.body.FieldMessages?
    ensures r.body.FieldMessages? ==> forall i :: 0 <= i < |e.errors| ==> e.errors[i].field in r.body.fields
    ensures r.body.FieldMessages? ==> forall f :: f in r.body.fields ==> exists i :: 0 <= i < |e.errors| && e.errors[i].field == f
  {
    match e
    case Authentication(message, generic) => Response(401, Message(if generic then GenericAuthMessage else message))
    case AccessDenied(message) => Response(403, Message(message))
    case TokenRefresh(message) => Response(401, Message(message))
    case ResourceNotFound(message) => Response(404, Message(message))
    case DuplicateResource(message) => Response(409, Message(message))
    case Validation(message) => Response(400, Message(message))
    case ArgumentNotValid(errors) =>
      FieldMapKeys(errors);
      Response(400, FieldMessages(FieldMap(errors)))
    case Unhandled(_) => Response(500, Message("Internal Server Error"))
  }

  /** Every handled exception except the bean-validation one carries its own
      message through unchanged, the generic authentication case aside. */
  lemma MessagePassesThrough(e: Exception)
    requires !e.ArgumentNotValid? && !e.Unhandled?
    requires e.Authentication? ==> !e.generic
    ensures Respond(e).body == Message(e.message)
  {
  }
}

=== FILE: sale_queries.dfy ===
/** The dashboard: the aggregate queries of SaleRepository and the way
    `getDashboardData` assembles them. Aggregates are computed over the sale
    rows in listing order; none of them depends on that order. */
module SaleQueries {
  import opened Common
  import opened Ledger
  import opened Requests
  import SaleService

  /** All sale rows. */
  function Rows(s: Store): (rows: seq<Sale>)
    ensures |rows| == |s.sales|
  {
    ByIdDesc(s.sales)
  }

  // ---- countSalesByChannel ----

  const AllChannels: seq<SaleChannel> := [Shopee, Local, Instagram, Whatsapp]

  function CountChannel(rows: seq<Sale>, c: SaleChannel): (n: nat)
    ensures n > 0 <==> exists i :: 0 <= i < |rows| && rows[i].channel == c
  {
    if rows == [] then 0
    else
      assert forall i :: 1 <= i < |rows| ==> rows[i] == rows[1..][i - 1];
      (if rows[0].channel == c then 1 else 0) + CountChannel(rows[1..], c)
  }

  /** `GROUP BY s.saleChannel`: one entry per channel some sale uses. */
  function SalesByChannel(s: Store): (m: map<SaleChannel, nat>)
    ensures forall c :: c in m ==> m[c] == CountChannel(Rows(s), c) && m[c] > 0
  {
    map c | c in AllChannels && CountChannel(Rows(s), c) > 0 :: CountChannel(Rows(s), c)
  }

  /** A channel has an entry exactly when some sale was made through it. */
  lemma ChannelPresent(s: Store, c: SaleChannel)
    ensures c in SalesByChannel(s) <==> exists k :: k in s.sales && s.sales[k].channel == c
  {
    assert c in AllChannels;
    if CountChannel(Rows(s), c) > 0 {
      ListedSaleExists(s, c);
    }
    if exists k :: k in s.sales && s.sales[k].channel == c {
      var k :| k in s.sales && s.sales[k].channel == c;
      SaleIsListed(s, k);
    }
  }

  lemma ListedSaleExists(s: Store, c: SaleChannel)
    requires CountChannel(Rows(s), c) > 0
    ensures exists k :: k in s.sales && s.sales[k].channel == c
  {
    var rows := Rows(s);
    var i :| 0 <= i < |rows| && rows[i].channel == c;
    var k := ListedRow(s.sales, i);
    assert s.sales[k] == rows[i];
  }

  lemma SaleIsListed(s: Store, k: Id)
    requires k in s.sales
    ensures CountChannel(Rows(s), s.sales[k].channel) > 0
  {
    var rows := Rows(s);
    var ids := Descending(s.sales.Keys);
    var i := IndexOf(ids, k);
    assert rows[i] == s.sales[ids[i]];
  }

  lemma {:induction false} ChannelCountsPartition(rows: seq<Sale>)
    ensures CountChannel(rows, Shopee) + CountChannel(rows, Local)
            + CountChannel(rows, Instagram) + CountChannel(rows, Whatsapp) == |rows|
  {
    if rows != [] {
      ChannelCountsPartition(rows[1..]);
    }
  }

  /** The channel counts add up to the number of sales. */
  lemma ChannelCountsSumToSales(s: Store)
    ensures var m := SalesByChannel(s);
            (if Shopee in m then m[Shopee] else 0) + (if Local in m then m[Local] else 0)
            + (if Instagram in m then m[Instagram] else 0) + (if Whatsapp in m then m[Whatsapp] else 0)
            == |s.sales|
  {
    ChannelCountsPartition(Rows(s));
  }

  // ---- sumItemsSoldByCategory ----

  /** Every sale line, sale after sale. */
  function Lines(rows: seq<Sale>): seq<SaleItem> {
    if rows == [] then [] else rows[0].items + Lines(rows[1..])
  }

  /** The category name a line joins to through its product, if the join
      finds one. */
  function CategoryNameOf(s: Store, line: SaleItem): Option<string> {
    if line.productId in s.products && s.products[line.productId].categoryId in s.categories
    then Some(s.categories[s.products[line.productId].categoryId].name)
    else None
  }

  /** `SUM(si.quantity)` over the lines of one category name. */
  function QuantityFor(s: Store, lines: seq<SaleItem>, name: string): int {
    if lines == [] then 0
    else (if CategoryNameOf(s, lines[0]) == Some(name) then lines[0].quantity else 0) + QuantityFor(s, lines[1..], name)
  }

  function NamesSold(s: Store, lines: seq<SaleItem>): set<string> {
    set i | 0 <= i < |lines| && CategoryNameOf(s, lines[i]).Some? :: CategoryNameOf(s, lines[i]).value
  }

  /** `GROUP BY p.category.name`: one entry per category name some line
      joins to, holding the quantities of those lines summed. */
  function GroupByName(s: Store, lines: seq<SaleItem>): (m: map<string, int>)
    ensures forall name :: name in m <==>
              exists i :: 0 <= i < |lines| && CategoryNameOf(s, lines[i]) == Some(name)
    ensures forall name :: name in m ==> m[name] == QuantityFor(s, lines, name)
  {
    map name | name in NamesSold(s, lines) :: QuantityFor(s, lines, name)
  }

  function ItemsSoldByCategory(s: Store): map<string, int> {
    GroupByName(s, Lines(Rows(s)))
  }

  lemma {:induction false} QuantityForConcat(s: Store, a: seq<SaleItem>, b: seq<SaleItem>, name: string)
    ensures QuantityFor(s, a + b, name) == QuantityFor(s, a, name) + QuantityFor(s, b, name)
  {
    if a == [] {
      assert a + b == b;
    } else {
      assert (a + b)[1..] == a[1..] + b;
      QuantityForConcat(s, a[1..], b, name);
    }
  }

  /** Lines join to the same names in two stores that agree on every
      product's category and on the categories. */
  lemma {:induction false} QuantityForSameJoin(s: Store, t: Store, lines: seq<SaleItem>, name: string)
    requires s.categories == t.categories && s.products.Keys == t.products.Keys
    requires forall k :: k in s.products ==> s.products[k].categoryId == t.products[k].categoryId
    ensures QuantityFor(s, lines, name) == QuantityFor(t, lines, name)
  {
    if lines != [] {
      QuantityForSameJoin(s, t, lines[1..], name);
    }
  }

  // ---- count, sumTotalRevenue ----

  function SumTotals(rows: seq<Sale>): Cents {
    if rows == [] then 0 else rows[0].totalValue + SumTotals(rows[1..])
  }

  /** `SUM(s.totalValue)`: SQL gives NULL over no rows, so the Optional is
      empty exactly when there are no sales. */
  function SumTotalRevenue(s: Store): (r: Option<Cents>)
    ensures r.None? <==> s.sales == map[]
    ensures r.Some? ==> r.value == SumTotals(Rows(s))
  {
    if s.sales == map[] then None else Some(SumTotals(Rows(s)))
  }

  /** Under the invariant the revenue is also the sum of every line's
      subtotal. */
  lemma {:induction false} TotalsAreLineSums(rows: seq<Sale>)
    requires forall i :: 0 <= i < |rows| ==> AmountsAgree(rows[i])
    ensures SumTotals(rows) == SumSubTotals(Lines(rows))
  {
    if rows != [] {
      TotalsAreLineSums(rows[1..]);
      SumSubTotalsConcat(rows[0].items, Lines(rows[1..]));
    }
  }

  // ---- sumRevenueByMonth ----

  /** `EXTRACT(YEAR ...)`, `EXTRACT(MONTH ...)` of a sale date. */
  datatype YearMonth = YearMonth(year: int, month: int)

  predicate Before(a: YearMonth, b: YearMonth) {
    a.year < b.year || (a.year == b.year && a.month < b.month)
  }

  lemma {:induction false} LeastExists(ms: set<YearMonth>)
    requires ms != {}
    ensures exists m :: m in ms && forall x :: x in ms && x != m ==> Before(m, x)
    decreases |ms|
  {
    var x := Pick(ms);
    var rest := ms - {x};
    assert forall y :: y in ms ==> y == x || y in rest;
    if rest == {} {
      assert x in ms && forall y :: y in ms && y != x ==> Before(x, y);
    } else {
      LeastExists(rest);
      var m :| m in rest && forall y :: y in rest && y != m ==> Before(m, y);
      var low := if Before(x, m) then x else m;
      assert low in ms && forall y :: y in ms && y != low ==> Before(low, y);
    }
  }

  function Least(ms: set<YearMonth>): (m: YearMonth)
    requires ms != {}
    ensures m in ms && forall x :: x in ms && x != m ==> Before(m, x)
  {
    LeastExists(ms);
    var m :| m in ms && forall x :: x in ms && x != m ==> Before(m, x);
    m
  }

  /** `ORDER BY year ASC, month ASC`. */
  function Ascending(ms: set<YearMonth>): (r: seq<YearMonth>)
    ensures |r| == |ms|
    ensures forall i :: 0 <= i < |r| ==> r[i] in ms
    ensures forall m :: m in ms ==> m in r
    ensures forall i, j :: 0 <= i < j < |r| ==> Before(r[i], r[j])
    decreases |ms|
  {
    if ms == {} then []
    else
      var m := Least(ms);
      [m] + Ascending(ms - {m})
  }

  function MonthsOf(rows: seq<Sale>, monthOf: Instant -> YearMonth): set<YearMonth> {
    set i | 0 <= i < |rows| :: monthOf(rows[i].saleDate)
  }

  function MonthTotal(rows: seq<Sale>, monthOf: Instant -> YearMonth, ym: YearMonth): Cents {
    if rows == [] then 0
    else (if monthOf(rows[0].saleDate) == ym then rows[0].totalValue else 0) + MonthTotal(rows[1..], monthOf, ym)
  }

  datatype MonthlyRevenue = MonthlyRevenue(year: int, month: int, revenue: Cents) {
    function Month(): YearMonth {
      YearMonth(year, month)
    }
  }

  /** One row per month of `order`, in that order, with the month's revenue. */
  function RowsFor(order: seq<YearMonth>, rows: seq<Sale>, monthOf: Instant -> YearMonth): (r: seq<MonthlyRevenue>)
    ensures |r| == |order|
    ensures forall i :: 0 <= i < |r| ==> r[i].Month() == order[i] && r[i].revenue == MonthTotal(rows, monthOf, order[i])
  {
    if order == [] then []
    else [MonthlyRevenue(order[0].year, order[0].month, MonthTotal(rows, monthOf, order[0]))] + RowsFor(order[1..], rows, monthOf)
  }

  /** One row per month with sales, in ascending order, with the month's
      revenue. `monthOf` is the database's extraction of year and month. */
  function MonthlyRows(rows: seq<Sale>, monthOf: Instant -> YearMonth): (r: seq<MonthlyRevenue>)
    ensures |r| == |MonthsOf(rows, monthOf)|
    ensures forall i :: 0 <= i < |r| ==> r[i].Month() in MonthsOf(rows, monthOf)
    ensures forall m :: m in MonthsOf(rows, monthOf) ==> exists i :: 0 <= i < |r| && r[i].Month() == m
    ensures forall i, j :: 0 <= i < j < |r| ==> Before(r[i].Month(), r[j].Month())
    ensures forall i :: 0 <= i < |r| ==> r[i].revenue == MonthTotal(rows, monthOf, r[i].Month())
  {
    var order := Ascending(MonthsOf(rows, monthOf));
    var r := RowsFor(order, rows, monthOf);
    forall m | m in MonthsOf(rows, monthOf)
      ensures exists i :: 0 <= i < |r| && r[i].Month() == m
    {
      var i := IndexOf(order, m);
      assert r[i].Month() == m;
    }
    r
  }

  function RevenueByMonth(s: Store, monthOf: Instant -> YearMonth): seq<MonthlyRevenue> {
    MonthlyRows(Rows(s), monthOf)
  }

  /** The revenue of the months listed in `order`, summed. */
  function SumOverMonths(order: seq<YearMonth>, rows: seq<Sale>, monthOf: Instant -> YearMonth): Cents {
    if order == [] then 0
    else MonthTotal(rows, monthOf, order[0]) + SumOverMonths(order[1..], rows, monthOf)
  }

  lemma {:induction false} SumOverMonthsStep(order: seq<YearMonth>, x: Sale, rows: seq<Sale>, monthOf: Instant -> YearMonth)
    requires forall i, j :: 0 <= i < j < |order| ==> order[i] != order[j]
    ensures SumOverMonths(order, [x] + rows, monthOf)
            == SumOverMonths(order, rows, monthOf) + (if monthOf(x.saleDate) in order then x.totalValue else 0)
  {
    if order != [] {
      var rest := order[1..];
      SumOverMonthsStep(rest, x, rows, monthOf);
      assert ([x] + rows)[1..] == rows;
      if monthOf(x.saleDate) == order[0] {
        assert monthOf(x.saleDate) !in rest;
      }
    }
  }

  lemma {:induction false} SumOverAllMonths(order: seq<YearMonth>, rows: seq<Sale>, monthOf: Instant -> YearMonth)
    requires forall i, j :: 0 <= i < j < |order| ==> order[i] != order[j]
    requires forall i :: 0 <= i < |rows| ==> monthOf(rows[i].saleDate) in order
    ensures SumOverMonths(order, rows, monthOf) == SumTotals(rows)
  {
    if rows == [] {
      SumOverNothing(order, monthOf);
    } else {
      SumOverAllMonths(order, rows[1..], monthOf);
      assert [rows[0]] + rows[1..] == rows;
      SumOverMonthsStep(order, rows[0], rows[1..], monthOf);
    }
  }

  lemma {:induction false} SumOverNothing(order: seq<YearMonth>, monthOf: Instant -> YearMonth)
    ensures SumOverMonths(order, [], monthOf) == 0
  {
    if order != [] {
      SumOverNothing(order[1..], monthOf);
    }
  }

  /** The monthly rows add up to the total revenue: every sale falls in
      exactly one listed month. */
  lemma MonthlyRevenueAddsUp(s: Store, monthOf: Instant -> YearMonth)
    ensures SumOverMonths(Ascending(MonthsOf(Rows(s), monthOf)), Rows(s), monthOf) == SumTotals(Rows(s))
  {
    var rows := Rows(s);
    var order := Ascending(MonthsOf(rows, monthOf));
    forall i | 0 <= i < |rows| ensures monthOf(rows[i].saleDate) in order {
      assert monthOf(rows[i].saleDate) in MonthsOf(rows, monthOf);
    }
    SumOverAllMonths(order, rows, monthOf);
  }

  // ---- getDashboardData ----

  datatype Dashboard = Dashboard(
    salesByChannel: map<SaleChannel, nat>,
    itemsSoldByCategory: map<string, int>,
    totalSalesCount: nat,
    totalRevenue: Cents,
    revenueByMonth: seq<MonthlyRevenue>)

  /** `getDashboardData`: the three breakdowns are the queries above, the
      count is the number of sales, and the empty revenue becomes zero. */
  function GetDashboardData(s: Store, monthOf: Instant -> YearMonth): (d: Dashboard)
    ensures d.salesByChannel == SalesByChannel(s) && d.itemsSoldByCategory == ItemsSoldByCategory(s)
    ensures d.revenueByMonth == RevenueByMonth(s, monthOf)
    ensures d.totalSalesCount == |s.sales|
    ensures s.sales == map[] ==> d.totalRevenue == 0 && d.salesByChannel == map[] && d.revenueByMonth == []
    ensures s.sales == map[] ==> d.itemsSoldByCategory == map[]
    ensures s.sales != map[] ==> d.totalRevenue == SumTotals(Rows(s))
  {
    assert s.sales == map[] ==> Rows(s) == [] && Lines(Rows(s)) == [] && MonthsOf(Rows(s), monthOf) == {};
    Dashboard(SalesByChannel(s), ItemsSoldByCategory(s), |s.sales|, SumTotalRevenue(s).GetOr(0),
              RevenueByMonth(s, monthOf))
  }

  /** A registered sale shows on the dashboard: one more sale, its total
      added to the revenue, one more sale on its channel, and its lines'
      quantities added to their categories. */
  lemma RegisterUpdatesDashboard(s: Store, d: SaleRequest, c: SaleChannel, name: string)
    requires Valid(s) && SaleService.Register(s, d).Ok?
    ensures var t := SaleService.Register(s, d).value.store;
            var sale := SaleService.Register(s, d).value.value;
            && |t.sales| == |s.sales| + 1
            && SumTotals(Rows(t)) == SumTotals(Rows(s)) + sale.totalValue
            && CountChannel(Rows(t), c) == CountChannel(Rows(s), c) + (if c == sale.channel then 1 else 0)
            && QuantityFor(t, Lines(Rows(t)), name) == QuantityFor(s, Lines(Rows(s)), name) + QuantityFor(s, sale.items, name)
  {
    var t := SaleService.Register(s, d).value.store;
    var sale := SaleService.Register(s, d).value.value;
    SaleService.RegisterStock(s, d);
    assert t.sales == s.sales[sale.id := sale];
    assert sale.id !in s.sales;
    ByIdDescWithNewMax(s.sales, sale.id, sale);
    var rows := Rows(s);
    assert Rows(t) == [sale] + rows;
    assert ([sale] + rows)[1..] == rows;
    assert Lines(Rows(t)) == sale.items + Lines(rows);
    QuantityForConcat(t, sale.items, Lines(rows), name);
    QuantityForSameJoin(s, t, sale.items, name);
    QuantityForSameJoin(s, t, Lines(rows), name);
  }
}

=== FILE: sale_service.dfy ===
/** SaleService: registering a sale against the product stock, the filtered
    id-descending listing, lookup and delete. */
module SaleService {
  import opened Common
  import opened Text
  import opened Ledger
  import opened Requests
  import ProductService

  function ShortageMessage(name: string, stock: int, quantity: int): string {
    "Quantidade insuficiente. Produto: " + name + ", Disponível: " + Show(stock) + ", Solicitado: " + Show(quantity)
  }

  // ---- registerSale ----

  /** What the request asks of product `k`: the quantities of its lines for
      `k`, summed. */
  function Demand(items: seq<SaleItemRequest>, k: Id): int {
    if items == [] then 0
    else
      var n := |items| - 1;
      Demand(items[..n], k) + (if items[n].productId == Some(k) then items[n].quantity.GetOr(0) else 0)
  }

  /** What the request costs at the products' prices when it is made. */
  function RequestTotal(products: map<Id, Product>, items: seq<SaleItemRequest>): Cents {
    if items == [] then 0
    else
      var n := |items| - 1;
      var d := items[n];
      RequestTotal(products, items[..n])
        + (if d.productId.Some? && d.productId.value in products && d.quantity.Some?
           then products[d.productId.value].price * d.quantity.value else 0)
  }

  /** The line a request item becomes, at the product's price. */
  function LineFor(products: map<Id, Product>, d: SaleItemRequest): SaleItem
    requires d.productId.Some? && d.productId.value in products && d.quantity.Some?
  {
    var p := products[d.productId.value];
    SaleItem(d.productId.value, d.quantity.value, p.price, p.price * d.quantity.value)
  }

  /** One pass of the loop: look the product up, compare the quantity with
      the stock it has now, build the line, and decrement the stock through
      `updateStock`. A null id fails in the repository's argument check, a
      null quantity fails to unbox. */
  function ProcessItem(s: Store, d: SaleItemRequest): (r: Result<(Store, SaleItem)>)
    ensures d.productId.None? ==> r == Err(Unhandled("IllegalArgumentException"))
    ensures r.Err? ==> !r.error.ArgumentNotValid?
    ensures d.productId.Some? && d.productId.value !in s.products ==>
              r == Err(ResourceNotFound(ProductService.NotFoundMessage(d.productId.value)))
    ensures d.productId.Some? && d.productId.value in s.products && d.quantity.Some?
            && d.quantity.value > s.products[d.productId.value].quantityStock ==>
              var p := s.products[d.productId.value];
              r == Err(Validation(ShortageMessage(p.name, p.quantityStock, d.quantity.value)))
    ensures r.Ok? <==>
              && d.productId.Some? && d.productId.value in s.products && d.quantity.Some?
              && d.quantity.value <= s.products[d.productId.value].quantityStock
              && s.products[d.productId.value].quantityStock - d.quantity.value <= IntMax
    ensures r.Ok? ==>
              && var k := d.productId.value;
              && r.value.1 == LineFor(s.products, d)
              && r.value.0 == s.(products := s.products[k := s.products[k].(
                   quantityStock := s.products[k].quantityStock - d.quantity.value)])
  {
    if d.productId.None? then Err(Unhandled("IllegalArgumentException"))
    else
      var k := d.productId.value;
      var p :- ProductService.FindEntityById(s, k);
      if d.quantity.None? then Err(Unhandled("NullPointerException"))
      else if d.quantity.value > p.quantityStock then
        Err(Validation(ShortageMessage(p.name, p.quantityStock, d.quantity.value)))
      else
        WrapOfNonNegative(p.quantityStock - d.quantity.value);
        var c :- ProductService.UpdateStock(s, k, d.quantity);
        Ok((c.store, LineFor(s.products, d)))
  }

  /** The loop over the request's items, in order. Each pass sees the stock
      the earlier passes left, so a product listed twice is checked against
      its already-decremented stock. */
  function ProcessItems(s: Store, items: seq<SaleItemRequest>): (r: Result<(Store, seq<SaleItem>)>)
    ensures r.Ok? ==> |r.value.1| == |items|
  {
    if items == [] then Ok((s, []))
    else
      var n := |items| - 1;
      var before :- ProcessItems(s, items[..n]);
      var after :- ProcessItem(before.0, items[n]);
      Ok((after.0, before.1 + [after.1]))
  }

  /** On success every product's stock has dropped by exactly what the
      request asks of it, never below zero for a product the request names,
      and nothing else in the store has changed. */
  lemma {:induction false} ProcessItemsStock(s: Store, items: seq<SaleItemRequest>)
    requires ProcessItems(s, items).Ok?
    ensures var t := ProcessItems(s, items).value.0;
            && t == s.(products := t.products)
            && t.products.Keys == s.products.Keys
            && (forall k :: k in s.products ==>
                  && t.products[k] == s.products[k].(quantityStock := t.products[k].quantityStock)
                  && t.products[k].quantityStock == s.products[k].quantityStock - Demand(items, k))
            && (forall i :: 0 <= i < |items| ==>
                  items[i].productId.Some? && items[i].productId.value in s.products && items[i].quantity.Some?
                  && t.products[items[i].productId.value].quantityStock >= 0)
  {
    if items != [] {
      var n := |items| - 1;
      var prefix := items[..n];
      ProcessItemsStock(s, prefix);
      var mid := ProcessItems(s, prefix).value.0;
      var u := ProcessItems(s, items).value.0;
      var k := items[n].productId.value;
      var q := items[n].quantity.value;
      assert u == mid.(products := mid.products[k := mid.products[k].(quantityStock := mid.products[k].quantityStock - q)]);
      assert forall i :: 0 <= i < n ==> items[i] == prefix[i];
      forall j | j in s.products
        ensures u.products[j].quantityStock == s.products[j].quantityStock - Demand(items, j)
      {
        assert Demand(items, j) == Demand(prefix, j) + (if j == k then q else 0);
      }
    }
  }

  /** On success the lines are the request's items, in order, at the
      products' prices, and they add up to the request's cost. */
  lemma {:induction false} ProcessItemsLines(s: Store, items: seq<SaleItemRequest>)
    requires ProcessItems(s, items).Ok?
    ensures var lines := ProcessItems(s, items).value.1;
            && (forall i :: 0 <= i < |items| ==>
                  && items[i].productId.Some? && items[i].productId.value in s.products && items[i].quantity.Some?
                  && lines[i] == LineFor(s.products, items[i]))
            && SumSubTotals(lines) == RequestTotal(s.products, items)
  {
    ProcessItemsStock(s, items);
    if items != [] {
      var n := |items| - 1;
      var prefix := items[..n];
      ProcessItemsLines(s, prefix);
      ProcessItemsStock(s, prefix);
      var mid := ProcessItems(s, prefix).value.0;
      var before := ProcessItems(s, prefix).value.1;
      var lines := ProcessItems(s, items).value.1;
      var k := items[n].productId.value;
      assert mid.products[k].price == s.products[k].price;
      assert lines == before + [LineFor(s.products, items[n])];
      assert lines[..n] == before;
      assert forall i :: 0 <= i < n ==> items[i] == prefix[i] && lines[i] == before[i];
    }
  }

  /** The loop fails only with the exceptions of its passes, never with
      binding errors. */
  lemma {:induction false} ProcessItemsErrors(s: Store, items: seq<SaleItemRequest>)
    ensures ProcessItems(s, items).Err? ==> !ProcessItems(s, items).error.ArgumentNotValid?
  {
    if items != [] {
      ProcessItemsErrors(s, items[..|items| - 1]);
    }
  }

  /** Once a prefix of the items fails, the whole loop fails with the same
      exception: the first failing item decides the error. */
  lemma {:induction false} FirstFailureWins(s: Store, items: seq<SaleItemRequest>, j: nat)
    requires j <= |items| && ProcessItems(s, items[..j]).Err?
    ensures ProcessItems(s, items).Err?
    ensures ProcessItems(s, items).error == ProcessItems(s, items[..j]).error
    decreases |items| - j
  {
    if j == |items| {
      assert items[..j] == items;
    } else {
      var n := |items| - 1;
      assert items[..n][..j] == items[..j];
      FirstFailureWins(s, items[..n], j);
    }
  }

  /** An unknown product aborts the sale with its not-found error, provided
      the items before it went through. */
  lemma UnknownProductAborts(s: Store, items: seq<SaleItemRequest>, i: nat, k: Id)
    requires i < |items| && items[i].productId == Some(k) && k !in s.products
    requires ProcessItems(s, items[..i]).Ok?
    ensures ProcessItems(s, items) == Err(ResourceNotFound(ProductService.NotFoundMessage(k)))
  {
    var upTo := items[..i + 1];
    assert upTo[..i] == items[..i];
    assert upTo[i] == items[i];
    ProcessItemsStock(s, items[..i]);
    var mid := ProcessItems(s, items[..i]).value.0;
    assert k !in mid.products;
    assert ProcessItem(mid, items[i]) == Err(ResourceNotFound(ProductService.NotFoundMessage(k)));
    assert ProcessItems(s, upTo) == Err(ResourceNotFound(ProductService.NotFoundMessage(k)));
    FirstFailureWins(s, items, i + 1);
  }

  /** With every line naming a known product and a positive quantity, the
      loop goes through exactly when each product's stock covers what the
      whole request asks of it. */
  lemma {:induction false} AcceptedIffStockCovers(s: Store, items: seq<SaleItemRequest>)
    requires forall i :: 0 <= i < |items| ==>
               items[i].productId.Some? && items[i].productId.value in s.products
               && items[i].quantity.Some? && items[i].quantity.value >= 1
    ensures ProcessItems(s, items).Ok? <==>
              forall i :: 0 <= i < |items| ==>
                Demand(items, items[i].productId.value) <= s.products[items[i].productId.value].quantityStock
  {
    if items != [] {
      var n := |items| - 1;
      var prefix := items[..n];
      assert forall i :: 0 <= i < n ==> items[i] == prefix[i];
      AcceptedIffStockCovers(s, prefix);
      var k := items[n].productId.value;
      var q := items[n].quantity.value;
      assert forall j :: Demand(items, j) == Demand(prefix, j) + (if j == k then q else 0);
      if ProcessItems(s, prefix).Ok? {
        ProcessItemsStock(s, prefix);
        var t := ProcessItems(s, prefix).value.0;
        assert t.products[k].quantityStock == s.products[k].quantityStock - Demand(prefix, k);
      }
    }
  }

  /** The row `registerSale` saves, before the column checks. */
  function DraftSale(id: Id, d: SaleRequest, lines: seq<SaleItem>): Sale
    requires d.saleDate.Some? && d.saleChannel.Some?
  {
    Sale(id, d.client, d.saleDate.value, d.saleChannel.value, SumSubTotals(lines), lines)
  }

  /** `registerSale`: the loop over the items, then one insert of the sale
      with its lines. A null item list fails to iterate; a null date or
      channel, a client over 150 characters, or an amount beyond
      numeric(10,2) is refused by the database at the insert, which undoes
      the stock changes with the rest of the transaction. */
  function Register(s: Store, d: SaleRequest): (r: Result<Commit<Sale>>)
    ensures d.items.None? ==> r == Err(Unhandled("NullPointerException"))
    ensures r.Err? ==> !r.error.ArgumentNotValid?
    ensures d.items.Some? && ProcessItems(s, d.items.value).Err? ==> r == Err(ProcessItems(s, d.items.value).error)
    ensures r.Ok? <==>
              && d.items.Some? && ProcessItems(s, d.items.value).Ok?
              && d.saleDate.Some? && d.saleChannel.Some?
              && SaleFits(DraftSale(s.nextSaleId, d, ProcessItems(s, d.items.value).value.1))
    ensures r.Ok? ==>
              && var sale := r.value.value;
              && var t := ProcessItems(s, d.items.value).value.0;
              && sale.id == s.nextSaleId
              && sale.client == d.client && sale.saleDate == d.saleDate.value && sale.channel == d.saleChannel.value
              && sale.totalValue == RequestTotal(s.products, d.items.value)
              && AmountsAgree(sale)
              && r.value.store == t.(sales := s.sales[sale.id := sale], nextSaleId := s.nextSaleId + 1)
  {
    if d.items.None? then Err(Unhandled("NullPointerException"))
    else
      ProcessItemsErrors(s, d.items.value);
      var done :- ProcessItems(s, d.items.value);
      ProcessItemsLines(s, d.items.value);
      ProcessItemsStock(s, d.items.value);
      var t := done.0;
      var lines := done.1;
      if d.saleDate.None? || d.saleChannel.None? then Err(Unhandled(ConstraintViolated))
      else
        var sale := DraftSale(s.nextSaleId, d, lines);
        if !SaleFits(sale) then Err(Unhandled(ConstraintViolated))
        else Ok(Commit(t.(sales := t.sales[sale.id := sale], nextSaleId := s.nextSaleId + 1), sale))
  }

  /** After a registered sale every product's stock is its old stock less
      what the request asked of it, never negative for a product the sale
      names, and every other field of every product is as it was. */
  lemma RegisterStock(s: Store, d: SaleRequest)
    requires Register(s, d).Ok?
    ensures var t := Register(s, d).value.store;
            && t.products.Keys == s.products.Keys
            && t.categories == s.categories
            && (forall k :: k in s.products ==>
                  && t.products[k].quantityStock == s.products[k].quantityStock - Demand(d.items.value, k)
                  && t.products[k] == s.products[k].(quantityStock := t.products[k].quantityStock))
            && (forall i :: 0 <= i < |d.items.value| ==>
                  && d.items.value[i].productId.Some? && d.items.value[i].productId.value in s.products
                  && t.products[d.items.value[i].productId.value].quantityStock >= 0)
  {
    ProcessItemsStock(s, d.items.value);
  }

  lemma RegisterPreservesValid(s: Store, d: SaleRequest)
    requires Valid(s)
    ensures Register(s, d).Ok? ==> Valid(Register(s, d).value.store)
  {
    if Register(s, d).Ok? {
      var sale := Register(s, d).value.value;
      var items := d.items.value;
      ProcessItemsStock(s, items);
      ProcessItemsLines(s, items);
      var mid := ProcessItems(s, items).value.0;
      StockChangePreservesValid(s, mid);
      assert ItemsReferToProducts(sale.items, mid.products);
      AddSalePreservesValid(mid, sale);
    }
  }

  // ---- findAll, findById, delete ----

  /** Which query `findAll` runs. */
  datatype SaleFilter = ByCategory(categoryId: Id) | ByClient(client: string) | Everything

  /** A category id wins over a client name; a null or blank name means no
      client filter. */
  function ChooseFilter(categoryId: Option<Id>, clientName: Option<string>): (f: SaleFilter)
    ensures categoryId.Some? <==> f.ByCategory?
    ensures f.ByCategory? ==> f.categoryId == categoryId.value
    ensures f.ByClient? <==> categoryId.None? && clientName.Some? && !IsBlank(clientName.value)
    ensures f.ByClient? ==> f.client == clientName.value
  {
    if categoryId.Some? then ByCategory(categoryId.value)
    else if clientName.Some? && !IsBlank(clientName.value) then ByClient(clientName.value)
    else Everything
  }

  /** `findSalesByProductCategory`: the sale has a line whose product is in
      the category. `findByClient`: the client equals the name exactly. */
  predicate Matches(s: Store, sale: Sale, f: SaleFilter) {
    match f
    case ByCategory(c) =>
      exists i :: 0 <= i < |sale.items| && sale.items[i].productId in s.products
                  && s.products[sale.items[i].productId].categoryId == c
    case ByClient(name) => sale.client == Some(name)
    case Everything => true
  }

  /** The sales a filter selects, still keyed by id: `DISTINCT` keeps each
      sale once however many of its lines match. */
  function Selected(s: Store, f: SaleFilter): (m: map<Id, Sale>)
    ensures m.Keys <= s.sales.Keys
    ensures forall k :: k in m <==> k in s.sales && Matches(s, s.sales[k], f)
    ensures forall k :: k in m ==> m[k] == s.sales[k]
  {
    map k | k in s.sales && Matches(s, s.sales[k], f) :: s.sales[k]
  }

  /** `findAll(categoryId, clientName, page, size)`. */
  function FindAll(s: Store, categoryId: Option<Id>, clientName: Option<string>, page: int, size: int): (r: Result<Page<Sale>>)
    ensures r.Ok? <==> page >= 0 && size >= 1
    ensures r.Ok? ==> r.value.totalElements == |Selected(s, ChooseFilter(categoryId, clientName))|
  {
    PageOf(ByIdDesc(Selected(s, ChooseFilter(categoryId, clientName))), page, size)
  }

  /** Every sale the filter selects is listed, every listed sale is selected,
      and under the invariant each appears once, by descending id. */
  lemma FindAllLists(s: Store, f: SaleFilter)
    requires Valid(s)
    ensures var rows := ByIdDesc(Selected(s, f));
            && (forall k :: k in s.sales && Matches(s, s.sales[k], f) ==> s.sales[k] in rows)
            && (forall i :: 0 <= i < |rows| ==> rows[i].id in s.sales && rows[i] == s.sales[rows[i].id] && Matches(s, rows[i], f))
            && (forall i, j :: 0 <= i < j < |rows| ==> rows[i].id > rows[j].id)
  {
    var m := Selected(s, f);
    var ids := Descending(m.Keys);
    var rows := ByIdDesc(m);
    forall i | 0 <= i < |rows| ensures rows[i].id in s.sales && rows[i] == s.sales[rows[i].id] && Matches(s, rows[i], f) {
      assert rows[i] == m[ids[i]] && ids[i] in m;
    }
    RowsDescending(m, (x: Sale) => x.id);
    ByIdDescComplete(m);
  }

  /** `findById`. */
  function FindById(s: Store, id: Id): (r: Result<Sale>)
    ensures r.Ok? <==> id in s.sales
    ensures r.Ok? ==> r.value == s.sales[id]
    ensures r.Err? ==> r.error == ResourceNotFound("Venda não encontrada para o ID: " + Show(id))
  {
    if id in s.sales then Ok(s.sales[id]) else Err(ResourceNotFound("Venda não encontrada para o ID: " + Show(id)))
  }

  /** `delete`: the sale and, by cascade, its lines go; the stock they took
      is not given back. */
  function Delete(s: Store, id: Id): (r: Result<Commit<()>>)
    ensures r.Ok? <==> id in s.sales
    ensures r.Err? ==> r.error == ResourceNotFound("Venda não encontrada para esse id: " + Show(id))
    ensures r.Ok? ==> r.value.store == s.(sales := s.sales - {id})
  {
    if id !in s.sales then Err(ResourceNotFound("Venda não encontrada para esse id: " + Show(id)))
    else Ok(Commit(s.(sales := s.sales - {id}), ()))
  }

  /** Registering and then deleting a sale leaves the stock where the
      registration put it, not where it was. */
  lemma DeleteKeepsStock(s: Store, d: SaleRequest)
    requires Register(s, d).Ok?
    ensures var c := Register(s, d).value;
            && Delete(c.store, c.value.id).Ok?
            && Delete(c.store, c.value.id).value.store.products == c.store.products
  {
  }

  lemma DeletePreservesValid(s: Store, id: Id)
    requires Valid(s)
    ensures Delete(s, id).Ok? ==> Valid(Delete(s, id).value.store)
  {
  }

  // ---- patch ----

  const SaleMissingForPatch: string := "Venda não encontrada para esse id: "

  /** MapStruct's null-ignoring update of a loaded sale: a non-null client,
      date or channel replaces the stored one; a non-null item list is first
      cleared out of the sale's collection. */
  function MergeSale(p: Sale, d: SaleRequest): (q: Sale)
    ensures q.id == p.id && q.totalValue == p.totalValue
    ensures q.client == (if d.client.Some? then d.client else p.client)
    ensures q.saleDate == d.saleDate.GetOr(p.saleDate)
    ensures q.channel == d.saleChannel.GetOr(p.channel)
    ensures q.items == (if d.items.Some? then [] else p.items)
  {
    Sale(p.id, if d.client.Some? then d.client else p.client, d.saleDate.GetOr(p.saleDate),
         d.saleChannel.GetOr(p.channel), p.totalValue, if d.items.Some? then [] else p.items)
  }

  /** `patch`: the sale must exist. Each item of a non-null list is mapped
      to a line carrying only its quantity, with no product, sale, price or
      subtotal, and the `nullable = false` columns refuse such a line when
      the transaction flushes. The stock and the total are never touched. */
  function Patch(s: Store, id: Id, d: SaleRequest): (r: Result<Commit<Sale>>)
    ensures id !in s.sales ==> r == Err(ResourceNotFound(SaleMissingForPatch + Show(id)))
    ensures id in s.sales && d.items.Some? && d.items.value != [] ==> r == Err(Unhandled(ConstraintViolated))
    ensures r.Ok? <==> id in s.sales && (d.items.None? || d.items == Some([])) && SaleFits(MergeSale(s.sales[id], d))
    ensures r.Ok? ==> r.value.value == MergeSale(s.sales[id], d)
    ensures r.Ok? ==> r.value.store == s.(sales := s.sales[id := r.value.value])
  {
    if id !in s.sales then Err(ResourceNotFound(SaleMissingForPatch + Show(id)))
    else if d.items.Some? && d.items.value != [] then Err(Unhandled(ConstraintViolated))
    else
      var q := MergeSale(s.sales[id], d);
      if !SaleFits(q) then Err(Unhandled(ConstraintViolated))
      else Ok(Commit(s.(sales := s.sales[id := q]), q))
  }

  /** A patch without items keeps the stock, the lines and the total, so the
      store invariant survives it. */
  lemma PatchPreservesValid(s: Store, id: Id, d: SaleRequest)
    requires Valid(s) && d.items.None?
    ensures Patch(s, id, d).Ok? ==> Valid(Patch(s, id, d).value.store)
    ensures Patch(s, id, d).Ok? ==> Patch(s, id, d).value.store.products == s.products
  {
    if Patch(s, id, d).Ok? {
      var s' := Patch(s, id, d).value.store;
      var q := s'.sales[id];
      assert q.items == s.sales[id].items && q.totalValue == s.sales[id].totalValue;
      assert AmountsAgree(q);
      assert ItemsReferToProducts(q.items, s'.products);
    }
  }

  /** An empty item list wipes a sale's lines but keeps its total, so a sale
      that had a non-zero total no longer adds up. */
  lemma EmptyItemsBreakTotal(s: Store, id: Id, d: SaleRequest)
    requires Valid(s) && id in s.sales && s.sales[id].totalValue != 0
    requires d.items == Some([])
    ensures Patch(s, id, d).Ok? ==> !AmountsAgree(Patch(s, id, d).value.value)
  {
  }
}

=== FILE: sales_page.dfy ===
/** The sale form of SalesPage: the cart of items, its merge-on-add and
    remove-by-product, the submit check and the payload, and the channel
    labels. Prices are JavaScript numbers, taken here as exact reals. */
module SalesPage {
  import opened Common
  import Ledger
  import Requests

  datatype CartItem = CartItem(productId: int, quantity: int, productName: string, price: real)

  /** A product of the loaded listing. */
  datatype ProductOption = ProductOption(id: int, name: string, price: real)

  datatype Added = CartError(message: string) | Cart(items: seq<CartItem>)

  const PickMessage: string := "Selecione um produto e a quantidade deve ser maior que zero."
  const InvalidProductMessage: string := "Produto selecionado é inválido."
  const SubmitMessage: string := "Preencha o cliente, canal de venda e adicione pelo menos um item."

  /** No two cart lines name the same product. */
  predicate DistinctProducts(items: seq<CartItem>) {
    forall i, j :: 0 <= i < j < |items| ==> items[i].productId != items[j].productId
  }

  /** Every cart line asks for at least one unit. */
  predicate PositiveQuantities(items: seq<CartItem>) {
    forall i :: 0 <= i < |items| ==> items[i].quantity > 0
  }

  /** The quantity the cart holds for a product. */
  function QuantityOf(items: seq<CartItem>, id: int): int {
    if items == [] then 0
    else (if items[0].productId == id then items[0].quantity else 0) + QuantityOf(items[1..], id)
  }

  /** `findIndex` on the product id: the first line for it, or -1. */
  function FindLine(items: seq<CartItem>, id: int): (r: int)
    ensures -1 <= r < |items|
    ensures r == -1 <==> forall i :: 0 <= i < |items| ==> items[i].productId != id
    ensures r >= 0 ==> items[r].productId == id && forall i :: 0 <= i < r ==> items[i].productId != id
  {
    if items == [] then -1
    else if items[0].productId == id then 0
    else
      var k := FindLine(items[1..], id);
      if k == -1 then -1 else k + 1
  }

  /** `products.find(p => Number(p.id) === id)`. */
  function FindProduct(products: seq<ProductOption>, id: int): (r: Option<ProductOption>)
    ensures r.Some? ==> r.value in products && r.value.id == id
    ensures r.None? <==> forall i :: 0 <= i < |products| ==> products[i].id != id
  {
    if products == [] then None
    else if products[0].id == id then Some(products[0])
    else FindProduct(products[1..], id)
  }

  /** `handleAddItem`. The selected id is absent while the select shows its
      placeholder; 0 is falsy as well. An existing line for the product
      grows by the quantity, keeping its name and price; a new product is
      appended. */
  function AddItem(items: seq<CartItem>, products: seq<ProductOption>, selected: Option<int>, quantity: int): (r: Added)
    ensures selected.None? || selected == Some(0) || quantity <= 0 ==> r == CartError(PickMessage)
    ensures r.Cart? <==> selected.Some? && selected.value != 0 && quantity > 0 && FindProduct(products, selected.value).Some?
    ensures r.CartError? && selected.Some? && selected.value != 0 && quantity > 0 ==> r == CartError(InvalidProductMessage)
    ensures r.Cart? && FindLine(items, selected.value) == -1 ==>
      var p := FindProduct(products, selected.value).value;
      r.items == items + [CartItem(selected.value, quantity, p.name, p.price)]
    ensures r.Cart? && FindLine(items, selected.value) >= 0 ==>
      var k := FindLine(items, selected.value);
      r.items == items[k := items[k].(quantity := items[k].quantity + quantity)]
  {
    if selected.None? || selected.value == 0 || quantity <= 0 then CartError(PickMessage)
    else
      var id := selected.value;
      var product := FindProduct(products, id);
      if product.None? then CartError(InvalidProductMessage)
      else
        var k := FindLine(items, id);
        if k != -1 then Cart(items[k := items[k].(quantity := items[k].quantity + quantity)])
        else Cart(items + [CartItem(id, quantity, product.value.name, product.value.price)])
  }

  /** `handleRemoveItem`: every line of the product goes, the rest keep
      their order. */
  function RemoveItem(items: seq<CartItem>, id: int): (r: seq<CartItem>)
    ensures forall i :: 0 <= i < |r| ==> r[i].productId != id
    ensures forall x :: x in r <==> x in items && x.productId != id
    ensures |r| <= |items|
  {
    if items == [] then []
    else if items[0].productId == id then RemoveItem(items[1..], id)
    else [items[0]] + RemoveItem(items[1..], id)
  }

  lemma {:induction false} QuantityOfAppend(a: seq<CartItem>, b: seq<CartItem>, id: int)
    ensures QuantityOf(a + b, id) == QuantityOf(a, id) + QuantityOf(b, id)
    decreases |a|
  {
    if a != [] {
      assert (a + b)[0] == a[0];
      assert (a + b)[1..] == a[1..] + b;
      QuantityOfAppend(a[1..], b, id);
    } else {
      assert a + b == b;
    }
  }

  lemma {:induction false} QuantityOfUpdate(items: seq<CartItem>, k: int, v: CartItem, id: int)
    requires 0 <= k < |items| && v.productId == items[k].productId
    ensures QuantityOf(items[k := v], id) ==
      QuantityOf(items, id) + (if v.productId == id then v.quantity - items[k].quantity else 0)
    decreases |items|
  {
    if k > 0 {
      assert items[k := v][1..] == items[1..][k - 1 := v];
      QuantityOfUpdate(items[1..], k - 1, v, id);
    } else {
      assert items[k := v][1..] == items[1..];
    }
  }

  /** Adding grows the selected product's quantity by exactly the amount
      and leaves every other product's alone. */
  lemma AddItemQuantities(items: seq<CartItem>, products: seq<ProductOption>, selected: Option<int>, quantity: int, id: int)
    requires AddItem(items, products, selected, quantity).Cart?
    ensures QuantityOf(AddItem(items, products, selected, quantity).items, id) ==
      QuantityOf(items, id) + (if id == selected.value then quantity else 0)
  {
    var r := AddItem(items, products, selected, quantity).items;
    var k := FindLine(items, selected.value);
    if k == -1 {
      var p := FindProduct(products, selected.value).value;
      QuantityOfAppend(items, [CartItem(selected.value, quantity, p.name, p.price)], id);
      assert [CartItem(selected.value, quantity, p.name, p.price)][1..] == [];
    } else {
      QuantityOfUpdate(items, k, items[k].(quantity := items[k].quantity + quantity), id);
    }
  }

  /** Adding never creates a second line for a product, and keeps every
      line's quantity positive. */
  lemma AddItemKeepsCartWellFormed(items: seq<CartItem>, products: seq<ProductOption>, selected: Option<int>, quantity: int)
    requires DistinctProducts(items) && PositiveQuantities(items)
    requires AddItem(items, products, selected, quantity).Cart?
    ensures DistinctProducts(AddItem(items, products, selected, quantity).items)
    ensures PositiveQuantities(AddItem(items, products, selected, quantity).items)
  {
  }

  lemma {:induction false} QuantityOfRemove(items: seq<CartItem>, id: int, other: int)
    ensures QuantityOf(RemoveItem(items, id), other) == if other == id then 0 else QuantityOf(items, other)
    decreases |items|
  {
    if items != [] {
      QuantityOfRemove(items[1..], id, other);
      if items[0].productId != id {
        assert ([items[0]] + RemoveItem(items[1..], id))[1..] == RemoveItem(items[1..], id);
      }
    }
  }

  /** Removing after adding forgets the addition: the cart is as if only
      the removal had happened. */
  lemma {:induction false} RemoveUndoesAdd(items: seq<CartItem>, products: seq<ProductOption>, selected: Option<int>, quantity: int)
    requires AddItem(items, products, selected, quantity).Cart?
    ensures RemoveItem(AddItem(items, products, selected, quantity).items, selected.value) == RemoveItem(items, selected.value)
  {
    var id := selected.value;
    var k := FindLine(items, id);
    if k == -1 {
      var p := FindProduct(products, id).value;
      RemoveAppendSame(items, CartItem(id, quantity, p.name, p.price));
    } else {
      RemoveUpdateSame(items, k, items[k].(quantity := items[k].quantity + quantity));
    }
  }

  lemma {:induction false} RemoveAppendSame(items: seq<CartItem>, x: CartItem)
    ensures RemoveItem(items + [x], x.productId) == RemoveItem(items, x.productId)
    decreases |items|
  {
    if items == [] {
      assert [x][1..] == [];
    } else {
      assert (items + [x])[1..] == items[1..] + [x];
      RemoveAppendSame(items[1..], x);
    }
  }

  lemma {:induction false} RemoveUpdateSame(items: seq<CartItem>, k: int, v: CartItem)
    requires 0 <= k < |items| && v.productId == items[k].productId
    ensures RemoveItem(items[k := v], v.productId) == RemoveItem(items, v.productId)
    decreases |items|
  {
    if k == 0 {
      assert items[k := v][1..] == items[1..];
    } else {
      assert items[k := v][1..] == items[1..][k - 1 := v];
      RemoveUpdateSame(items[1..], k - 1, v);
    }
  }

  /** One line of the body: the cart's product id and quantity, JavaScript
      numbers sent as they are. */
  datatype Line = Line(productId: int, quantity: int)

  /** The sale as the form sends it. `saleChannel` is the select's value
      through `parseInt`; the date string is produced by the browser. */
  datatype Payload = Payload(client: string, saleDate: string, saleChannel: int, items: seq<Line>)

  datatype Submitted = SubmitError(message: string) | Send(payload: Payload)

  /** `handleFormSubmit`: an empty client, no channel chosen or an empty
      cart stop the form; otherwise the lines go out as (product, quantity)
      pairs in cart order. */
  function Submit(client: string, channel: Option<int>, saleDate: string, items: seq<CartItem>): (r: Submitted)
    ensures r.SubmitError? <==> client == "" || channel.None? || items == []
    ensures r.SubmitError? ==> r.message == SubmitMessage
    ensures r.Send? ==> |r.payload.items| == |items| && r.payload.client == client
    ensures r.Send? ==> r.payload.saleChannel == channel.value
    ensures r.Send? ==> forall i :: 0 <= i < |items| ==>
      r.payload.items[i] == Line(items[i].productId, items[i].quantity)
  {
    if client == "" || channel.None? || items == [] then SubmitError(SubmitMessage)
    else Send(Payload(client, saleDate, channel.value, seq(|items|, i requires 0 <= i < |items| =>
      Line(items[i].productId, items[i].quantity))))
  }

  /** Jackson's binding of the lines to `SaleItemRequestDTO`: an `Integer`
      quantity outside Java's int range is refused, and the whole body
      with it, rather than truncated. */
  function BindItems(lines: seq<Line>): (r: Option<seq<Requests.SaleItemRequest>>)
    ensures r.Some? <==> forall i :: 0 <= i < |lines| ==> IntMin <= lines[i].quantity <= IntMax
    ensures r.Some? ==> |r.value| == |lines| && forall i :: 0 <= i < |lines| ==>
      r.value[i].productId == Some(lines[i].productId) && r.value[i].quantity == Some(lines[i].quantity)
  {
    if forall i :: 0 <= i < |lines| ==> IntMin <= lines[i].quantity <= IntMax then
      Some(seq(|lines|, i requires 0 <= i < |lines| && IntMin <= lines[i].quantity <= IntMax =>
        Requests.SaleItemRequest(Some(lines[i].productId), Some(lines[i].quantity as Int32))))
    else None
  }

  /** A cart of positive lines for positive product ids, with quantities
      inside Java's int, sends items that bind and that the back end's item
      validation accepts, none repeating a product. */
  lemma SubmittedItemsAreValid(client: string, channel: Option<int>, saleDate: string, items: seq<CartItem>)
    requires DistinctProducts(items) && PositiveQuantities(items)
    requires forall i :: 0 <= i < |items| ==> items[i].productId > 0 && items[i].quantity <= IntMax
    requires Submit(client, channel, saleDate, items).Send?
    ensures var b := BindItems(Submit(client, channel, saleDate, items).payload.items);
      && b.Some?
      && (forall i :: 0 <= i < |b.value| ==> Requests.ItemValid(b.value[i]))
      && (forall i, j :: 0 <= i < j < |b.value| ==> !Requests.ItemEquals(b.value[i], b.value[j]))
  {
  }

  /** The number input only asks for at least 1, and adding to a line sums
      the quantities, so a cart line can pass Java's int range; such a cart
      is still sent, and its body does not bind. */
  lemma OversizedQuantityDoesNotBind(client: string, channel: Option<int>, saleDate: string, items: seq<CartItem>, k: int)
    requires Submit(client, channel, saleDate, items).Send?
    requires 0 <= k < |items| && items[k].quantity > IntMax
    ensures BindItems(Submit(client, channel, saleDate, items).payload.items).None?
  {
    assert Submit(client, channel, saleDate, items).payload.items[k].quantity > IntMax;
  }

  /** The channel choices: id, enum name and label. */
  const Channels: seq<(int, string, string)> := [
    (1, "SHOPEE", "Shopee"),
    (2, "LOCAL", "Venda Local"),
    (3, "INSTAGRAM", "Instagram"),
    (4, "WHATSAPP", "WhatsApp")]

  /** `find` on the enum name: the label of the first channel with that
      name, if any. */
  function FindChannel(channels: seq<(int, string, string)>, name: string): (r: Option<string>)
    ensures r.None? <==> forall i :: 0 <= i < |channels| ==> channels[i].1 != name
    ensures r.Some? ==> exists i :: 0 <= i < |channels| && channels[i].1 == name && channels[i].2 == r.value
  {
    if channels == [] then None
    else if channels[0].1 == name then Some(channels[0].2)
    else
      var r := FindChannel(channels[1..], name);
      assert r.Some? ==> exists i :: 0 <= i < |channels| && channels[i].1 == name && channels[i].2 == r.value by {
        if r.Some? {
          var i :| 0 <= i < |channels[1..]| && channels[1..][i].1 == name && channels[1..][i].2 == r.value;
          assert channels[i + 1] == channels[1..][i];
        }
      }
      r
  }

  /** `getChannelDisplay`: the channel's label, or "N/A" for a name no
      channel has (or a label that is empty, which none is). */
  function ChannelDisplay(name: string): (r: string)
    ensures r == "N/A" <==> forall i :: 0 <= i < |Channels| ==> Channels[i].1 != name
    ensures r != "N/A" ==> exists i :: 0 <= i < |Channels| && Channels[i].1 == name && Channels[i].2 == r
  {
    var shown := FindChannel(Channels, name);
    if shown.Some? && shown.value != "" then shown.value else "N/A"
  }

  /** Every channel the back end returns has a label. */
  lemma EveryChannelLabelled(c: Ledger.SaleChannel)
    ensures ChannelDisplay(Ledger.ChannelName(c)) != "N/A"
  {
    var i := match c
      case Shopee => 0
      case Local => 1
      case Instagram => 2
      case Whatsapp => 3;
    assert Channels[i].1 == Ledger.ChannelName(c);
  }
}

=== FILE: text.dfy ===
/** String primitives of the two runtimes the system is written in: Java's
    String (UTF-16 length, trim, isBlank, equalsIgnoreCase, split on a dot)
    and JavaScript's (trim, the `\s` class). */
module Text {

  /** Number of UTF-16 code units, which is what Java's `String.length()` and
      the `@Size` constraint count: a code point above U+FFFF takes two. */
  function JavaLength(s: string): (n: nat)
    ensures |s| <= n <= 2 * |s|
  {
    if s == [] then 0
    else JavaLength(s[..|s| - 1]) + (if s[|s| - 1] as int > 0xFFFF then 2 else 1)
  }

  /** Characters removed by Java's `String.trim()`: code points up to U+0020. */
  predicate IsTrimmed(c: char) {
    c <= ' '
  }

  /** `@NotBlank` on a non-null string: something survives `trim()`. */
  predicate NotBlankJava(s: string) {
    exists i :: 0 <= i < |s| && !IsTrimmed(s[i])
  }

  /** Java's `Character.isWhitespace`: space, line and paragraph separators
      other than the non-breaking ones, plus the ASCII controls TAB..CR and
      FS..US. */
  predicate IsJavaWhitespace(c: char) {
    || ('\U{0009}' <= c <= '\U{000D}')
    || ('\U{001C}' <= c <= '\U{0020}')
    || c == '\U{1680}'
    || ('\U{2000}' <= c <= '\U{2006}')
    || ('\U{2008}' <= c <= '\U{200A}')
    || c == '\U{2028}' || c == '\U{2029}' || c == '\U{205F}' || c == '\U{3000}'
  }

  /** Java's `String.isBlank()`. */
  predicate IsBlank(s: string) {
    forall i :: 0 <= i < |s| ==> IsJavaWhitespace(s[i])
  }

  /** JavaScript's WhiteSpace and LineTerminator characters: what `trim()`
      removes and what the regular-expression class `\s` matches. */
  predicate IsJsWhitespace(c: char) {
    || ('\U{0009}' <= c <= '\U{000D}')
    || c == '\U{0020}' || c == '\U{00A0}' || c == '\U{1680}'
    || ('\U{2000}' <= c <= '\U{200A}')
    || c == '\U{2028}' || c == '\U{2029}' || c == '\U{202F}' || c == '\U{205F}'
    || c == '\U{3000}' || c == '\U{FEFF}'
  }

  /** `s.trim()` in JavaScript yields the empty string. */
  predicate JsTrimIsEmpty(s: string) {
    forall i :: 0 <= i < |s| ==> IsJsWhitespace(s[i])
  }

  function AsciiUpper(c: char): char {
    if 'a' <= c <= 'z' then (c as int - 32) as char else c
  }

  /** Java's `equalsIgnoreCase`, with case folding limited to ASCII letters. */
  predicate EqualsIgnoreCase(a: string, b: string) {
    |a| == |b| && forall i :: 0 <= i < |a| ==> AsciiUpper(a[i]) == AsciiUpper(b[i])
  }

  /** `Collectors.joining(sep)`. */
  function Join(parts: seq<string>, sep: char): (r: string)
    ensures parts == [] ==> r == ""
  {
    if parts == [] then ""
    else if |parts| == 1 then parts[0]
    else Join(parts[..|parts| - 1], sep) + [sep] + parts[|parts| - 1]
  }

  /** Every maximal run between separators, empty runs included. */
  function SplitOn(s: string, sep: char): (r: seq<string>)
    ensures |r| >= 1
    ensures sep !in s ==> r == [s]
    ensures forall i :: 0 <= i < |r| ==> sep !in r[i]
  {
    if s == [] then [""]
    else
      assert s[..|s| - 1] + [s[|s| - 1]] == s;
      var front := SplitOn(s[..|s| - 1], sep);
      if s[|s| - 1] == sep then front + [""]
      else front[..|front| - 1] + [front[|front| - 1] + [s[|s| - 1]]]
  }

  function DropTrailingEmpty(r: seq<string>): (t: seq<string>)
    ensures |t| <= |r| && t == r[..|t|]
    ensures t == [] || t[|t| - 1] != ""
  {
    if r == [] || r[|r| - 1] != "" then r else DropTrailingEmpty(r[..|r| - 1])
  }

  /** Java's `s.split("\\.")`: when the string has no dot the result is the
      string itself (even empty); otherwise the dot-separated pieces with the
      trailing empty ones removed. */
  function JavaSplitDot(s: string): (r: seq<string>)
    ensures forall i :: 0 <= i < |r| ==> '.' !in r[i]
  {
    if '.' !in s then [s] else DropTrailingEmpty(SplitOn(s, '.'))
  }

  /** One more character extends the last piece, or opens a new one. */
  lemma SplitOnSnocSep(t: string, sep: char)
    ensures SplitOn(t + [sep], sep) == SplitOn(t, sep) + [""]
  {
    assert (t + [sep])[..|t|] == t;
  }

  lemma SplitOnSnocOther(t: string, c: char, sep: char)
    requires c != sep
    ensures var f := SplitOn(t, sep);
            SplitOn(t + [c], sep) == f[..|f| - 1] + [f[|f| - 1] + [c]]
  {
    assert (t + [c])[..|t|] == t;
  }

  /** Splitting distributes over a separator: the pieces of `a + sep + b`
      are the pieces of `a` followed by the pieces of `b`. */
  lemma {:induction false} SplitOnAppend(a: string, b: string, sep: char)
    ensures SplitOn(a + [sep] + b, sep) == SplitOn(a, sep) + SplitOn(b, sep)
    decreases |b|
  {
    if b == [] {
      assert a + [sep] + b == a + [sep];
      SplitOnSnocSep(a, sep);
    } else {
      var b' := b[..|b| - 1];
      var c := b[|b| - 1];
      var t := a + [sep] + b';
      assert b == b' + [c];
      assert a + [sep] + b == t + [c];
      SplitOnAppend(a, b', sep);
      var A := SplitOn(a, sep);
      var B := SplitOn(b', sep);
      if c == sep {
        SplitOnSnocSep(t, sep);
        SplitOnSnocSep(b', sep);
      } else {
        SplitOnSnocOther(t, c, sep);
        SplitOnSnocOther(b', c, sep);
        LastPieceOfConcat(A, B, c);
      }
    }
  }

  lemma LastPieceOfConcat(A: seq<string>, B: seq<string>, c: char)
    requires |B| >= 1
    ensures var T := A + B;
            T[..|T| - 1] + [T[|T| - 1] + [c]] == A + (B[..|B| - 1] + [B[|B| - 1] + [c]])
  {
    var T := A + B;
    assert T[..|T| - 1] == A + B[..|B| - 1];
    assert T[|T| - 1] == B[|B| - 1];
  }

  /** A piece without separators splits to itself. */
  lemma SplitOnPlain(s: string, sep: char)
    requires sep !in s
    ensures SplitOn(s, sep) == [s]
  {
  }

  /** `split("\\.")` undoes `a + "." + b` when neither part has a dot and the
      second part is not empty. */
  lemma SplitDotOfComposite(a: string, b: string)
    requires '.' !in a && '.' !in b && b != ""
    ensures JavaSplitDot(a + "." + b) == [a, b]
  {
    SplitOnAppend(a, b, '.');
    assert a + "." + b == a + ['.'] + b;
    assert '.' in a + "." + b by {
      assert (a + "." + b)[|a|] == '.';
    }
  }

  /** With an empty second part the trailing empty piece is dropped, so the
      split yields one piece. */
  lemma SplitDotOfEmptySecret(a: string)
    requires '.' !in a && a != ""
    ensures JavaSplitDot(a + ".") == [a]
  {
    SplitOnAppend(a, "", '.');
    assert a + "." == a + ['.'] + "";
    assert (a + ".")[|a|] == '.';
    assert SplitOn(a + ".", '.') == [a, ""];
    assert DropTrailingEmpty([a, ""]) == DropTrailingEmpty([a]);
  }

  /** Splitting a joined list on the separator gives the list back, when no
      element contains the separator. */
  lemma {:induction false} SplitJoin(parts: seq<string>, sep: char)
    requires parts != []
    requires forall i :: 0 <= i < |parts| ==> sep !in parts[i]
    ensures SplitOn(Join(parts, sep), sep) == parts
    decreases |parts|
  {
    if |parts| > 1 {
      var front := parts[..|parts| - 1];
      SplitJoin(front, sep);
      SplitOnAppend(Join(front, sep), parts[|parts| - 1], sep);
      assert front + [parts[|parts| - 1]] == parts;
    }
  }
}

=== FILE: user_service.dfy ===
/** UserService: registration, the self-or-admin patch rule, and deletion.
    The authenticated caller's id, which the source reads from the security
    context, is a parameter. */
module UserService {
  import opened Common
  import opened Text
  import opened Requests
  import opened Accounts

  /** UserResponseDTO: the account without its id or password. */
  datatype UserResponse = UserResponse(name: Option<string>, email: Option<string>, roles: seq<string>)

  function ToResponse(u: User): UserResponse {
    UserResponse(u.name, u.email, u.roles)
  }

  const DuplicateEmailMessage: string := "Esse e-mail já está registrado."
  const AuthFailedMessage: string := "Falha na autenticação."
  const TargetMissingPrefix: string := "Usuário não encontrato para o e-mail: "
  const NoPermissionMessage: string := "Sem permissão para atualizar esse cadastro."
  const DeleteMissingMessage: string := "Não foi encontrato registro para esse e-mail."

  /** The row `create` saves: the mapped DTO, with the password replaced by
      its encoding and the roles by BASIC alone. */
  function NewUser(id: UserId, d: UserRequest, encoded: string): User {
    User(id, d.name, d.email, Some(encoded), [RoleBasic])
  }

  /** `create`. A null password reaches BCrypt, which throws
      IllegalArgumentException. */
  function Create(a: Accounts, d: UserRequest, enc: Encoder): (r: Result<Commit<UserResponse>>)
    ensures |UsersWithEmail(a, d.email)| == 1 ==> r == Err(DuplicateResource(DuplicateEmailMessage))
    ensures r.Ok? <==> UsersWithEmail(a, d.email) == {} && d.password.Some?
    ensures r.Ok? ==> r.value.store.users.Keys == a.users.Keys + {a.nextUserId}
    ensures r.Ok? && a.nextUserId !in a.users ==> forall k :: k in a.users ==> k in r.value.store.users && r.value.store.users[k] == a.users[k]
    ensures r.Ok? ==> r.value.store.tokens == a.tokens
    ensures r.Ok? ==> a.nextUserId in r.value.store.users
    ensures r.Ok? ==> (
      var u := r.value.store.users[a.nextUserId];
      && u.email == d.email && u.name == d.name
      && u.password == Some(enc.encode(d.password.value))
      && u.roles == [RoleBasic]
      && r.value.value == ToResponse(u))
  {
    var existing :- FindByEmail(a, d.email);
    if existing.Some? then Err(DuplicateResource(DuplicateEmailMessage))
    else if d.password.None? then Err(Unhandled("IllegalArgumentException"))
    else
      var u := NewUser(a.nextUserId, d, enc.encode(d.password.value));
      Ok(Commit(a.(users := a.users[a.nextUserId := u], nextUserId := a.nextUserId + 1), ToResponse(u)))
  }

  /** The roles requested in the DTO never reach the new account. */
  lemma CreateIgnoresRequestedRoles(a: Accounts, d: UserRequest, roles: seq<string>, enc: Encoder)
    ensures Create(a, d.(roles := Some(roles)), enc) == Create(a, d.(roles := None), enc)
  {
  }

  lemma CreatePreservesValid(a: Accounts, d: UserRequest, enc: Encoder)
    requires Valid(a)
    ensures Create(a, d, enc).Ok? ==> Valid(Create(a, d, enc).value.store)
  {
  }

  /** `anyMatch(role -> role.getName().equalsIgnoreCase("ADMIN"))`. */
  predicate IsAdmin(u: User) {
    exists i :: 0 <= i < |u.roles| && EqualsIgnoreCase(u.roles[i], RoleAdmin)
  }

  /** The patch rule: an administrator, or the owner of the account, the
      emails compared ignoring case. */
  predicate MayPatch(caller: User, email: string)
    requires caller.email.Some?
  {
    IsAdmin(caller) || EqualsIgnoreCase(caller.email.value, email)
  }

  /** `updateEntityFromDto` with IGNORE for nulls: each non-null DTO field
      replaces the entity's, the password copied as given. */
  function Merge(u: User, d: UserRequest): (v: User)
    ensures v.id == u.id
    ensures v.name == (if d.name.Some? then d.name else u.name)
    ensures v.email == (if d.email.Some? then d.email else u.email)
    ensures v.password == (if d.password.Some? then d.password else u.password)
    ensures v.roles == (if d.roles.Some? then d.roles.value else u.roles)
  {
    User(u.id,
      if d.name.Some? then d.name else u.name,
      if d.email.Some? then d.email else u.email,
      if d.password.Some? then d.password else u.password,
      if d.roles.Some? then d.roles.value else u.roles)
  }

  /** An all-null DTO changes nothing. */
  lemma MergeEmptyIsIdentity(u: User)
    ensures Merge(u, UserRequest(None, None, None, None)) == u
  {
  }

  /** The steps of `patchUser` around the entity update, which is passed
      in: caller lookup, the case-insensitive comparisons, the target
      lookup, and then the permission check. */
  function PatchWith(a: Accounts, caller: UserId, email: string, update: User -> User): (r: Result<Commit<UserResponse>>)
    ensures caller !in a.users ==> r == Err(Authentication(AuthFailedMessage, false))
    ensures r.Ok? <==>
      && caller in a.users && a.users[caller].email.Some?
      && |UsersWithEmail(a, Some(email))| == 1
      && MayPatch(a.users[caller], email)
    ensures caller in a.users && a.users[caller].email.Some? && UsersWithEmail(a, Some(email)) == {} ==>
      r == Err(ResourceNotFound(TargetMissingPrefix + email))
    ensures (caller in a.users && a.users[caller].email.Some? && |UsersWithEmail(a, Some(email))| == 1
      && !MayPatch(a.users[caller], email)) ==> r == Err(AccessDenied(NoPermissionMessage))
    ensures r.Ok? ==> exists id :: (UsersWithEmail(a, Some(email)) == {id} && id in a.users
      && r.value.store == a.(users := a.users[id := update(a.users[id])])
      && r.value.value == ToResponse(update(a.users[id])))
  {
    if caller !in a.users then Err(Authentication(AuthFailedMessage, false))
    else
      var auth := a.users[caller];
      if auth.email.None? then Err(Unhandled("NullPointerException"))
      else
        var target :- FindByEmail(a, Some(email));
        if target.None? then Err(ResourceNotFound(TargetMissingPrefix + email))
        else if MayPatch(auth, email) then
          var id := target.value;
          var v := update(a.users[id]);
          Ok(Commit(a.(users := a.users[id := v]), ToResponse(v)))
        else Err(AccessDenied(NoPermissionMessage))
  }

  /** `patchUser` as written: the merged DTO is saved as it is, so a new
      password is stored raw. */
  function PatchUser(a: Accounts, caller: UserId, email: string, d: UserRequest): (r: Result<Commit<UserResponse>>)
    ensures r.Ok? ==> exists id :: (UsersWithEmail(a, Some(email)) == {id} && id in a.users
      && r.value.store.users == a.users[id := Merge(a.users[id], d)]
      && (d.password.Some? ==> r.value.store.users[id].password == d.password))
  {
    PatchWith(a, caller, email, u => Merge(u, d))
  }

  /** The merge with the password encoded, as `create` stores it. */
  function MergeEncoded(u: User, d: UserRequest, enc: Encoder): (v: User)
    ensures v == Merge(u, d).(password := if d.password.Some? then Some(enc.encode(d.password.value)) else u.password)
  {
    var m := Merge(u, d);
    if d.password.Some? then m.(password := Some(enc.encode(d.password.value))) else m
  }

  /** `patchUser` with the new password encoded before it is saved. */
  function PatchUserFixed(a: Accounts, caller: UserId, email: string, d: UserRequest, enc: Encoder): (r: Result<Commit<UserResponse>>)
    ensures r.Ok? ==> exists id :: (UsersWithEmail(a, Some(email)) == {id} && id in a.users
      && r.value.store.users == a.users[id := MergeEncoded(a.users[id], d, enc)]
      && (d.password.Some? ==> r.value.store.users[id].password == Some(enc.encode(d.password.value))))
  {
    PatchWith(a, caller, email, u => MergeEncoded(u, d, enc))
  }

  /** Both versions decide alike; they differ only in the stored password. */
  lemma FixedPatchDecidesAlike(a: Accounts, caller: UserId, email: string, d: UserRequest, enc: Encoder)
    ensures PatchUser(a, caller, email, d).Ok? <==> PatchUserFixed(a, caller, email, d, enc).Ok?
    ensures PatchUser(a, caller, email, d).Err? ==> PatchUserFixed(a, caller, email, d, enc) == PatchUser(a, caller, email, d)
  {
  }

  /** The account's owner may always patch it, whatever the case of the
      address in the path. */
  lemma OwnerMayPatch(a: Accounts, caller: UserId, email: string, d: UserRequest)
    requires caller in a.users && a.users[caller].email == Some(email)
    requires UsersWithEmail(a, Some(email)) == {caller}
    ensures PatchUser(a, caller, email, d).Ok?
  {
    assert EqualsIgnoreCase(email, email);
  }

  /** Nothing keeps the roles out of the merge, so an account owner without
      ADMIN can give themselves the role through their own patch. */
  lemma OwnerCanGrantAdmin(a: Accounts, caller: UserId, email: string, d: UserRequest)
    requires caller in a.users && a.users[caller].email == Some(email)
    requires UsersWithEmail(a, Some(email)) == {caller}
    requires d.roles == Some([RoleAdmin])
    ensures PatchUser(a, caller, email, d).Ok?
    ensures IsAdmin(PatchUser(a, caller, email, d).value.store.users[caller])
  {
    OwnerMayPatch(a, caller, email, d);
    var u := PatchUser(a, caller, email, d).value.store.users[caller];
    assert u.roles[0] == RoleAdmin;
  }

  lemma PatchPreservesValid(a: Accounts, caller: UserId, email: string, d: UserRequest)
    requires Valid(a)
    ensures PatchUser(a, caller, email, d).Ok? ==> Valid(PatchUser(a, caller, email, d).value.store)
  {
  }

  /** `delete`: the join-table rows go first, then the user. Refresh-token
      rows still pointing at the user make the database refuse the delete. */
  function Delete(a: Accounts, email: string): (r: Result<Commit<()>>)
    ensures UsersWithEmail(a, Some(email)) == {} ==> r == Err(ResourceNotFound(DeleteMissingMessage))
    ensures r.Ok? <==> exists id :: UsersWithEmail(a, Some(email)) == {id} && RowsOfUser(a, id) == {}
    ensures r.Ok? ==> exists id :: (UsersWithEmail(a, Some(email)) == {id}
      && r.value.store == a.(users := a.users - {id}))
  {
    var target :- FindByEmail(a, Some(email));
    if target.None? then Err(ResourceNotFound(DeleteMissingMessage))
    else if RowsOfUser(a, target.value) != {} then Err(Unhandled(ConstraintViolated))
    else Ok(Commit(a.(users := a.users - {target.value}), ()))
  }

  lemma DeletePreservesValid(a: Accounts, email: string)
    requires Valid(a)
    ensures Delete(a, email).Ok? ==> Valid(Delete(a, email).value.store)
  {
    var r := Delete(a, email);
    if r.Ok? {
      var id :| UsersWithEmail(a, Some(email)) == {id} && RowsOfUser(a, id) == {};
      forall k | k in a.tokens ensures a.tokens[k].userId != id {
        assert k !in RowsOfUser(a, id);
      }
    }
  }
}

=== FILE: users_page.dfy ===
/** The user form of UsersPage: the submit branching, the password left out
    of an edit, and the form an "Editar" click builds. The form's `id` is a
    JavaScript value whose truthiness picks update over create. */
module UsersPage {
  import opened Common
  import Requests
  import Accounts
  import UserService
  import Responses
  import Endpoints

  datatype Form = Form(id: Option<int>, name: string, email: string, password: string, role: Option<string>)

  /** The body sent: `password` is None when the key was deleted. */
  datatype Payload = Payload(id: Option<int>, name: string, email: string, password: Option<string>, role: Option<string>)

  datatype Action = FormError(message: string) | UpdateUser(id: int, payload: Payload) | CreateUser(payload: Payload)

  const PasswordRequiredMessage: string := "A senha é obrigatória para novos usuários."
  const DefaultRole: string := "USER"

  /** The blank form: no id and role "USER". */
  const InitialForm: Form := Form(None, "", "", "", Some(DefaultRole))

  /** null, undefined and 0 are falsy. */
  predicate Truthy(id: Option<int>) {
    id.Some? && id.value != 0
  }

  /** `handleFormSubmit`: an edit with an empty password drops the key, so
      the stored password is kept; an edit goes out as an update whatever
      its password; a create needs a password and otherwise stops with an
      error and no request. */
  function Submit(f: Form): (r: Action)
    ensures r.UpdateUser? <==> Truthy(f.id)
    ensures r.FormError? <==> !Truthy(f.id) && f.password == ""
    ensures r.FormError? ==> r.message == PasswordRequiredMessage
    ensures r.UpdateUser? ==> r.id == f.id.value && (r.payload.password.None? <==> f.password == "")
    ensures r.CreateUser? ==> r.payload.password == Some(f.password) && f.password != ""
    ensures !r.FormError? ==> (
      && r.payload.name == f.name && r.payload.email == f.email && r.payload.role == f.role
      && (r.payload.password.Some? ==> r.payload.password.value == f.password))
  {
    var strip := Truthy(f.id) && f.password == "";
    var payload := Payload(f.id, f.name, f.email, if strip then None else Some(f.password), f.role);
    if Truthy(f.id) then UpdateUser(f.id.value, payload)
    else if f.password == "" then FormError(PasswordRequiredMessage)
    else CreateUser(payload)
  }

  /** The form after a submit: back to the blank form when the request
      succeeded, unchanged after a check failure or a failed request. */
  function AfterSubmit(f: Form, requestSucceeded: bool): (g: Form)
    ensures g == InitialForm <==> (!Submit(f).FormError? && requestSucceeded) || f == InitialForm
    ensures g != InitialForm ==> g == f
  {
    if Submit(f).FormError? || !requestSucceeded then f else InitialForm
  }

  /** The blank form left untouched is refused: it has no password. */
  lemma BlankFormRefused()
    ensures Submit(InitialForm) == FormError(PasswordRequiredMessage)
    ensures AfterSubmit(InitialForm, true).role == Some(DefaultRole)
  {
  }

  /** The role column: the user's role, or "USER" when there is none. */
  function RoleShown(role: Option<string>): (r: string)
    ensures role.None? || role == Some("") ==> r == DefaultRole
    ensures role.Some? && role.value != "" ==> r == role.value
  {
    if role.None? || role.value == "" then DefaultRole else role.value
  }

  /** A user of the listing. */
  datatype Listed = Listed(id: Option<int>, name: string, email: string, role: Option<string>)

  /** `handleEdit` as written: name, email and role, an empty password and
      no id at all. */
  function EditForm(u: Listed): (f: Form)
    ensures f.id.None? && f.password == ""
    ensures f.name == u.name && f.email == u.email && f.role == u.role
  {
    Form(None, u.name, u.email, "", u.role)
  }

  /** `handleEdit` keeping the listed user's id. */
  function EditFormFixed(u: Listed): (f: Form)
    ensures f.id == u.id && f.password == ""
    ensures f.name == u.name && f.email == u.email && f.role == u.role
  {
    Form(u.id, u.name, u.email, "", u.role)
  }

  /** The body as the back end binds it: `role` is not a field of the
      request, so it is ignored, and a deleted key is null. */
  function AsRequest(p: Payload): (d: Requests.UserRequest)
    ensures d.email == Some(p.email) && d.password == p.password && d.roles.None?
  {
    Requests.UserRequest(Some(p.name), Some(p.email), p.password, None)
  }

  /** As written, submitting an edit takes the create branch: without a new
      password it stops with "password required", and with one it posts a
      new user under the edited user's email to the validated POST. A body
      that breaks a constraint (a password under six characters, a blank
      name) is answered 400; one that passes is refused as a duplicate,
      409. Either way the edited user is not updated. */
  lemma EditedUserIsCreated(u: Listed, password: string, a: Accounts.Accounts, isEmail: string -> bool, enc: Accounts.Encoder)
    requires |Accounts.UsersWithEmail(a, Some(u.email))| == 1
    ensures password == "" ==> Submit(EditForm(u).(password := password)) == FormError(PasswordRequiredMessage)
    ensures password != "" ==> Submit(EditForm(u).(password := password)).CreateUser?
    ensures password != "" ==>
      var d := AsRequest(Submit(EditForm(u).(password := password)).payload);
      var r := Endpoints.PostUser(a, d, isEmail, enc);
      && r.Err?
      && Responses.Respond(r.error).status in {400, 409}
      && (Requests.UserValid(d, isEmail) <==> r.error == DuplicateResource(UserService.DuplicateEmailMessage))
  {
  }

  /** With the id kept, submitting an edit is an update of that user, and
      leaving the password empty leaves it out of the body. */
  lemma EditedUserIsUpdated(u: Listed, password: string)
    requires Truthy(u.id)
    ensures Submit(EditFormFixed(u).(password := password)).UpdateUser?
    ensures Submit(EditFormFixed(u).(password := password)).id == u.id.value
    ensures Submit(EditFormFixed(u).(password := password)).payload.password.None? <==> password == ""
    ensures password == "" ==> AsRequest(Submit(EditFormFixed(u).(password := password)).payload).password.None?
  {
  }
}
